=== FILE: README.md ===
# YOTION core in Dafny

YOTION is a desktop notebook built with Tauri. Its Rust back end keeps
everything in one SQLite database:

- languages and vocabulary with SM-2 flashcards;
- tech spaces with code snippets;
- projects and tasks;
- a planner of events and notes;
- a "vault" of personal accounts and personal information.

This project models the back end's core as pure functions over immutable
values and proves what that code guarantees. The core has four parts.

- **The field obfuscator** (`encryption.rs`), in modules `Encryption`,
  `Base64`, `Utf8` and `Djb2`.
  - A value is hidden by XOR-ing each UTF-8 byte with the constant 0x42,
    then base64-encoding the result with the standard alphabet and `=`
    padding (section 4 of RFC 4648).
  - Revealing it base64-decodes, XORs again and revalidates the UTF-8.
  - The decoder is lenient: it never reports an error, it drops every `=`,
    and it reads a foreign symbol as 255.
  - `hash_sensitive_data` is djb2 in a wrapping `u64`, printed in hex.
  - Bytes are `seq<bv8>`, so the `u8` shifts truncate exactly as in Rust.
  - Strings are Dafny strings of Unicode scalar values. Their UTF-8
    encoding is modelled exactly, so `.len()` is a byte length and
    `String::from_utf8` can fail.
- **The validators and sanitizers** (`validation.rs`), in modules
  `Validation` and `Text`.
  - Each check returns `Pass` or the first failure it meets, as the
    `bail!`s do.
  - `trim` uses the Unicode White_Space property, as Rust's
    `char::is_whitespace` does.
  - `split` is modelled with its inverse `Join`.
- **The SM-2 scheduler** (`db/vocabulary.rs:126-168`), in module `Sm2`.
  - This is one transition on `(ease, interval, repetitions)` given a
    quality.
  - The `f64` ease is an exact `real`.
  - `round` rounds halves away from zero, and `as i32` saturates. A
    review that reaches a saturated interval would panic in chrono first
    (see "Left out").
- **The record store** (`db/*.rs`), in modules `Schema`, `Ordering`,
  `Like`, `LanguageStore`, `VocabularyStore`, `TechNoteStore`,
  `ProjectStore`, `PlannerStore` and `VaultStore`.
  - The database is a record of tables. Each table is a map from rowid to
    row plus its AUTOINCREMENT counter.
  - `Valid` states the integrity the schema of `db/connection.rs`
    declares:
    - rows are well keyed;
    - the UNIQUE columns are unique;
    - the foreign keys hold whenever the connection enforces them.
  - Every create is gated by the validators, stores trimmed fields and
    keeps `Valid`.
  - Queries are WHERE, then a stable ORDER BY, then LIMIT, over the rows
    in id order. A negative LIMIT means no limit, as in SQLite.
  - LIKE is SQLite's: `%` and `_` are wildcards, there is no escape
    character, and only ASCII letters compare without case.
  - Timestamps are integer seconds, and each operation takes `now` as a
    parameter.

The repository has two live copies of the store.

- `main.rs` uses `db/`. It switches foreign keys on
  (`db/connection.rs:20`) and validates its input.
- `lib.rs` uses `database.rs`. That copy never switches foreign keys on
  and validates nothing. Its review also clamps the quality where `db/`
  rejects it.

Module `LegacyStore` models the four `database.rs` operations named
below. It shares the scheduler and the tables with `db/`, and its lemmas
relate the two copies.

## Model

| member | source | states |
|---|---|---|
| Encryption.XorInvolution | src-tauri/src/encryption.rs:24-30 | XOR with the fixed key 0x42, applied twice, gives back every byte string |
| Encryption.XorMovesEveryByte | src-tauri/src/encryption.rs:24 | the key is not zero, so XOR changes every byte: the stored bytes are never the plaintext bytes |
| Encryption.Encrypt | src-tauri/src/encryption.rs:22-26 | `encrypt` never fails; the ciphertext is 4·⌈n/3⌉ characters for n UTF-8 bytes of plaintext, all from the base64 alphabet or `=` |
| Encryption.DecryptData | src-tauri/src/encryption.rs:28-32 | `decrypt_data` fails exactly when the decoded, de-XORed bytes are not UTF-8, and then with a UTF-8 error; otherwise it returns the one string whose encoding is those bytes |
| Encryption.New | src-tauri/src/encryption.rs:9-12 | `EncryptedData::new` always succeeds, and its stored text decodes to the XORed UTF-8 bytes of the plaintext |
| Encryption.DecryptEncrypt | src-tauri/src/encryption.rs:22-32 | `decrypt_data(encrypt(s))` returns `s` for every string |
| Encryption.EncryptedData.Decrypt | src-tauri/src/encryption.rs:14-16 | `decrypt` fails, with a UTF-8 error, exactly when the decoded, de-XORed bytes are not UTF-8; otherwise it returns the string whose encoding is those bytes |
| Encryption.NewDecrypt | src-tauri/src/encryption.rs:9-16 | `new(s).decrypt()` returns `s` for every string |
| Encryption.NewViews | src-tauri/src/encryption.rs:18-39 | `as_bytes()` and `to_string()` (through `Display`) of a fresh value both give the ciphertext `encrypt` produced |
| Encryption.EncryptInjective | src-tauri/src/encryption.rs:22-26 | encryption is deterministic and injective: two plaintexts get equal ciphertexts exactly when they are equal |
| Encryption.DecryptRejectsBadUtf8 | src-tauri/src/encryption.rs:31 | a ciphertext that de-XORs to a lone continuation byte is refused, so the UTF-8 check is live |
| Base64.Encode | src-tauri/src/encryption.rs:41-67 | the encoding of n bytes is 4·⌈n/3⌉ characters (so "" for no bytes), each in the 64-symbol alphabet or `=` |
| Base64.EncodePadding | src-tauri/src/encryption.rs:53-63 | `=` appears only at the end: none after whole groups, `==` after a final 1-byte group, `=` after a final 2-byte group |
| Base64.EncodeIsAscii | src-tauri/src/encryption.rs:42-63 | every character of an encoding is ASCII, so its bytes are its characters |
| Base64.LookupIsTable | src-tauri/src/encryption.rs:72-75 | the decode table maps each alphabet byte to its index and every other byte to 255 |
| Base64.Decode | src-tauri/src/encryption.rs:69-102 | `base64_decode` always returns `Ok`; the `=`-free symbols yield 3 bytes per full chunk of 4 and one byte fewer than the symbols of a final shorter chunk, so a final lone symbol yields nothing |
| Base64.DecodeEncode | src-tauri/src/encryption.rs:41-102 | decoding an encoding gives back the bytes, for every byte string; this rests on the `u8` shifts dropping high bits |
| Base64.DecodeIgnoresPadding | src-tauri/src/encryption.rs:78 | a `=` anywhere in the input, not only at the end, is ignored |
| Base64.DecodeAcceptsForeignSymbol | src-tauri/src/encryption.rs:72-96 | a symbol outside the alphabet is read as 255 rather than rejected: "A!" decodes to the byte 0x0F |
| Utf8.Encode | src-tauri/src/encryption.rs:23 | `as_bytes` gives at least one byte per character and no bytes only for the empty string |
| Utf8.DecodeEncode | src-tauri/src/encryption.rs:23-31 | `String::from_utf8` accepts the bytes of every string and returns that string |
| Utf8.EncodeDecode | src-tauri/src/encryption.rs:31 | whatever `String::from_utf8` accepts is exactly the encoding of the string it returns |
| Utf8.DecodeIffEncode | src-tauri/src/encryption.rs:23-31 | decoding gives `s` exactly when the bytes are the encoding of `s` |
| Djb2.HashIsPolyMod | src-tauri/src/encryption.rs:105-109 | the wrapping loop computes the exact djb2 value 5381·33ⁿ + Σ bᵢ·33ⁿ⁻¹⁻ⁱ reduced mod 2⁶⁴ |
| Djb2.Hex | src-tauri/src/encryption.rs:111 | the lower-hex format prints at least one lowercase hex digit, with no leading zero except for 0 itself |
| Djb2.ParseHexOfHex | src-tauri/src/encryption.rs:111 | reading the printed digits back as a number gives the hashed value |
| Djb2.HashSensitiveData | src-tauri/src/encryption.rs:104-112 | the hash is 1 to 16 lowercase hex digits |
| Djb2.HashMeaning | src-tauri/src/encryption.rs:104-112 | the printed hash reads back as the djb2 value of the UTF-8 bytes mod 2⁶⁴ |
| Djb2.HashOfEmpty | src-tauri/src/encryption.rs:105 | the empty string hashes to the seed 5381, printed "1505" |
| Text.Trim | src-tauri/src/validation.rs:7 | `trim` returns the slice from the first to the last non-whitespace character; everything it drops is whitespace |
| Text.TrimEmptyIffBlank | src-tauri/src/validation.rs:18 | the trimmed value is empty exactly when every character is whitespace |
| Text.TrimIdempotent | src-tauri/src/validation.rs:87 | trimming twice is trimming once |
| Text.Split | src-tauri/src/validation.rs:74 | `split('-')` gives at least one piece, and no piece holds the separator |
| Text.JoinSplit | src-tauri/src/validation.rs:74 | joining the pieces of `split` with the separator gives back the string |
| Text.SplitJoin | src-tauri/src/validation.rs:74 | splitting a join of separator-free pieces gives back the pieces |
| Text.SplitCount | src-tauri/src/validation.rs:74-75 | `split` gives one piece more than the separator occurs, so three parts means exactly two hyphens |
| Validation.ValidateStringLength | src-tauri/src/validation.rs:6-15 | passes exactly when the UTF-8 byte length of the trimmed value is within min..max; a short value is reported before a long one |
| Validation.ValidateNotEmpty | src-tauri/src/validation.rs:17-22 | fails, naming the field, exactly when the value is blank |
| Validation.ValidateEmail | src-tauri/src/validation.rs:24-30 | passes exactly when the value is not blank and contains both '@' and '.', anywhere and in any order |
| Validation.ValidateLanguageCode | src-tauri/src/validation.rs:32-41 | passes exactly when the untrimmed code is not blank, is 2 to 5 bytes long and holds only ASCII letters and '-'; each failure has its own message |
| Validation.ValidCodeIsTrimmed | src-tauri/src/validation.rs:32-41 | an accepted code has no whitespace and is pure ASCII, so trimming keeps it and it is 2 to 5 characters long |
| Validation.ValidateDifficultyLevel | src-tauri/src/validation.rs:43-48 | passes exactly when 1 ≤ level ≤ 5 |
| Validation.ValidateQualityRating | src-tauri/src/validation.rs:50-55 | passes exactly when 0 ≤ quality ≤ 5 |
| Validation.ValidateStatus | src-tauri/src/validation.rs:57-62 | passes exactly when the status equals an entry of the allowed list; the failure carries the list |
| Validation.ValidatePriority | src-tauri/src/validation.rs:64-67 | passes exactly for "low", "medium", "high" and "urgent" |
| Validation.ValidateDateFormat | src-tauri/src/validation.rs:69-84 | the empty date passes, and every failure is the one date-format error |
| Validation.DateFormatOfPieces | src-tauri/src/validation.rs:69-84 | a date written as three hyphen-free pieces splits back into them, and it passes exactly when they are 4, 2 and 2 bytes long |
| Validation.DateFormatAccepts | src-tauri/src/validation.rs:69-84 | every `YYYY-MM-DD`-shaped date passes |
| Validation.DateFormatShape | src-tauri/src/validation.rs:74-81 | a non-empty date passes only if it is three hyphen-free pieces of 4, 2 and 2 bytes joined by '-' |
| Validation.DateDigitsUnchecked | src-tauri/src/validation.rs:79-83 | the pieces' characters are not checked: "abcd-ef-gh" passes |
| Validation.DateShortMonthRejected | src-tauri/src/validation.rs:79-81 | a one-digit month fails: "2024-1-15" is rejected |
| Validation.SanitizeString | src-tauri/src/validation.rs:86-88 | the result is never longer than the input, neither starts nor ends with whitespace, and is empty exactly when the input is blank |
| Validation.SanitizeOptionalString | src-tauri/src/validation.rs:90-92 | `None` stays `None`, and a present value is sanitized |
| Validation.SanitizeIdempotent | src-tauri/src/validation.rs:86-92 | sanitizing a second time changes nothing, for both sanitizers |
| Validation.ValidationSeesSanitized | src-tauri/src/validation.rs:6-22 | the length and blank checks give the same verdict on the sanitized value, so storing it loses nothing they look at |
| Sm2.Clamp | src-tauri/src/db/vocabulary.rs:139 | `max(0).min(5)` lands in 0..5, keeps values already there, and sends below-range to 0 and above-range to 5 |
| Sm2.Round | src-tauri/src/db/vocabulary.rs:147 | `round` returns the nearest integer, taking halves away from zero |
| Sm2.SaturateI32 | src-tauri/src/db/vocabulary.rs:147 | `as i32` keeps in-range values and saturates the others at the i32 bounds |
| Sm2.EaseDelta | src-tauri/src/db/vocabulary.rs:155 | the ease change before the floor is at most +0.1 |
| Sm2.NextEase | src-tauri/src/db/vocabulary.rs:155-156 | the new ease is the old ease plus the delta, floored at 1.3, so it is never below 1.3 |
| Sm2.Scaled | src-tauri/src/db/vocabulary.rs:147 | the third and later interval is interval × ease rounded to the nearest day when that fits in i32, and it is never shorter than the old interval when ease ≥ 1.3 |
| Sm2.Transition | src-tauri/src/db/vocabulary.rs:141-156 | a quality below 3 resets to interval 1 and 0 repetitions; a success gives intervals 1, 6, then the scaled interval, and counts one more repetition; the ease is updated on both paths |
| Sm2.LongIntervalIsScaled | src-tauri/src/db/vocabulary.rs:146-148 | after two successes, the next successful interval lies within half a day of the old interval times the old ease |
| Sm2.EaseDeltaTable | src-tauri/src/db/vocabulary.rs:155 | the deltas are +0.1, 0, −0.14, −0.32, −0.54 and −0.8 for qualities 5 down to 0 |
| Sm2.EaseMonotone | src-tauri/src/db/vocabulary.rs:155-156 | a better quality never gives a lower new ease |
| Sm2.InitialReachable | src-tauri/src/db/vocabulary.rs:31-35 | the card `create_vocabulary` provisions (2.5, 1, 0) satisfies the scheduler invariant |
| Sm2.TransitionReachable | src-tauri/src/db/vocabulary.rs:141-156 | every review keeps the invariant: ease ≥ 1.3, interval ≥ 1 and within i32, repetitions ≥ 0, interval 1 while repetitions ≤ 1 |
| Sm2.ScaledIntervalGrows | src-tauri/src/db/vocabulary.rs:147 | for interval ≥ 1 and ease ≥ 1.3, round(interval × ease) ≥ interval |
| Sm2.SuccessNeverShrinks | src-tauri/src/db/vocabulary.rs:141-149 | on the success path, the interval of a card in the invariant never shrinks |
| Sm2.FailureResets | src-tauri/src/db/vocabulary.rs:150-153 | after a failure, the next state depends only on the ease: interval 1, repetitions 0 |
| Sm2.FirstSuccesses | src-tauri/src/db/vocabulary.rs:142-145 | from a new card, the first two successes give intervals 1 and then 6, whatever the grades |
| Schema.FlashcardDefaultsAreInitial | src-tauri/src/db/connection.rs:63-65 | the flashcard column defaults (2.5, 1, 0) are the scheduler's starting state |
| Schema.OpenValid | src-tauri/src/db/connection.rs:11-28 | a newly created, empty database file satisfies every integrity constraint |
| Schema.RowsAscending | src-tauri/src/db/connection.rs:35 | the model's table scan (its pre-sort order) lists rows by strictly ascending rowid, none above the AUTOINCREMENT counter |
| Schema.ScanFilterAscending | src-tauri/src/db/connection.rs:35 | a WHERE over the model's table scan lists the rows it keeps by strictly ascending rowid |
| Schema.InsertLanguage | src-tauri/src/db/connection.rs:34-40 | an insert is refused, naming the column, exactly when the name or the code is already taken; otherwise the row gets the next rowid and integrity is kept |
| Schema.InsertVocabulary | src-tauri/src/db/connection.rs:45-55 | with foreign keys on, an insert succeeds exactly when the language exists; without them it always succeeds; integrity is kept |
| Schema.InsertFlashcard | src-tauri/src/db/connection.rs:59-70 | with foreign keys on, an insert succeeds exactly when the word exists; integrity is kept |
| Schema.InsertTechSpace | src-tauri/src/db/connection.rs:75-81 | an insert is refused exactly when the name is taken; integrity is kept |
| Schema.InsertCodeSnippet | src-tauri/src/db/connection.rs:85-96 | with foreign keys on, an insert succeeds exactly when the tech space exists; integrity is kept |
| Schema.InsertTask | src-tauri/src/db/connection.rs:116-128 | with foreign keys on, an insert succeeds exactly when the project exists; integrity is kept |
| Schema.InsertProject | src-tauri/src/db/connection.rs:101-112 | a project row has no constraint to break, so inserting one keeps integrity |
| Schema.InsertEvent | src-tauri/src/db/connection.rs:133-145 | an event row has no constraint to break, so inserting one keeps integrity |
| Schema.InsertNote | src-tauri/src/db/connection.rs:149-158 | a note row has no constraint to break, so inserting one keeps integrity |
| Schema.InsertAccount | src-tauri/src/db/connection.rs:162-173 | an account row has no constraint to break, so inserting one keeps integrity |
| Schema.InsertInfo | src-tauri/src/db/connection.rs:177-186 | a personal-info row has no constraint to break, so inserting one keeps integrity |
| Schema.DeleteLanguage | src-tauri/src/db/connection.rs:54-69 | deleting a language removes exactly that language; with foreign keys on, exactly its words go too, and every card whose word survives stays; without them no word or card is touched; surviving rows keep their values, the AUTOINCREMENT counters and every other table are unchanged; integrity is kept |
| Schema.DeleteTechSpace | src-tauri/src/db/connection.rs:96 | deleting a tech space removes exactly its snippets when foreign keys are on, and none otherwise; surviving rows keep their values, the counters and every other table are unchanged |
| Schema.DeleteProject | src-tauri/src/db/connection.rs:128 | deleting a project removes exactly its tasks when foreign keys are on, and none otherwise; surviving rows keep their values, the counters and every other table are unchanged |
| Schema.CascadeReachesFlashcards | src-tauri/src/db/connection.rs:54-69 | the cascade from a language reaches the flashcards of its words |
| Schema.NoCascadeWithoutPragma | src-tauri/src/database.rs:21-24 | without the pragma, a deleted language's words stay behind, pointing at nothing |
| Ordering.Filter | src-tauri/src/db/vocabulary.rs:87 | WHERE keeps exactly the rows that satisfy the condition, never more rows than it was given, and no row more often than the input holds it |
| Ordering.FilterCount | src-tauri/src/db/vocabulary.rs:87 | WHERE keeps each satisfying row exactly as many times as the input holds it, and drops every other row |
| Ordering.FilterAppend | src-tauri/src/db/vocabulary.rs:87 | WHERE over two runs of rows is the WHERE of the first run followed by that of the second, so it keeps the order of the scan |
| Ordering.FilterSorted | src-tauri/src/db/vocabulary.rs:87 | WHERE over rows in some order leaves them in that order |
| Ordering.Sort | src-tauri/src/db/vocabulary.rs:88 | ORDER BY is a permutation of its input |
| Ordering.SortSorted | src-tauri/src/db/vocabulary.rs:88 | ORDER BY on a total preorder yields sorted rows |
| Ordering.Take | src-tauri/src/db/vocabulary.rs:89 | LIMIT keeps a prefix of `limit` rows, or every row when the limit is negative or not reached |
| Ordering.Select | src-tauri/src/db/vocabulary.rs:53 | a query without LIMIT lists each row that satisfies the WHERE exactly as often as the table holds it, no other row, sorted by the ORDER BY |
| Ordering.TakeSubMultiset | src-tauri/src/db/vocabulary.rs:89 | LIMIT never repeats a row: the prefix is a sub-multiset of its input |
| Ordering.Query | src-tauri/src/db/vocabulary.rs:87-89 | the rows come from the table and satisfy the WHERE, no row more often than the WHERE keeps it, are sorted and capped at the limit, and none left out sorts before one returned; below the limit, every selected row is returned |
| LanguageStore.Check | src-tauri/src/db/language.rs:9-12 | passes exactly when the name is not blank and at most 50 bytes trimmed, the code is valid and the flag is not blank; failures come in source order |
| LanguageStore.CreateLanguage | src-tauri/src/db/language.rs:8-35 | nothing is written on a validation or UNIQUE failure; otherwise the trimmed row is inserted with the next id and integrity is kept |
| LanguageStore.GetLanguages | src-tauri/src/db/language.rs:37-59 | every stored language, newest first |
| LanguageStore.CreateThenList | src-tauri/src/db/language.rs:21-40 | after a create, the list holds the new row plus everything listed before |
| LanguageStore.StoredLanguageRevalidates | src-tauri/src/db/language.rs:9-16 | the stored name, code and flag pass the same checks again |
| LanguageStore.DuplicateNameRefused | src-tauri/src/db/connection.rs:36 | a second language whose trimmed name is already stored is refused on `languages.name`, whatever its code |
| VocabularyStore.Check | src-tauri/src/db/vocabulary.rs:9-13 | passes exactly when the word is not blank and at most 200 bytes trimmed, the translation not blank and at most 500, and the difficulty in 1..5 |
| VocabularyStore.NewCard | src-tauri/src/db/vocabulary.rs:31-35 | the provisioned card is the scheduler's initial state, due at creation time and never reviewed |
| VocabularyStore.CreateVocabulary | src-tauri/src/db/vocabulary.rs:8-47 | nothing is written on a validation failure, and with foreign keys on nothing is written for an unknown language; otherwise the trimmed word and exactly one new card for it are inserted, keeping integrity |
| VocabularyStore.GetVocabularyByLanguage | src-tauri/src/db/vocabulary.rs:49-75 | exactly the language's words, each once per stored row, newest first |
| VocabularyStore.DueCards | src-tauri/src/db/vocabulary.rs:85-87 | the cards whose next review has come and whose word the JOIN finds, each once per stored row |
| VocabularyStore.DueCardsInRowidOrder | src-tauri/src/db/vocabulary.rs:85-87 | in the model's pre-sort order, the due cards come by strictly ascending id; SQLite itself may scan by another index |
| VocabularyStore.EarliestFirst | src-tauri/src/db/vocabulary.rs:88 | `next_review ASC` is a total preorder on cards |
| VocabularyStore.DueQueue | src-tauri/src/db/vocabulary.rs:81-89 | due cards only, none more often than stored, earliest first, at most `limit` of them, and none left out is due earlier than one taken; with room, every due card |
| VocabularyStore.Joined | src-tauri/src/db/vocabulary.rs:104-113 | the word paired with a card carries the card's `vocabulary_id` as its id, and is the stored word |
| VocabularyStore.WithWords | src-tauri/src/db/vocabulary.rs:86 | the JOIN keeps the cards in order and pairs each with its word |
| VocabularyStore.GetDueFlashcards | src-tauri/src/db/vocabulary.rs:77-124 | the pairs' cards are the due queue, and each comes with the word whose id it carries |
| VocabularyStore.NewWordIsDue | src-tauri/src/db/vocabulary.rs:31-35 | a new word's card is due at once and stays due; when the limit leaves room it is served with its word |
| VocabularyStore.ProvisionedCardIsDue | src-tauri/src/db/vocabulary.rs:23-35 | the card inserted after the word is due from the creation time onward, and is served with that word |
| VocabularyStore.DueCardIsServed | src-tauri/src/db/vocabulary.rs:77-124 | when the limit leaves room, every due card is returned with its word |
| VocabularyStore.QueuedCardIsServed | src-tauri/src/db/vocabulary.rs:77-124 | the card at each position of the due queue comes back at that position, paired with its word |
| VocabularyStore.Reviewed | src-tauri/src/db/vocabulary.rs:141-159 | a reviewed card takes one SM-2 step, is next due `interval` days after now, and records now as its last review; its identity is unchanged |
| VocabularyStore.UpdateCard | src-tauri/src/db/vocabulary.rs:161-165 | the UPDATE changes only the row with that id, and no other table |
| VocabularyStore.ReviewFlashcard | src-tauri/src/db/vocabulary.rs:126-168 | a quality outside 0..5 is refused before the store is read; an unknown card fails at `query_row` with nothing written; otherwise only that card takes the SM-2 step, keeping integrity |
| VocabularyStore.ReviewedNotDueForADay | src-tauri/src/db/vocabulary.rs:158 | a card just reviewed is not due again for at least a day |
| VocabularyStore.CreateKeepsInvariants | src-tauri/src/db/vocabulary.rs:23-35 | create keeps "every word has a card" and "every card is in the scheduler invariant" |
| VocabularyStore.ProvisionKeepsInvariants | src-tauri/src/db/vocabulary.rs:29-35 | inserting a word together with its initial card keeps both invariants |
| VocabularyStore.ReviewKeepsInvariants | src-tauri/src/db/vocabulary.rs:161-165 | a review keeps both invariants |
| TechNoteStore.CheckTechSpace | src-tauri/src/db/tech_notes.rs:9-11 | passes exactly when the name is not blank and at most 100 bytes trimmed and the icon is not blank; failures come in source order |
| TechNoteStore.CreateTechSpace | src-tauri/src/db/tech_notes.rs:8-34 | nothing is written on a validation failure or a taken name; otherwise the trimmed row is inserted, keeping integrity |
| TechNoteStore.GetTechSpaces | src-tauri/src/db/tech_notes.rs:36-58 | every tech space, newest first |
| TechNoteStore.CheckSnippet | src-tauri/src/db/tech_notes.rs:61-64 | passes exactly when the title is not blank and at most 200 bytes trimmed, and the code and language are not blank |
| TechNoteStore.CreateCodeSnippet | src-tauri/src/db/tech_notes.rs:60-94 | nothing is written on a validation failure, or for a missing tech space when foreign keys are on; the code is stored verbatim and the other text trimmed |
| TechNoteStore.GetCodeSnippetsByTechSpace | src-tauri/src/db/tech_notes.rs:96-123 | exactly the space's snippets, each once per stored row, most recently updated first |
| TechNoteStore.Hits | src-tauri/src/db/tech_notes.rs:131 | exactly the snippets whose title, description, code or tags are LIKE `%query%`, each once per stored row |
| TechNoteStore.HitsInRowidOrder | src-tauri/src/db/tech_notes.rs:131 | in the model's pre-sort order, the matching snippets come by strictly ascending id; SQLite itself may scan by another index |
| TechNoteStore.LatestFirst | src-tauri/src/db/tech_notes.rs:132 | `updated_at DESC` is a total preorder on snippets |
| TechNoteStore.SearchCodeSnippets | src-tauri/src/db/tech_notes.rs:125-155 | only matching snippets, none more often than stored, most recently updated first, at most `limit` of them, and none left out was updated later than one returned; with room, every match |
| TechNoteStore.MatchesIsSubstringSearch | src-tauri/src/db/tech_notes.rs:127-131 | for a query without wildcards, a snippet matches exactly when a searched column contains the query, ASCII letters compared without case |
| TechNoteStore.EmptySearchFindsAll | src-tauri/src/db/tech_notes.rs:127-131 | an empty query matches every snippet |
| Like.Fold | src-tauri/src/db/tech_notes.rs:131 | LIKE folds only ASCII upper-case letters to lower case |
| Like.Surround | src-tauri/src/db/tech_notes.rs:127 | the pattern is the query between two `%` |
| Like.PercentMatchesAll | src-tauri/src/db/tech_notes.rs:131 | a lone `%` matches every value |
| Like.LiteralPrefix | src-tauri/src/db/tech_notes.rs:131 | a wildcard-free pattern followed by `%` matches exactly the values it prefixes, ignoring ASCII case |
| Like.LeadingPercent | src-tauri/src/db/tech_notes.rs:131 | a leading `%` matches exactly when the rest matches some suffix |
| Like.SurroundIsContains | src-tauri/src/db/tech_notes.rs:127-131 | for a wildcard-free query, `LIKE '%query%'` is substring search with ASCII case folded |
| Like.EmptyQueryMatchesAll | src-tauri/src/db/tech_notes.rs:127 | the empty query matches every value |
| Like.WildcardQueryMatchesAll | src-tauri/src/db/tech_notes.rs:127 | the query "%" is not escaped and matches every value |
| Like.NonAsciiIsCaseSensitive | src-tauri/src/db/tech_notes.rs:131 | letters outside ASCII are not folded: "é" is not LIKE "É" |
| ProjectStore.CheckOptionalDate | src-tauri/src/db/projects.rs:14-19 | an absent date passes, and a present one must pass the date-format check |
| ProjectStore.AllowedValuesAreTrimmed | src-tauri/src/db/projects.rs:23 | an accepted status holds no whitespace, so trimming keeps it |
| ProjectStore.CheckProject | src-tauri/src/db/projects.rs:9-19 | passes exactly when the name is not blank and at most 200 bytes trimmed, the status is a project status, the priority is known, and any given date is well formed |
| ProjectStore.CreateProject | src-tauri/src/db/projects.rs:8-48 | nothing is written on a validation failure; otherwise the trimmed row is inserted with the dates as given, keeping integrity |
| ProjectStore.GetProjects | src-tauri/src/db/projects.rs:50-77 | every project, most recently updated first |
| ProjectStore.CheckTask | src-tauri/src/db/projects.rs:80-87 | passes exactly when the title is not blank and at most 200 bytes trimmed, the status is a task status, the priority is known, and any due date is well formed |
| ProjectStore.CreateTask | src-tauri/src/db/projects.rs:79-117 | nothing is written on a validation failure or, with foreign keys on, for a missing project; a new task has no completion time |
| ProjectStore.GetTasksByProject | src-tauri/src/db/projects.rs:119-147 | exactly the project's tasks, each once per stored row, oldest first |
| ProjectStore.WithStatus | src-tauri/src/db/projects.rs:154-158 | the updated row has the new status and update time, a completion time exactly when the status is "completed", and is otherwise unchanged |
| ProjectStore.UpdateTaskStatus | src-tauri/src/db/projects.rs:149-162 | a status outside the task statuses is refused before writing; an unknown id changes nothing; otherwise only that task's row is rewritten |
| ProjectStore.SetStatus | src-tauri/src/db/projects.rs:152-159 | the UPDATE rewrites only the target task and keeps integrity |
| ProjectStore.CreateTaskKeepsConsistency | src-tauri/src/db/projects.rs:105-116 | creating a task keeps "a completion time only on completed tasks" |
| ProjectStore.SetStatusKeepsConsistency | src-tauri/src/db/projects.rs:154-158 | a status update keeps "a completion time only on completed tasks" |
| ProjectStore.CompletionFollowsStatus | src-tauri/src/db/projects.rs:149-159 | after an update, the task is stamped with now exactly when its status is "completed", and unstamped otherwise |
| ProjectStore.CreatedCompletedIsUnstamped | src-tauri/src/db/projects.rs:113 | a task created already "completed" still has no completion time |
| PlannerStore.CheckEvent | src-tauri/src/db/planner.rs:9-12 | passes exactly when the title is not blank and at most 200 bytes trimmed, the date is well formed and the priority is known; the event type is not checked |
| PlannerStore.CreateEvent | src-tauri/src/db/planner.rs:8-42 | nothing is written on a validation failure; the type is only trimmed, and the date and times are stored as given |
| PlannerStore.StartTimeOrder | src-tauri/src/db/planner.rs:50 | `ORDER BY start_time ASC` is a total preorder on events |
| PlannerStore.StartTimeOrderMeans | src-tauri/src/db/planner.rs:50 | that order puts events without a start time first and compares the others by start time as text |
| PlannerStore.EventsOn | src-tauri/src/db/planner.rs:48-50 | exactly that date's events, each once per stored row, by start time with missing times first |
| PlannerStore.GetEventsByDate | src-tauri/src/db/planner.rs:44-74 | a malformed date is refused; otherwise exactly that date's events, each once per stored row, by start time with missing times first |
| PlannerStore.CreatedEventIsListed | src-tauri/src/db/planner.rs:22-50 | a created event is listed under its date |
| PlannerStore.CheckNote | src-tauri/src/db/planner.rs:77-80 | passes exactly when the title is not blank and at most 200 bytes trimmed, the content is not blank and the date is well formed |
| PlannerStore.CreateNote | src-tauri/src/db/planner.rs:76-106 | nothing is written on a validation failure; the content and date are stored untrimmed |
| PlannerStore.GetNotesByDate | src-tauri/src/db/planner.rs:108-135 | a malformed date is refused; otherwise exactly that date's notes, each once per stored row, newest first |
| PlannerStore.CreatedNoteIsListed | src-tauri/src/db/planner.rs:89-114 | a created note is listed under its date with its content untouched |
| VaultStore.CheckAccount | src-tauri/src/db/personal_vault.rs:10-13 | passes exactly when the title is not blank and at most 200 bytes trimmed, the email passes the email check and the password is not blank |
| VaultStore.CreatePersonalAccount | src-tauri/src/db/personal_vault.rs:9-44 | nothing is written on a validation failure; only the password is obfuscated, taken untrimmed, and the returned password is the stored ciphertext; the other text is trimmed plaintext |
| VaultStore.StoredPasswordDecrypts | src-tauri/src/db/personal_vault.rs:17-28 | the stored password decrypts to the password exactly as typed |
| VaultStore.SamePasswordSameCiphertext | src-tauri/src/db/personal_vault.rs:17 | two accounts store the same password text exactly when their passwords are equal: there is no key or salt |
| VaultStore.CategoryTitleOrder | src-tauri/src/db/personal_vault.rs:50 | `ORDER BY category, title` is a total preorder, by category first and title within it |
| VaultStore.GetPersonalAccounts | src-tauri/src/db/personal_vault.rs:46-73 | every account exactly as stored, with no decryption, by category and then title |
| VaultStore.GetPersonalAccountsByCategory | src-tauri/src/db/personal_vault.rs:75-102 | exactly the category's accounts as stored, each once per stored row, by title |
| VaultStore.CheckInfo | src-tauri/src/db/personal_vault.rs:105-107 | passes exactly when the title is not blank and at most 200 bytes trimmed and the content is not blank |
| VaultStore.CreatePersonalInfo | src-tauri/src/db/personal_vault.rs:104-137 | nothing is written on a validation failure; the content is obfuscated exactly when marked sensitive and otherwise kept untrimmed; the returned row is the stored row |
| VaultStore.StoredInfoRecoverable | src-tauri/src/db/personal_vault.rs:110-114 | stored content gives back the entered content, through decryption when sensitive and as is otherwise |
| VaultStore.GetPersonalInfo | src-tauri/src/db/personal_vault.rs:139-164 | every entry exactly as stored, sensitive or not, by category and then title |
| VaultStore.GetPersonalInfoByCategory | src-tauri/src/db/personal_vault.rs:166-191 | exactly the category's entries as stored, each once per stored row, by title |
| LegacyStore.Connect | src-tauri/src/database.rs:13-28 | on a newly created database file this connection starts empty and valid, with foreign keys off |
| LegacyStore.CreateVocabulary | src-tauri/src/database.rs:207-236 | the word is stored exactly as sent, with its initial card due at once; it fails only on a foreign key, which this connection never enforces |
| LegacyStore.AcceptsWhatValidationRejects | src-tauri/src/database.rs:207-224 | without the pragma every word is accepted, including words the `db/` copy refuses |
| LegacyStore.CreateAgreesOnCleanInput | src-tauri/src/database.rs:207-236 | on valid, already-trimmed input both copies write the same rows |
| LegacyStore.GetDueFlashcards | src-tauri/src/database.rs:266-313 | the same due queue as the `db/` copy, each card paired with the word whose id it carries |
| LegacyStore.ReviewFlashcard | src-tauri/src/database.rs:315-354 | an unknown card fails with nothing written; otherwise only that card takes the SM-2 step on the clamped quality |
| LegacyStore.ReviewAgreesInRange | src-tauri/src/database.rs:325-342 | for a quality in 0..5 the clamping and the rejecting copies give the same result |
| LegacyStore.ReviewClampsOutOfRange | src-tauri/src/database.rs:325 | quality 9 reviews as 5 and −3 as 0, where the `db/` copy refuses 9 |
| LegacyStore.UpdateTaskStatus | src-tauri/src/database.rs:595-606 | any status text is written; completion is stamped exactly when the status is "completed"; an unknown id changes nothing |
| LegacyStore.UpdateAgreesOnTaskStatuses | src-tauri/src/database.rs:595-603 | both copies agree on the task statuses; on any other text only this copy writes |

## Left out

- The React front end and the Tauri command layer (`commands.rs`,
  `main.rs`, `lib.rs`) are glue. Their only behavioural facts are the
  default limits of 20 due cards and 50 search results. A caller passes
  the limit explicitly here.
- The `Mutex` around the connection is left out. Each operation is one
  atomic step on an immutable store value.
- The two inserts of `create_vocabulary` run without a transaction. The
  model has no failure between them that the source could hit: the
  flashcard's foreign key is always met by the word just inserted.
- I/O and configuration are left out: the data-directory path,
  `Connection::open`, the DDL statements and rusqlite's row mapping.
  The schema appears only as the constraints it declares.
- Clocks and time formatting are left out. `Utc::now()` is a `now`
  parameter, and an RFC 3339 string is the integer number of seconds it
  denotes. The source compares these strings as TEXT; the model compares
  the numbers. The two orders agree only while both dates lie in years
  0000 to 9999 (see the `VocabularyStore.ReviewedNotDueForADay` line).
  - `review_flashcard` reads the clock twice; the model uses one `now`
    for both reads.
  - `now + interval days` is `now + interval * 86400`.
- VocabularyStore.Reviewed: chrono's date range is not modelled.
  `Utc::now() + Duration::days(interval)` panics once the date passes
  year 262143, about 95 million days ahead, and the panic poisons the
  connection's Mutex. The model returns `Ok` for such intervals, e.g. a
  card at ease 2.5 with a 40,000,000-day interval reviewed at quality 5,
  which moves it 100,000,000 days ahead.
- LegacyStore.ReviewFlashcard: the same chrono panic at `database.rs:344`
  is not modelled.
- VocabularyStore.ReviewedNotDueForADay, and with it `Due` and
  `DueQueue`, hold for the model's numeric time order, not for the
  source's text order past year 9999.
  - `WHERE f.next_review <= ?1` and `ORDER BY f.next_review ASC`
    (`db/vocabulary.rs:85-88`, `database.rs:276-277`) compare RFC 3339
    text byte by byte.
  - chrono's `to_rfc3339` writes a year above 9999 with a leading `+`,
    which sorts below every digit.
  - So text order matches time only while `next_review` is at most
    9999-12-31T23:59:59Z. Reviewed today, that means an interval under
    about 2.9 million days.
  - `review_flashcard` does not require the card to be due. About 14
    quality-5 reviews of a new card pass that bound; for example, the
    card (2.5, 1,200,000, 2) reviewed at quality 4 gets 3,000,000 days.
  - The source then serves such a card at once, first in the queue. The
    model keeps it out of the queue for its whole interval.
- Schema.OpenValid: only a newly created, empty file is proved valid.
  Both `Database::new` copies open the same persisted file,
  `<data_dir>/yotion/yotion.db` (`db/connection.rs:12-19`,
  `database.rs:14-21`), with `CREATE TABLE IF NOT EXISTS`.
  - The `database.rs` copy never sets the foreign-keys pragma, so it can
    leave dangling references in that file.
  - SQLite does not recheck existing rows when `db/` reopens the file
    with `PRAGMA foreign_keys = ON`.
  - A reopened file is therefore assumed `Valid` by the model, not proved
    so.
- LegacyStore.Connect: likewise, it starts from a newly created, empty
  file. A reopened `yotion.db` keeps whatever either copy wrote before,
  and the model assumes such a file `Valid` rather than proving it.
- `f64` arithmetic is replaced by exact `real`s. The ease, its 0.02/0.08
  coefficients and the 1.3 floor are exact, not IEEE doubles.
- `repetitions += 1` can overflow `i32` in Rust. The model counts with
  an unbounded `int`.
- ORDER BY ties are returned in rowid order (a stable sort). SQLite
  leaves tie order unspecified, so the contracts state only sortedness.
- SQLite's choice of scan (it may walk an index such as
  `idx_flashcards_next_review`, `db/connection.rs:195`) is not modelled.
  The model scans by rowid, so the `*InRowidOrder` lemmas speak of the
  model's pre-sort order only.
- The remaining `database.rs` operations are not modelled: its
  unvalidated creates and getters. They repeat the `db/` code without
  validation, as `CreateVocabulary` shows. `delete_language` and
  `search_vocabulary`, which `commands.rs:208-222` calls, are defined
  only in `src-tauri/src/database/connection.rs:83,146`.
- `src-tauri/src/database/connection.rs` is not part of this model. It
  is never compiled, and its SM-2 copy differs: no ease floor on
  success, and truncation instead of rounding.
- `errors.rs` is not part of this model. `models.rs` supplies only the
  shapes of the row datatypes.
- The getters return the stored ciphertext without decrypting it, and
  `create_vocabulary`'s two inserts are separate statements. The model
  does the same.
- Validation.ValidateDateFormat: its own contract states only the empty
  case and the error value. The full accept condition is in
  `DateFormatOfPieces` and `DateFormatShape`, because `split` is easier
  to state through its inverse.
- Sm2.EaseDelta: states only the upper bound. The exact values per
  quality are `EaseDeltaTable`.
- Sm2.Scaled: the rounding bound is stated only when interval × ease lies
  in 0..i32::MAX. Outside that range it states saturation, not the
  rounded value.
- Utf8.Encode: its contract gives only length facts. Its meaning is the
  round trip with `Decode`, in `DecodeEncode` and `EncodeDecode`.

=== FILE: base64.dfy ===
/** The hand-rolled radix-64 codec of `encryption.rs`.

    The encoder is the standard base64 of section 4 of RFC 4648: groups of
    three bytes become four symbols of the 64-character alphabet, a final
    group of one byte is padded with "==" and one of two bytes with "=".
    The decoder is lenient: it drops every '=' wherever it occurs, maps a
    byte outside the alphabet to 255 instead of failing, and ignores a
    trailing group of a single symbol; it never reports an error. Bytes are
    `bv8`, so the source's `u8` shifts drop their high bits exactly. */
module Base64 {
  import opened Results
  import Utf8

  /** `count` consecutive characters starting at `first`. */
  function Run(first: char, count: nat): (s: string)
    requires first as int + count <= 0xD800
  {
    seq(count, i requires 0 <= i < count => (first as int + i) as char)
  }

  /** CHARSET: "A".."Z", "a".."z", "0".."9", "+", "/". */
  const Alphabet: string := Run('A', 26) + Run('a', 26) + Run('0', 10) + "+/"

  const Pad: char := '='

  /** Code point of the alphabet symbol for sextet `k`. */
  function SymbolCode(k: int): int {
    if k < 26 then 0x41 + k
    else if k < 52 then 0x61 + (k - 26)
    else if k < 62 then 0x30 + (k - 52)
    else if k == 62 then 0x2B
    else 0x2F
  }

  lemma AlphabetCodes()
    ensures |Alphabet| == 64
    ensures forall k :: 0 <= k < 64 ==> Alphabet[k] as int == SymbolCode(k)
  {
  }

  /** The symbol for a six-bit value. */
  function Symbol(v: bv8): (c: char)
    requires v < 64
    ensures c in Alphabet && c != Pad && c as int < 0x80
  {
    AlphabetCodes();
    Alphabet[v as int]
  }

  /** One chunk of `data.chunks(3)`: four characters, the last one or two
      of which are padding when the chunk is short. */
  function EncodeGroup(g: seq<bv8>): (r: string)
    requires 1 <= |g| <= 3
    ensures |r| == 4 && forall i :: 0 <= i < 4 ==> r[i] in Alphabet || r[i] == Pad
  {
    var b1 := g[0];
    var b2 := if |g| > 1 then g[1] else 0;
    var b3 := if |g| > 2 then g[2] else 0;
    [Symbol(b1 >> 2), Symbol(((b1 & 0x03) << 4) | (b2 >> 4))]
    + (if |g| > 1 then [Symbol(((b2 & 0x0F) << 2) | (b3 >> 6))] else [Pad])
    + (if |g| > 2 then [Symbol(b3 & 0x3F)] else [Pad])
  }

  /** Number of '=' the encoding of `n` bytes ends with. */
  function PadCount(n: nat): nat {
    (3 - n % 3) % 3
  }

  /** `base64_encode`. */
  function Encode(data: seq<bv8>): (r: string)
    ensures |r| == 4 * ((|data| + 2) / 3)
    ensures forall i :: 0 <= i < |r| ==> r[i] in Alphabet || r[i] == Pad
    decreases |data|
  {
    if |data| == 0 then ""
    else if |data| <= 3 then EncodeGroup(data)
    else EncodeGroup(data[..3]) + Encode(data[3..])
  }

  lemma GroupPadding(g: seq<bv8>)
    requires 1 <= |g| <= 3
    ensures forall i :: 0 <= i < 4 ==> (EncodeGroup(g)[i] == Pad <==> i >= 4 - PadCount(|g|))
  {
  }

  /** Padding sits only at the end: none after a whole number of groups,
      "==" after a final group of one byte, "=" after one of two bytes. */
  lemma {:induction false} EncodePadding(data: seq<bv8>)
    ensures forall i :: 0 <= i < |Encode(data)| ==>
      (Encode(data)[i] == Pad <==> i >= |Encode(data)| - PadCount(|data|))
    decreases |data|
  {
    var r := Encode(data);
    if |data| == 0 {
    } else if |data| <= 3 {
      GroupPadding(data);
    } else {
      var e := EncodeGroup(data[..3]);
      var rest := Encode(data[3..]);
      GroupPadding(data[..3]);
      EncodePadding(data[3..]);
      assert PadCount(|data|) == PadCount(|data[3..]|);
      assert |data[..3]| == 3 && PadCount(3) == 0;
      assert |rest| >= 4;
      PaddingAfterFullGroup(e, rest, PadCount(|data|));
    }
  }

  lemma PaddingAfterFullGroup(e: string, rest: string, p: nat)
    requires |e| == 4 && forall i :: 0 <= i < 4 ==> e[i] != Pad
    requires p <= |rest|
    requires forall i :: 0 <= i < |rest| ==> (rest[i] == Pad <==> i >= |rest| - p)
    ensures forall i :: 0 <= i < |e + rest| ==> ((e + rest)[i] == Pad <==> i >= |e + rest| - p)
  {
    var r := e + rest;
    forall i | 0 <= i < |r| ensures r[i] == Pad <==> i >= |r| - p {
      if i >= 4 {
        assert r[i] == rest[i - 4];
      }
    }
  }

  /** The decoding table: `lookup[CHARSET[i]] = i`, 255 everywhere else. */
  function Lookup(c: bv8): (v: bv8) {
    if 0x41 <= c <= 0x5A then c - 0x41
    else if 0x61 <= c <= 0x7A then c - 0x61 + 26
    else if 0x30 <= c <= 0x39 then c - 0x30 + 52
    else if c == 0x2B then 62
    else if c == 0x2F then 63
    else 255
  }

  /** `Lookup` is the table built from the alphabet: each symbol's byte maps
      to its index, and every byte that maps below 255 is a symbol. */
  lemma LookupIsTable(c: bv8)
    ensures Lookup(c) != 255 ==> Lookup(c) < 64 && SymbolCode(Lookup(c) as int) == c as int
    ensures (exists k :: 0 <= k < 64 && SymbolCode(k) == c as int) ==> Lookup(c) != 255
  {
    var x := c as int;
    if Lookup(c) != 255 {
      assert Lookup(c) as int < 64;
    }
  }

  lemma LookupSymbol(v: bv8)
    requires v < 64
    ensures Lookup(Utf8.ByteOf(Symbol(v) as int)) == v
  {
    var k := v as int;
    var c := Utf8.ByteOf(Symbol(v) as int);
    assert c as int == SymbolCode(k) by {
      AlphabetCodes();
    }
    LookupIsTable(c);
    SymbolCodeInjective(Lookup(c) as int, k);
    Utf8.ByteInjective(Lookup(c), v);
  }

  lemma SymbolCodeInjective(j: int, k: int)
    requires 0 <= j < 64 && 0 <= k < 64 && SymbolCode(j) == SymbolCode(k)
    ensures j == k
  {
  }

  const PadByte: bv8 := 0x3D

  /** `encoded.bytes().filter(|&b| b != b'=')`. */
  function StripPadding(bs: seq<bv8>): (r: seq<bv8>)
    ensures |r| <= |bs|
    ensures forall i :: 0 <= i < |r| ==> r[i] != PadByte
  {
    if |bs| == 0 then []
    else (if bs[0] == PadByte then [] else [bs[0]]) + StripPadding(bs[1..])
  }

  /** The three ways the decoder packs two table values into a byte. */
  function Pack0(q0: bv8, q1: bv8): bv8 { (q0 << 2) | (q1 >> 4) }
  function Pack1(q1: bv8, q2: bv8): bv8 { (q1 << 4) | (q2 >> 2) }
  function Pack2(q2: bv8, q3: bv8): bv8 { (q2 << 6) | q3 }

  /** The bytes the decoder packs from the first `n` of four table values. */
  function Regroup(q0: bv8, q1: bv8, q2: bv8, q3: bv8, n: int): (r: seq<bv8>)
    requires 2 <= n <= 4
    ensures |r| == n - 1
  {
    if n == 2 then [Pack0(q0, q1)]
    else if n == 3 then [Pack0(q0, q1), Pack1(q1, q2)]
    else [Pack0(q0, q1), Pack1(q1, q2), Pack2(q2, q3)]
  }

  /** The table values of a chunk's symbols. */
  function Lookups(chunk: seq<bv8>): (q: seq<bv8>)
    ensures |q| == |chunk| && forall i :: 0 <= i < |chunk| ==> q[i] == Lookup(chunk[i])
  {
    seq(|chunk|, i requires 0 <= i < |chunk| => Lookup(chunk[i]))
  }

  function RegroupSeq(q: seq<bv8>): (r: seq<bv8>)
    requires 2 <= |q| <= 4
    ensures |r| == |q| - 1
  {
    Regroup(q[0], q[1], if |q| > 2 then q[2] else 0, if |q| > 3 then q[3] else 0, |q|)
  }

  /** One chunk of `chars.chunks(4)`; a chunk of one symbol yields nothing. */
  function DecodeChunk(chunk: seq<bv8>): (r: seq<bv8>)
    requires 1 <= |chunk| <= 4
    ensures |r| == |chunk| - 1
  {
    if |chunk| < 2 then [] else RegroupSeq(Lookups(chunk))
  }

  /** Bytes produced from `n` padding-free symbols. */
  function DecodedLength(n: nat): nat {
    3 * (n / 4) + (if n % 4 <= 1 then 0 else n % 4 - 1)
  }

  function DecodeChunks(cs: seq<bv8>): (r: seq<bv8>)
    ensures |r| == DecodedLength(|cs|)
    decreases |cs|
  {
    if |cs| == 0 then []
    else if |cs| <= 4 then DecodeChunk(cs)
    else DecodeChunk(cs[..4]) + DecodeChunks(cs[4..])
  }

  /** `base64_decode`: it always succeeds. */
  function Decode(encoded: string): (r: Result<seq<bv8>>)
    ensures r.Ok?
    ensures |r.value| == DecodedLength(|StripPadding(Utf8.Encode(encoded))|)
  {
    Ok(DecodeChunks(StripPadding(Utf8.Encode(encoded))))
  }

  // ---------------------------------------------------------------------
  // Round trip

  /** The byte string `Utf8.Encode` gives for an ASCII string. */
  function AsciiBytes(s: string): (b: seq<bv8>)
    requires Utf8.IsAscii(s)
    ensures |b| == |s|
  {
    seq(|s|, i requires 0 <= i < |s| => Utf8.ByteOf(s[i] as int))
  }

  lemma Utf8OfAscii(s: string)
    requires Utf8.IsAscii(s)
    ensures Utf8.Encode(s) == AsciiBytes(s)
  {
    Utf8.AsciiEncode(s);
    var a := AsciiBytes(s);
    var e := Utf8.Encode(s);
    forall i | 0 <= i < |s| ensures e[i] == a[i] {
      assert e[i] as int == a[i] as int;
      Utf8.BridgeInts([e[i]]);
      Utf8.BridgeInts([a[i]]);
      assert Utf8.ToInts([e[i]]) == Utf8.ToInts([a[i]]);
    }
  }

  lemma {:induction false} StripAppend(a: seq<bv8>, b: seq<bv8>)
    ensures StripPadding(a + b) == StripPadding(a) + StripPadding(b)
    decreases |a|
  {
    if |a| == 0 {
      assert a + b == b;
    } else {
      assert (a + b)[1..] == a[1..] + b;
      StripAppend(a[1..], b);
    }
  }

  lemma EncodeIsAscii(data: seq<bv8>)
    ensures Utf8.IsAscii(Encode(data))
  {
    AlphabetCodes();
    var r := Encode(data);
    forall i | 0 <= i < |r| ensures r[i] as int < 0x80 {
      if r[i] != Pad {
        var k :| 0 <= k < 64 && Alphabet[k] == r[i];
      }
    }
  }

  lemma {:induction false} EncodeBytesAppend(a: string, b: string)
    requires Utf8.IsAscii(a) && Utf8.IsAscii(b)
    ensures Utf8.IsAscii(a + b)
    ensures AsciiBytes(a + b) == AsciiBytes(a) + AsciiBytes(b)
  {
  }

  /** The four six-bit values the encoder cuts from the bytes `a, b, c`. */
  function Sextets(a: bv8, b: bv8, c: bv8): (q: seq<bv8>)
    ensures |q| == 4 && forall k :: 0 <= k < 4 ==> q[k] < 64
  {
    [a >> 2, ((a & 0x03) << 4) | (b >> 4), ((b & 0x0F) << 2) | (c >> 6), c & 0x3F]
  }

  /** The sextets of a group, short groups filled with zero bytes. */
  function GroupSextets(g: seq<bv8>): (q: seq<bv8>)
    requires 1 <= |g| <= 3
    ensures |q| == 4 && forall k :: 0 <= k < 4 ==> q[k] < 64
  {
    Sextets(g[0], if |g| > 1 then g[1] else 0, if |g| > 2 then g[2] else 0)
  }

  /** The u8 shifts of the decoder undo those of the encoder. */
  lemma BitsRoundTrip(a: bv8, b: bv8, c: bv8)
    ensures Pack0(a >> 2, ((a & 0x03) << 4) | (b >> 4)) == a
    ensures Pack1(((a & 0x03) << 4) | (b >> 4), ((b & 0x0F) << 2) | (c >> 6)) == b
    ensures Pack2(((b & 0x0F) << 2) | (c >> 6), c & 0x3F) == c
  {
  }

  /** An encoded group holds the symbols of its first `|g| + 1` sextets,
      then padding. */
  lemma GroupSymbols(g: seq<bv8>)
    requires 1 <= |g| <= 3
    ensures Utf8.IsAscii(EncodeGroup(g))
    ensures forall k :: 0 <= k < 4 ==>
      EncodeGroup(g)[k] == if k <= |g| then Symbol(GroupSextets(g)[k]) else Pad
  {
  }

  lemma PadByteOf()
    ensures Utf8.ByteOf(Pad as int) == PadByte
  {
    Utf8.ByteInjective(Utf8.ByteOf(Pad as int), PadByte);
  }

  lemma SymbolByteNotPad(v: bv8)
    requires v < 64
    ensures Utf8.ByteOf(Symbol(v) as int) != PadByte
  {
  }

  lemma {:induction false} StripClean(xs: seq<bv8>)
    requires forall k :: 0 <= k < |xs| ==> xs[k] != PadByte
    ensures StripPadding(xs) == xs
    decreases |xs|
  {
    if |xs| > 0 {
      StripClean(xs[1..]);
      assert xs == [xs[0]] + xs[1..];
    }
  }

  lemma {:induction false} StripAllPadding(xs: seq<bv8>)
    requires forall k :: 0 <= k < |xs| ==> xs[k] == PadByte
    ensures StripPadding(xs) == []
    decreases |xs|
  {
    if |xs| > 0 {
      StripAllPadding(xs[1..]);
    }
  }

  /** Bytes whose padding is exactly their tail from `n` on lose exactly
      that tail. */
  lemma StripTail(xs: seq<bv8>, n: int)
    requires 0 <= n <= |xs|
    requires forall k :: 0 <= k < |xs| ==> (xs[k] == PadByte <==> k >= n)
    ensures StripPadding(xs) == xs[..n]
  {
    var pre, post := xs[..n], xs[n..];
    assert forall k :: 0 <= k < |pre| ==> pre[k] == xs[k];
    assert forall k :: 0 <= k < |post| ==> post[k] == xs[k + n];
    StripClean(pre);
    StripAllPadding(post);
    assert xs == pre + post;
    StripAppend(pre, post);
  }

  /** The bytes of an encoded group: padding bytes exactly after the first
      `|g| + 1` symbols. */
  lemma GroupBytes(g: seq<bv8>)
    requires 1 <= |g| <= 3
    ensures Utf8.IsAscii(EncodeGroup(g))
    ensures var e := EncodeGroup(g);
            forall k :: 0 <= k < 4 ==>
              && AsciiBytes(e)[k] == Utf8.ByteOf(e[k] as int)
              && (e[k] == Pad <==> k > |g|)
              && (AsciiBytes(e)[k] == PadByte <==> k > |g|)
  {
    GroupSymbols(g);
    PadByteOf();
    var q := GroupSextets(g);
    var e := EncodeGroup(g);
    forall k | 0 <= k < 4 && k <= |g| ensures Utf8.ByteOf(e[k] as int) != PadByte {
      SymbolByteNotPad(q[k]);
    }
  }

  /** The bytes the decoder keeps from an encoded group: its symbols. */
  lemma GroupStripped(g: seq<bv8>)
    requires 1 <= |g| <= 3
    ensures Utf8.IsAscii(EncodeGroup(g))
    ensures var e := EncodeGroup(g);
            var s := StripPadding(AsciiBytes(e));
            |s| == |g| + 1 && forall k :: 0 <= k < |s| ==> s[k] == Utf8.ByteOf(e[k] as int) && e[k] != Pad
  {
    GroupBytes(g);
    var bs := AsciiBytes(EncodeGroup(g));
    StripTail(bs, |g| + 1);
  }

  /** Packing the first `n` sextets of `a, b, c` gives back the first
      `n - 1` bytes; the values past `n` do not matter. */
  lemma RegroupSextets(a: bv8, b: bv8, c: bv8, q2: bv8, q3: bv8, n: int)
    requires 2 <= n <= 4
    requires n > 2 ==> q2 == ((b & 0x0F) << 2) | (c >> 6)
    requires n > 3 ==> q3 == c & 0x3F
    ensures Regroup(a >> 2, ((a & 0x03) << 4) | (b >> 4), q2, q3, n) == [a, b, c][..n - 1]
  {
    BitsRoundTrip(a, b, c);
    if n == 2 {
      assert [a, b, c][..1] == [a];
    } else if n == 3 {
      assert [a, b, c][..2] == [a, b];
    } else {
      assert [a, b, c][..3] == [a, b, c];
    }
  }

  /** The sextets of a group, spelled out from its bytes. */
  lemma GroupSextetsOf(g: seq<bv8>, a: bv8, b: bv8, c: bv8)
    requires 1 <= |g| <= 3
    requires a == g[0] && b == (if |g| > 1 then g[1] else 0) && c == (if |g| > 2 then g[2] else 0)
    ensures GroupSextets(g)[0] == a >> 2 && GroupSextets(g)[1] == ((a & 0x03) << 4) | (b >> 4)
    ensures GroupSextets(g)[2] == ((b & 0x0F) << 2) | (c >> 6) && GroupSextets(g)[3] == c & 0x3F
  {
  }

  /** A group is the prefix of its bytes padded to three. */
  lemma GroupIsPrefix(g: seq<bv8>)
    requires 1 <= |g| <= 3
    ensures [g[0], if |g| > 1 then g[1] else 0, if |g| > 2 then g[2] else 0][..|g|] == g
  {
  }

  /** Packing the sextets of a group gives the group back. */
  lemma RegroupGroup(g: seq<bv8>)
    requires 1 <= |g| <= 3
    ensures RegroupSeq(GroupSextets(g)[..|g| + 1]) == g
  {
    var a := g[0];
    var b := if |g| > 1 then g[1] else 0;
    var c := if |g| > 2 then g[2] else 0;
    GroupSextetsOf(g, a, b, c);
    var q := GroupSextets(g);
    var p := q[..|g| + 1];
    var q2 := if |p| > 2 then p[2] else 0;
    var q3 := if |p| > 3 then p[3] else 0;
    assert p[0] == q[0] && p[1] == q[1];
    assert |p| > 2 ==> q2 == q[2];
    assert |p| > 3 ==> q3 == q[3];
    RegroupSextets(a, b, c, q2, q3, |p|);
    GroupIsPrefix(g);
  }

  /** The decoder's table maps the kept symbols of a group to its sextets. */
  lemma GroupLookups(g: seq<bv8>, s: seq<bv8>)
    requires 1 <= |g| <= 3 && |s| == |g| + 1
    requires Utf8.IsAscii(EncodeGroup(g))
    requires forall k :: 0 <= k < |s| ==> s[k] == Utf8.ByteOf(EncodeGroup(g)[k] as int)
    ensures forall k :: 0 <= k < |s| ==> Lookup(s[k]) == GroupSextets(g)[k]
  {
    GroupSymbols(g);
    var q := GroupSextets(g);
    forall k | 0 <= k < |s| ensures Lookup(s[k]) == q[k] {
      LookupSymbol(q[k]);
    }
  }

  /** Decoding the symbols of an encoded group gives the group back. */
  lemma DecodeGroupSymbols(g: seq<bv8>, s: seq<bv8>)
    requires 1 <= |g| <= 3 && |s| == |g| + 1
    requires forall k :: 0 <= k < |s| ==> Lookup(s[k]) == GroupSextets(g)[k]
    ensures DecodeChunk(s) == g
  {
    assert Lookups(s) == GroupSextets(g)[..|s|];
    RegroupGroup(g);
  }

  /** The padding-free symbols of one encoded group decode back to it. */
  lemma GroupRoundTrip(g: seq<bv8>)
    requires 1 <= |g| <= 3
    ensures Utf8.IsAscii(EncodeGroup(g))
    ensures var s := StripPadding(AsciiBytes(EncodeGroup(g)));
            |s| == |g| + 1 && DecodeChunk(s) == g
  {
    GroupStripped(g);
    var s := StripPadding(AsciiBytes(EncodeGroup(g)));
    GroupLookups(g, s);
    DecodeGroupSymbols(g, s);
  }

  lemma DecodeChunksCons(q: seq<bv8>, rest: seq<bv8>)
    requires |q| == 4 && |rest| > 0
    ensures DecodeChunks(q + rest) == DecodeChunk(q) + DecodeChunks(rest)
  {
    assert (q + rest)[..4] == q && (q + rest)[4..] == rest;
  }

  /** The bytes the decoder sees for an encoded string. */
  lemma {:induction false} SymbolsOfEncode(data: seq<bv8>)
    ensures Utf8.IsAscii(Encode(data))
    ensures DecodeChunks(StripPadding(AsciiBytes(Encode(data)))) == data
    decreases |data|
  {
    EncodeIsAscii(data);
    if |data| == 0 {
    } else if |data| <= 3 {
      GroupRoundTrip(data);
    } else {
      var g := data[..3];
      var e := EncodeGroup(g);
      var rest := Encode(data[3..]);
      GroupRoundTrip(g);
      SymbolsOfEncode(data[3..]);
      EncodeBytesAppend(e, rest);
      StripAppend(AsciiBytes(e), AsciiBytes(rest));
      var sg := StripPadding(AsciiBytes(e));
      var sr := StripPadding(AsciiBytes(rest));
      assert |sr| > 0 by {
        assert |DecodeChunks(sr)| == |data| - 3;
      }
      DecodeChunksCons(sg, sr);
      assert data == g + data[3..];
    }
  }

  /** `base64_decode(base64_encode(b)) == Ok(b)` for every byte string. */
  lemma DecodeEncode(data: seq<bv8>)
    ensures Decode(Encode(data)) == Ok(data)
  {
    SymbolsOfEncode(data);
    Utf8OfAscii(Encode(data));
  }

  lemma Utf8OfPad()
    ensures Utf8.Encode([Pad]) == [PadByte]
  {
    Utf8.AsciiEncode([Pad]);
  }

  lemma StripDropsPad(x: seq<bv8>, y: seq<bv8>)
    ensures StripPadding(x + [PadByte] + y) == StripPadding(x + y)
  {
    StripAppend(x + [PadByte], y);
    StripAppend(x, [PadByte]);
    StripAppend(x, y);
    assert StripPadding([PadByte]) == [];
  }

  /** '=' is dropped wherever it stands, not only at the end. */
  lemma DecodeIgnoresPadding(a: string, b: string)
    ensures Decode(a + [Pad] + b) == Decode(a + b)
  {
    Utf8.EncodeAppend(a + [Pad], b);
    Utf8.EncodeAppend(a, [Pad]);
    Utf8.EncodeAppend(a, b);
    Utf8OfPad();
    StripDropsPad(Utf8.Encode(a), Utf8.Encode(b));
  }

  /** A symbol outside the alphabet is read as 255 rather than rejected:
      "A!" decodes to the single byte 0x0F. */
  lemma DecodeAcceptsForeignSymbol()
    ensures Decode("A!") == Ok([0x0F])
  {
    var bs: seq<bv8> := [0x41, 0x21];
    var e := Utf8.Encode("A!");
    Utf8.AsciiEncode("A!");
    Utf8.ByteInjective(e[0], 0x41);
    Utf8.ByteInjective(e[1], 0x21);
    assert e == bs;
    StripClean(bs);
    assert Lookups(bs) == [0, 255];
    assert DecodeChunks(bs) == [0x0F];
  }
}

=== FILE: encryption.dfy ===
/** The field obfuscator of `encryption.rs`.

    `EncryptedData` holds a ciphertext string. Encryption takes the UTF-8
    bytes of the plaintext, XORs each with the fixed key 0x42 and base64
    encodes the result; decryption base64 decodes, XORs again and asks
    `String::from_utf8` to accept the bytes. Nothing here is secret: the
    key is a constant, so the model states what the code guarantees, which
    is a lossless, deterministic and injective round trip. */
module Encryption {
  import opened Results
  import Utf8
  import Base64

  const Key: bv8 := 0x42

  /** `bytes.iter().map(|&b| b ^ 0x42)`. */
  function Xor(bs: seq<bv8>): (r: seq<bv8>)
    ensures |r| == |bs|
  {
    seq(|bs|, i requires 0 <= i < |bs| => bs[i] ^ Key)
  }

  /** XOR with a fixed key is an involution. */
  lemma XorInvolution(bs: seq<bv8>)
    ensures Xor(Xor(bs)) == bs
  {
    var r := Xor(Xor(bs));
    forall i | 0 <= i < |bs| ensures r[i] == bs[i] {
      assert r[i] == (bs[i] ^ Key) ^ Key;
    }
  }

  /** XOR moves every byte: no byte is its own image. */
  lemma XorMovesEveryByte(bs: seq<bv8>)
    ensures forall i :: 0 <= i < |bs| ==> Xor(bs)[i] != bs[i]
  {
  }

  /** `EncryptedData::encrypt`: it never fails. */
  function Encrypt(plaintext: string): (r: Result<string>)
    ensures r.Ok?
    ensures |r.value| == 4 * ((Utf8.ByteLen(plaintext) + 2) / 3)
    ensures forall i :: 0 <= i < |r.value| ==> r.value[i] in Base64.Alphabet || r.value[i] == Base64.Pad
  {
    Ok(Base64.Encode(Xor(Utf8.Encode(plaintext))))
  }

  /** `EncryptedData::decrypt_data`: it fails exactly when the de-XORed
      bytes are not UTF-8, and otherwise returns the string they encode. */
  function DecryptData(ciphertext: string): (r: Result<string>)
    ensures var bytes := Xor(Base64.Decode(ciphertext).value);
            && (r.Err? <==> Utf8.Decode(bytes).None?)
            && (r.Err? ==> r.error == InvalidUtf8)
            && (r.Ok? ==> Utf8.Encode(r.value) == bytes)
  {
    var decoded := Base64.Decode(ciphertext);
    var bytes := Xor(decoded.value);
    match Utf8.Decode(bytes)
    case None => Err(InvalidUtf8)
    case Some(s) =>
      Utf8.EncodeDecode(bytes);
      Ok(s)
  }

  /** The stored ciphertext; the field is private in the source. */
  datatype EncryptedData = EncryptedData(data: string) {

    /** `as_bytes`, which despite its name hands out the ciphertext `&str`. */
    function AsBytes(): (r: string)
      ensures r == data
    {
      data
    }

    /** `to_string` through the `Display` impl, which writes the field. */
    function ToString(): (r: string)
      ensures r == AsBytes()
    {
      data
    }

    /** `decrypt`: fails exactly when the unmasked bytes are not UTF-8. */
    function Decrypt(): (r: Result<string>)
      ensures r.Err? <==> Utf8.Decode(Xor(Base64.Decode(data).value)).None?
      ensures r.Err? ==> r.error == InvalidUtf8
      ensures r.Ok? ==> Utf8.Encode(r.value) == Xor(Base64.Decode(data).value)
    {
      DecryptData(data)
    }
  }

  /** `EncryptedData::new`: wraps the ciphertext of `plaintext`. */
  function New(plaintext: string): (r: Result<EncryptedData>)
    ensures r.Ok?
    ensures Base64.Decode(r.value.data) == Ok(Xor(Utf8.Encode(plaintext)))
  {
    Base64.DecodeEncode(Xor(Utf8.Encode(plaintext)));
    Ok(EncryptedData(Encrypt(plaintext).value))
  }

  /** Decryption undoes encryption for every string. */
  lemma DecryptEncrypt(s: string)
    ensures DecryptData(Encrypt(s).value) == Ok(s)
  {
    var bytes := Utf8.Encode(s);
    Base64.DecodeEncode(Xor(bytes));
    XorInvolution(bytes);
    Utf8.DecodeEncode(s);
  }

  /** The same round trip through the public `new` and `decrypt`. */
  lemma NewDecrypt(s: string)
    ensures New(s).value.Decrypt() == Ok(s)
  {
    DecryptEncrypt(s);
  }

  /** `as_bytes()` and `to_string()` of a fresh value are both the
      ciphertext `encrypt` produced. */
  lemma NewViews(s: string)
    ensures New(s).value.AsBytes() == Encrypt(s).value
    ensures New(s).value.ToString() == Encrypt(s).value
  {
  }

  /** Encryption is a function of the plaintext only, and distinct
      plaintexts have distinct ciphertexts. */
  lemma EncryptInjective(a: string, b: string)
    ensures Encrypt(a) == Encrypt(b) <==> a == b
  {
    if Encrypt(a) == Encrypt(b) {
      DecryptEncrypt(a);
      DecryptEncrypt(b);
    }
  }

  /** A ciphertext whose bytes de-XOR to a lone continuation byte is
      rejected: `decrypt_data` does report UTF-8 errors. */
  lemma DecryptRejectsBadUtf8()
    ensures DecryptData(Base64.Encode([0xC2])).Err?
  {
    var bs: seq<bv8> := [0xC2];
    Base64.DecodeEncode(bs);
    var x := Xor(bs);
    assert x[0] == 0x80;
    assert Utf8.ToInts(x) == [0x80];
    assert Utf8.DecodeFirst([0x80]).None?;
  }
}

=== FILE: hash.dfy ===
/** `hash_sensitive_data` of `encryption.rs`: the djb2 string hash over the
    UTF-8 bytes of its argument, in a `u64` that wraps, printed as lowercase hexadecimal. */
module Djb2 {
  import Utf8

  /** 2^64: every `u64` operation is taken modulo this. */
  const Modulus: nat := 0x1_0000_0000_0000_0000

  const Seed: nat := 5381

  /** `hash << 5` on a `u64`: the bits shifted past bit 63 are lost. */
  function Shl5(h: nat): (r: nat)
    ensures r < Modulus
  {
    (h * 32) % Modulus
  }

  /** `u64::wrapping_add`. */
  function WrappingAdd(x: nat, y: nat): (r: nat)
    ensures r < Modulus
  {
    (x + y) % Modulus
  }

  /** One iteration of the loop, as written. */
  function Step(h: nat, b: bv8): (r: nat)
    ensures r < Modulus
  {
    WrappingAdd(WrappingAdd(Shl5(h), h), b as nat)
  }

  /** The loop over `data.bytes()`, folding from the left. */
  function HashBytes(bs: seq<bv8>): (r: nat)
    ensures r < Modulus
    decreases |bs|
  {
    if |bs| == 0 then Seed else Step(HashBytes(bs[..|bs| - 1]), bs[|bs| - 1])
  }

  /** The exact, unbounded djb2 value: 5381 * 33^n + sum of b_i * 33^(n-1-i). */
  function Poly(bs: seq<bv8>): nat
    decreases |bs|
  {
    if |bs| == 0 then Seed else 33 * Poly(bs[..|bs| - 1]) + bs[|bs| - 1] as nat
  }

  lemma ModOfMultiple(q: int, r: int)
    requires 0 <= r < Modulus
    ensures (q * Modulus + r) % Modulus == r
  {
  }

  /** Reducing an operand before an addition does not change the sum's
      residue. */
  lemma ModAddLeft(x: nat, y: nat)
    ensures ((x % Modulus) + y) % Modulus == (x + y) % Modulus
  {
    var q := x / Modulus;
    assert x == q * Modulus + x % Modulus;
    var s := (x % Modulus + y) % Modulus;
    var t := (x % Modulus + y) / Modulus;
    assert x % Modulus + y == t * Modulus + s;
    assert x + y == (q + t) * Modulus + s;
    ModOfMultiple(q + t, s);
  }

  /** The shift-and-add step is `(33 * h + b) mod 2^64`. */
  lemma StepIsMultiply(h: nat, b: bv8)
    ensures Step(h, b) == (33 * h + b as nat) % Modulus
  {
    ModAddLeft(h * 32, h);
    assert h * 32 + h == 33 * h;
    ModAddLeft(33 * h, b as nat);
  }

  /** The wrapping loop computes the exact djb2 value reduced mod 2^64. */
  lemma {:induction false} HashIsPolyMod(bs: seq<bv8>)
    ensures HashBytes(bs) == Poly(bs) % Modulus
    decreases |bs|
  {
    if |bs| > 0 {
      var p := bs[..|bs| - 1];
      var b := bs[|bs| - 1];
      HashIsPolyMod(p);
      StepIsMultiply(HashBytes(p), b);
      assert HashBytes(bs) == (33 * (Poly(p) % Modulus) + b as nat) % Modulus;
      MulModLeft(Poly(p), 33, b as nat);
    }
  }

  lemma MulModLeft(x: nat, k: nat, y: nat)
    ensures (k * (x % Modulus) + y) % Modulus == (k * x + y) % Modulus
  {
    var q := x / Modulus;
    assert x == q * Modulus + x % Modulus;
    assert k * x + y == (k * q) * Modulus + (k * (x % Modulus) + y);
    var s := k * (x % Modulus) + y;
    ModAddMultiple(k * q, s);
  }

  lemma ModAddMultiple(m: nat, s: nat)
    ensures (m * Modulus + s) % Modulus == s % Modulus
  {
    var r := s % Modulus;
    var t := s / Modulus;
    assert s == t * Modulus + r;
    assert m * Modulus + s == (m + t) * Modulus + r;
    ModOfMultiple(m + t, r);
  }

  // ---------------------------------------------------------------------
  // Lower-case hexadecimal formatting, without leading zeros

  function HexDigit(d: nat): (c: char)
    requires d < 16
    ensures ('0' <= c <= '9' || 'a' <= c <= 'f')
  {
    if d < 10 then ('0' as int + d) as char else ('a' as int + d - 10) as char
  }

  predicate IsHexDigit(c: char) {
    '0' <= c <= '9' || 'a' <= c <= 'f'
  }

  function DigitValue(c: char): (d: nat)
    requires IsHexDigit(c)
    ensures d < 16
  {
    if c <= '9' then c as int - '0' as int else c as int - 'a' as int + 10
  }

  function Hex(n: nat): (s: string)
    ensures |s| >= 1
    ensures forall i :: 0 <= i < |s| ==> IsHexDigit(s[i])
    ensures s[0] == '0' ==> n == 0
    decreases n
  {
    if n < 16 then [HexDigit(n)] else Hex(n / 16) + [HexDigit(n % 16)]
  }

  /** Reads a string of hex digits back as a number: the reference
      against which `Hex` is checked. */
  function ParseHex(s: string): nat
    requires forall i :: 0 <= i < |s| ==> IsHexDigit(s[i])
    decreases |s|
  {
    if |s| == 0 then 0 else 16 * ParseHex(s[..|s| - 1]) + DigitValue(s[|s| - 1])
  }

  lemma {:induction false} ParseHexOfHex(n: nat)
    ensures ParseHex(Hex(n)) == n
    decreases n
  {
    var s := Hex(n);
    if n >= 16 {
      ParseHexOfHex(n / 16);
      assert s[..|s| - 1] == Hex(n / 16);
    }
  }

  /** `hash_sensitive_data`. */
  function HashSensitiveData(data: string): (r: string)
    ensures forall i :: 0 <= i < |r| ==> IsHexDigit(r[i])
    ensures 1 <= |r| <= 16
  {
    Pow16Sixteen();
    HexLength(HashBytes(Utf8.Encode(data)), 16);
    Hex(HashBytes(Utf8.Encode(data)))
  }

  function Pow16(k: nat): (p: nat)
    ensures p >= 1
  {
    if k == 0 then 1 else 16 * Pow16(k - 1)
  }

  lemma Pow16Sixteen()
    ensures Pow16(16) == Modulus
  {
    assert Pow16(1) == 0x10;
    assert Pow16(2) == 0x100;
    assert Pow16(3) == 0x1000;
    assert Pow16(4) == 0x10000;
    assert Pow16(5) == 0x100000;
    assert Pow16(6) == 0x1000000;
    assert Pow16(7) == 0x10000000;
    assert Pow16(8) == 0x100000000;
    assert Pow16(9) == 0x1000000000;
    assert Pow16(10) == 0x10000000000;
    assert Pow16(11) == 0x100000000000;
    assert Pow16(12) == 0x1000000000000;
    assert Pow16(13) == 0x10000000000000;
    assert Pow16(14) == 0x100000000000000;
    assert Pow16(15) == 0x1000000000000000;
    assert Pow16(16) == 0x10000000000000000;
  }

  /** A number below 16^k takes at most k hex digits. */
  lemma {:induction false} HexLength(n: nat, k: nat)
    requires k >= 1 && n < Pow16(k)
    ensures |Hex(n)| <= k
    decreases n
  {
    if n >= 16 {
      assert k >= 2;
      HexLength(n / 16, k - 1);
    }
  }

  /** The printed hash is the djb2 value of the UTF-8 bytes mod 2^64. */
  lemma HashMeaning(data: string)
    ensures ParseHex(HashSensitiveData(data)) == Poly(Utf8.Encode(data)) % Modulus
  {
    ParseHexOfHex(HashBytes(Utf8.Encode(data)));
    HashIsPolyMod(Utf8.Encode(data));
  }

  /** The empty string hashes to the seed, 5381 = 0x1505. */
  lemma HashOfEmpty()
    ensures HashSensitiveData("") == "1505"
  {
    assert Utf8.Encode("") == [];
    assert Hex(5381) == Hex(336) + ['5'];
    assert Hex(336) == Hex(21) + ['0'];
    assert Hex(21) == Hex(1) + ['5'];
  }
}

=== FILE: language.dfy ===
/** `db/language.rs`: creating and listing the languages one studies. */
module LanguageStore {
  import opened Results
  import opened Text
  import Utf8
  import Validation
  import Ordering
  import opened Schema

  datatype CreateLanguageRequest = CreateLanguageRequest(name: string, code: string, flagEmoji: string)

  /** The checks `create_language` runs before touching the database. */
  function Check(req: CreateLanguageRequest): (r: Outcome)
    ensures r.Pass? <==>
      && HasContent(req.name) && Utf8.ByteLen(Trim(req.name)) <= 50
      && Validation.ValidateLanguageCode(req.code).Pass?
      && HasContent(req.flagEmoji)
    ensures !HasContent(req.name) ==> r == Fail(Empty("Language name"))
    ensures HasContent(req.name) && Utf8.ByteLen(Trim(req.name)) > 50 ==> r == Fail(TooLong("Language name", 50))
    ensures HasContent(req.name) && Utf8.ByteLen(Trim(req.name)) <= 50 && Validation.ValidateLanguageCode(req.code).Fail? ==>
      r == Validation.ValidateLanguageCode(req.code)
  {
    NameBytes(req.name);
    Validation.ValidateNotEmpty(req.name, "Language name")
      .Then(Validation.ValidateStringLength(req.name, "Language name", 1, 50))
      .Then(Validation.ValidateLanguageCode(req.code))
      .Then(Validation.ValidateNotEmpty(req.flagEmoji, "Flag emoji"))
  }

  /** A value with content has at least one byte once trimmed. */
  lemma NameBytes(value: string)
    ensures HasContent(value) ==> Utf8.ByteLen(Trim(value)) >= 1
  {
    TrimEmptyIffBlank(value);
  }

  /** `create_language`: validate, trim every field, insert. The name and
      the code are UNIQUE columns. */
  function CreateLanguage(s: Store, req: CreateLanguageRequest, now: Timestamp): (r: Result<(Store, Language)>)
    ensures Check(req).Fail? ==> r == Err(Check(req).error)
    ensures r.Ok? <==>
      && Check(req).Pass?
      && !LanguageNameTaken(s, Trim(req.name))
      && !LanguageCodeTaken(s, Trim(req.code))
    ensures r.Err? && Check(req).Pass? ==> r.error.UniqueViolation?
    ensures r.Ok? ==> var (t, row) := r.value;
      && row.id == s.languages.NextId() && row.createdAt == now
      && row.name == Trim(req.name) && row.code == req.code && row.flagEmoji == Trim(req.flagEmoji)
      && t == s.(languages := s.languages.Insert(row))
      && (Valid(s) ==> Valid(t))
  {
    var check := Check(req);
    if check.Fail? then Err(check.error)
    else
      Validation.ValidCodeIsTrimmed(req.code);
      InsertLanguage(s, Validation.SanitizeString(req.name), Validation.SanitizeString(req.code),
                     Validation.SanitizeString(req.flagEmoji), now)
  }

  /** `get_languages`: every language, newest first. */
  function GetLanguages(s: Store): (r: seq<Language>)
    ensures multiset(r) == multiset(s.languages.Rows())
    ensures forall i, j :: 0 <= i < j < |r| ==> r[i].createdAt >= r[j].createdAt
  {
    var all := (l: Language) => true;
    Ordering.FilterAll(s.languages.Rows(), all);
    Ordering.Query(s.languages.Rows(), all, Ordering.Descending((l: Language) => l.createdAt), -1)
  }

  /** A created language is listed afterwards, with every language that was
      there before. */
  lemma CreateThenList(s: Store, req: CreateLanguageRequest, now: Timestamp)
    requires Valid(s)
    requires CreateLanguage(s, req, now).Ok?
    ensures var (t, row) := CreateLanguage(s, req, now).value;
      multiset(GetLanguages(t)) == multiset(GetLanguages(s)) + multiset{row}
  {
    var (t, row) := CreateLanguage(s, req, now).value;
    RowsOfInsert(s.languages, (l: Language) => l.id, row);
  }

  /** What is stored passes the same checks again: sanitizing loses
      nothing the validators look at. */
  lemma StoredLanguageRevalidates(s: Store, req: CreateLanguageRequest, now: Timestamp)
    requires CreateLanguage(s, req, now).Ok?
    ensures var row := CreateLanguage(s, req, now).value.1;
      Check(CreateLanguageRequest(row.name, row.code, row.flagEmoji)).Pass?
  {
    var row := CreateLanguage(s, req, now).value.1;
    Validation.ValidationSeesSanitized(req.name, "Language name", 1, 50);
    Validation.ValidationSeesSanitized(req.flagEmoji, "Flag emoji", 1, 50);
    TrimEmptyIffBlank(req.name);
    TrimEmptyIffBlank(Trim(req.name));
    TrimIdempotent(req.name);
    TrimEmptyIffBlank(req.flagEmoji);
    TrimEmptyIffBlank(Trim(req.flagEmoji));
  }

  /** A second language with the name of one already stored is refused,
      whatever its code. */
  lemma DuplicateNameRefused(s: Store, req: CreateLanguageRequest, now: Timestamp, k: int)
    requires Check(req).Pass?
    requires k in s.languages.rows && s.languages.rows[k].name == Trim(req.name)
    ensures CreateLanguage(s, req, now) == Err(UniqueViolation("languages.name"))
  {
  }
}

=== FILE: legacy.dfy ===
/** `database.rs`, the store `lib.rs` wires: the same tables as `db/`, but
    the connection never switches foreign keys on, nothing is validated or
    trimmed, and a review clamps the quality instead of rejecting it. */
module LegacyStore {
  import opened Results
  import Sm2
  import Validation
  import opened Schema
  import VocabularyStore
  import ProjectStore

  type CreateVocabularyRequest = VocabularyStore.CreateVocabularyRequest
  type FlashcardReviewRequest = VocabularyStore.FlashcardReviewRequest

  /** `Database::new` on a newly created file: the `db/` tables it
      shares, without the foreign-keys pragma, so SQLite leaves references
      unchecked. It creates no personal-vault table and none of the `db/`
      indexes; the model's store still has the vault tables, empty and
      never used. */
  function Connect(): (s: Store)
    ensures !s.foreignKeys && Valid(s)
    ensures s.languages.rows == map[] && s.vocabulary.rows == map[] && s.flashcards.rows == map[]
  {
    OpenValid(false);
    Open(false)
  }

  /** `create_vocabulary`: the word is inserted exactly as sent, then its
      flashcard with the column defaults, due at once. */
  function CreateVocabulary(s: Store, req: CreateVocabularyRequest, now: Timestamp): (r: Result<(Store, Vocabulary)>)
    ensures r.Ok? <==> (s.foreignKeys ==> req.languageId in s.languages.rows)
    ensures r.Err? ==> r.error == ForeignKeyViolation
    ensures r.Ok? ==> var (t, row) := r.value;
      && row == Vocabulary(s.vocabulary.NextId(), req.languageId, req.word, req.translation,
                           req.pronunciation, req.exampleSentence, req.difficultyLevel, now)
      && t == s.(vocabulary := s.vocabulary.Insert(row),
                 flashcards := s.flashcards.Insert(VocabularyStore.NewCard(s.flashcards.NextId(), row.id, now)))
      && (Valid(s) ==> Valid(t))
  {
    var v := Vocabulary(s.vocabulary.NextId(), req.languageId, req.word, req.translation,
                        req.pronunciation, req.exampleSentence, req.difficultyLevel, now);
    match InsertVocabulary(s, v)
    case Err(e) => Err(e)
    case Ok((s1, _)) =>
      match InsertFlashcard(s1, VocabularyStore.NewCard(s1.flashcards.NextId(), v.id, now))
      case Err(e) => Err(e)
      case Ok((s2, _)) => Ok((s2, v))
  }

  /** Without the pragma every word is accepted, even one `db/` refuses:
      a blank word, a difficulty of 0, a language that does not exist. */
  lemma AcceptsWhatValidationRejects(s: Store, req: CreateVocabularyRequest, now: Timestamp)
    requires !s.foreignKeys
    ensures CreateVocabulary(s, req, now).Ok?
    ensures VocabularyStore.Check(req).Fail? ==> VocabularyStore.CreateVocabulary(s, req, now).Err?
  {
  }

  /** On input `db/` accepts and whose text is already trimmed, both copies
      write the same rows. */
  lemma CreateAgreesOnCleanInput(s: Store, req: CreateVocabularyRequest, now: Timestamp)
    requires VocabularyStore.Check(req).Pass?
    requires Validation.SanitizeString(req.word) == req.word
    requires Validation.SanitizeString(req.translation) == req.translation
    requires Validation.SanitizeOptionalString(req.pronunciation) == req.pronunciation
    requires Validation.SanitizeOptionalString(req.exampleSentence) == req.exampleSentence
    ensures CreateVocabulary(s, req, now) == VocabularyStore.CreateVocabulary(s, req, now)
  {
  }

  /** `get_due_flashcards`: the same join, filter, order and limit as the
      `db/` copy; each card is paired with the word whose id it carries. */
  function GetDueFlashcards(s: Store, now: Timestamp, limit: int): (r: seq<(Flashcard, Vocabulary)>)
    ensures VocabularyStore.CardsOf(r) == VocabularyStore.DueQueue(s, now, limit)
    ensures forall i :: 0 <= i < |r| ==>
      r[i].0.vocabularyId in s.vocabulary.rows && r[i].1 == VocabularyStore.Joined(s, r[i].0)
  {
    VocabularyStore.GetDueFlashcards(s, now, limit)
  }

  /** `review_flashcard`: an unknown card fails before anything is written;
      otherwise the quality is clamped into 0..5 and the card takes one SM-2
      step. */
  function ReviewFlashcard(s: Store, req: FlashcardReviewRequest, now: Timestamp): (r: Result<Store>)
    ensures r.Ok? <==> req.flashcardId in s.flashcards.rows
    ensures r.Err? ==> r.error == QueryReturnedNoRows
    ensures r.Ok? ==> var c := s.flashcards.rows[req.flashcardId];
      && r.value.flashcards.rows.Keys == s.flashcards.rows.Keys
      && r.value.flashcards.rows[req.flashcardId].Card() == Sm2.Transition(c.Card(), Sm2.Clamp(req.quality))
      && r.value.flashcards.rows[req.flashcardId].lastReviewed == Some(now)
      && (forall k :: k in s.flashcards.rows && k != req.flashcardId ==> r.value.flashcards.rows[k] == s.flashcards.rows[k])
      && r.value == s.(flashcards := r.value.flashcards)
    ensures r.Ok? && Valid(s) ==> Valid(r.value)
  {
    if req.flashcardId !in s.flashcards.rows then Err(QueryReturnedNoRows)
    else
      var c := s.flashcards.rows[req.flashcardId];
      var quality := Sm2.Clamp(req.quality);
      Ok(VocabularyStore.UpdateCard(s, req.flashcardId, VocabularyStore.Reviewed(c, quality, now)))
  }

  /** On a quality in 0..5 the clamping copy and the rejecting copy agree. */
  lemma ReviewAgreesInRange(s: Store, req: FlashcardReviewRequest, now: Timestamp)
    requires 0 <= req.quality <= 5
    ensures ReviewFlashcard(s, req, now) == VocabularyStore.ReviewFlashcard(s, req, now)
  {
  }

  /** Out of range, a quality above 5 reviews as 5 and one below 0 as 0,
      where the `db/` copy refuses. */
  lemma ReviewClampsOutOfRange(s: Store, id: int, now: Timestamp)
    requires id in s.flashcards.rows
    ensures ReviewFlashcard(s, VocabularyStore.FlashcardReviewRequest(id, 9), now)
         == VocabularyStore.ReviewFlashcard(s, VocabularyStore.FlashcardReviewRequest(id, 5), now)
    ensures ReviewFlashcard(s, VocabularyStore.FlashcardReviewRequest(id, -3), now)
         == VocabularyStore.ReviewFlashcard(s, VocabularyStore.FlashcardReviewRequest(id, 0), now)
    ensures VocabularyStore.ReviewFlashcard(s, VocabularyStore.FlashcardReviewRequest(id, 9), now) == Err(QualityOutOfRange)
  {
  }

  /** `update_task_status`: any status is written; the completion time is
      set to now exactly when the status is "completed". An unknown id
      updates nothing. */
  function UpdateTaskStatus(s: Store, taskId: int, status: string, now: Timestamp): (r: Result<Store>)
    ensures r.Ok?
    ensures taskId !in s.tasks.rows ==> r.value == s
    ensures r.value.tasks.rows.Keys == s.tasks.rows.Keys
    ensures forall k :: k in s.tasks.rows && k != taskId ==> r.value.tasks.rows[k] == s.tasks.rows[k]
    ensures taskId in s.tasks.rows ==> var x := r.value.tasks.rows[taskId];
      && x.status == status && x.updatedAt == now
      && (x.completedAt == Some(now) <==> status == "completed")
      && (x.completedAt.None? <==> status != "completed")
    ensures ProjectStore.CompletionConsistent(s) ==> ProjectStore.CompletionConsistent(r.value)
    ensures Valid(s) ==> Valid(r.value)
  {
    Ok(ProjectStore.SetStatus(s, taskId, status, now))
  }

  /** The two copies agree on every task status; only this one also writes
      any other text, such as the "in-progress" the UI sends. */
  lemma UpdateAgreesOnTaskStatuses(s: Store, taskId: int, status: string, now: Timestamp)
    ensures status in ProjectStore.TaskStatuses ==>
      UpdateTaskStatus(s, taskId, status, now) == ProjectStore.UpdateTaskStatus(s, taskId, status, now)
    ensures status !in ProjectStore.TaskStatuses ==>
      UpdateTaskStatus(s, taskId, status, now).Ok? && ProjectStore.UpdateTaskStatus(s, taskId, status, now).Err?
  {
  }
}

=== FILE: like.dfy ===
/** SQLite's LIKE operator as `search_code_snippets` uses it: `%` matches
    any run of characters, `_` any one character, there is no escape
    character, and letters compare case-insensitively for ASCII only. */
module Like {

  /** SQLite's default folding: ASCII upper case to lower case, nothing
      else. */
  function Fold(c: char): (d: char)
    ensures ('A' <= c <= 'Z') ==> d as int == c as int + 32
    ensures !('A' <= c <= 'Z') ==> d == c
  {
    if 'A' <= c <= 'Z' then (c as int + 32) as char else c
  }

  predicate SameLetter(a: char, b: char) {
    Fold(a) == Fold(b)
  }

  /** `value LIKE pattern`. */
  predicate Like(value: string, pattern: string)
    decreases |pattern|, |value|
  {
    if |pattern| == 0 then |value| == 0
    else if pattern[0] == '%' then Like(value, pattern[1..]) || (|value| > 0 && Like(value[1..], pattern))
    else if pattern[0] == '_' then |value| > 0 && Like(value[1..], pattern[1..])
    else |value| > 0 && SameLetter(value[0], pattern[0]) && Like(value[1..], pattern[1..])
  }

  /** A pattern with no wildcard in it: it matches only itself. */
  predicate Literal(q: string) {
    forall j :: 0 <= j < |q| ==> q[j] != '%' && q[j] != '_'
  }

  /** `q` occurs in `v` at position `i`, letters folded. */
  predicate MatchesAt(v: string, q: string, i: int) {
    0 <= i && i + |q| <= |v| && forall j :: 0 <= j < |q| ==> SameLetter(v[i + j], q[j])
  }

  /** `q` occurs somewhere in `v`, letters folded. */
  predicate Contains(v: string, q: string) {
    exists i :: 0 <= i <= |v| && MatchesAt(v, q, i)
  }

  /** The search pattern `format!("%{}%", query)`. */
  function Surround(query: string): (p: string)
    ensures |p| == |query| + 2 && p[0] == '%' && p[|p| - 1] == '%'
    ensures p[1..|p| - 1] == query
  {
    "%" + query + "%"
  }

  /** A lone `%` matches everything. */
  lemma {:induction false} PercentMatchesAll(v: string)
    ensures Like(v, "%")
    decreases |v|
  {
    assert "%"[1..] == "";
    if |v| > 0 {
      PercentMatchesAll(v[1..]);
    }
  }

  /** A literal followed by `%` matches exactly the values it prefixes. */
  lemma {:induction false} LiteralPrefix(v: string, q: string)
    requires Literal(q)
    ensures Like(v, q + "%") <==> MatchesAt(v, q, 0)
    decreases |q|
  {
    if |q| == 0 {
      assert q + "%" == "%";
      PercentMatchesAll(v);
    } else {
      assert (q + "%")[1..] == q[1..] + "%";
      if |v| > 0 {
        LiteralPrefix(v[1..], q[1..]);
        if MatchesAt(v, q, 0) {
          assert MatchesAt(v[1..], q[1..], 0) by {
            forall j | 0 <= j < |q[1..]| ensures SameLetter(v[1..][j], q[1..][j]) {
              assert SameLetter(v[j + 1], q[j + 1]);
            }
          }
        }
        if MatchesAt(v[1..], q[1..], 0) && SameLetter(v[0], q[0]) {
          forall j | 0 <= j < |q| ensures SameLetter(v[j], q[j]) {
            if j > 0 {
              assert SameLetter(v[1..][j - 1], q[1..][j - 1]);
            }
          }
        }
      }
    }
  }

  /** A leading `%` tries every suffix of the value. */
  lemma {:induction false} LeadingPercent(v: string, rest: string)
    ensures Like(v, "%" + rest) <==> exists i :: 0 <= i <= |v| && Like(v[i..], rest)
    decreases |v|
  {
    var p := "%" + rest;
    assert p[1..] == rest;
    assert v[0..] == v;
    if |v| > 0 {
      LeadingPercent(v[1..], rest);
      if Like(v[1..], p) {
        var i :| 0 <= i <= |v[1..]| && Like(v[1..][i..], rest);
        assert v[1..][i..] == v[i + 1..];
      }
      if exists i :: 0 <= i <= |v| && Like(v[i..], rest) {
        var i :| 0 <= i <= |v| && Like(v[i..], rest);
        if i > 0 {
          assert v[1..][i - 1..] == v[i..];
        }
      }
    }
  }

  /** For a query without wildcards, `LIKE '%query%'` is a case-folded
      substring search. */
  lemma SurroundIsContains(v: string, query: string)
    requires Literal(query)
    ensures Like(v, Surround(query)) <==> Contains(v, query)
  {
    assert Surround(query) == "%" + (query + "%");
    LeadingPercent(v, query + "%");
    forall i | 0 <= i <= |v| ensures Like(v[i..], query + "%") <==> MatchesAt(v, query, i) {
      LiteralPrefix(v[i..], query);
      if MatchesAt(v[i..], query, 0) {
        forall j | 0 <= j < |query| ensures SameLetter(v[i + j], query[j]) {
          assert v[i..][j] == v[i + j];
        }
      }
    }
  }

  /** An empty query matches every value. */
  lemma EmptyQueryMatchesAll(v: string)
    ensures Like(v, Surround(""))
  {
    SurroundIsContains(v, "");
    assert MatchesAt(v, "", 0);
  }

  /** A query that is itself `%` matches every value: the wildcard is not
      escaped. */
  lemma WildcardQueryMatchesAll(v: string)
    ensures Like(v, Surround("%"))
  {
    assert Surround("%")[1..] == "%%";
    assert "%%"[1..] == "%";
    PercentMatchesAll(v);
  }

  /** Only ASCII letters are folded: "É" does not match "é". */
  lemma NonAsciiIsCaseSensitive()
    ensures !Like("é", "É")
  {
  }
}

=== FILE: ordering.dfy ===
/** The query shape every getter of the store shares: keep the rows a
    WHERE clause selects, sort them by an ORDER BY, and cut the result at
    a LIMIT. Orders are comparison functions that are total preorders;
    rows that compare equal keep their table order (the sort is stable). */
module Ordering {
  import Utf8
  import opened Results

  ghost predicate Total<T(!new)>(le: (T, T) -> bool) {
    forall a, b :: le(a, b) || le(b, a)
  }

  ghost predicate Transitive<T(!new)>(le: (T, T) -> bool) {
    forall a, b, c :: le(a, b) && le(b, c) ==> le(a, c)
  }

  ghost predicate TotalPreorder<T(!new)>(le: (T, T) -> bool) {
    Total(le) && Transitive(le)
  }

  predicate Sorted<T>(xs: seq<T>, le: (T, T) -> bool) {
    forall i, j :: 0 <= i < j < |xs| ==> le(xs[i], xs[j])
  }

  // ---------------------------------------------------------------------
  // Building orders

  /** ORDER BY on a column: compare the rows' keys. */
  function By<T(!new), K>(key: T -> K, le: (K, K) -> bool): (r: (T, T) -> bool)
  {
    (a: T, b: T) => le(key(a), key(b))
  }

  /** DESC: the reversed order. */
  function Desc<T(!new)>(le: (T, T) -> bool): (r: (T, T) -> bool)
  {
    (a: T, b: T) => le(b, a)
  }

  /** ORDER BY x, y: the second order breaks ties of the first. */
  function ThenBy<T(!new)>(first: (T, T) -> bool, second: (T, T) -> bool): (r: (T, T) -> bool)
  {
    (a: T, b: T) => first(a, b) && (first(b, a) ==> second(a, b))
  }

  lemma ByPreorder<T(!new), K(!new)>(key: T -> K, le: (K, K) -> bool)
    requires TotalPreorder(le)
    ensures TotalPreorder(By(key, le))
  {
    var r := By(key, le);
    forall a, b, c | r(a, b) && r(b, c) ensures r(a, c) {
      assert le(key(a), key(b)) && le(key(b), key(c));
    }
    forall a, b ensures r(a, b) || r(b, a) {
      assert le(key(a), key(b)) || le(key(b), key(a));
    }
  }

  lemma DescPreorder<T(!new)>(le: (T, T) -> bool)
    requires TotalPreorder(le)
    ensures TotalPreorder(Desc(le))
  {
    var r := Desc(le);
    forall a, b, c | r(a, b) && r(b, c) ensures r(a, c) {
      assert le(c, b) && le(b, a);
    }
  }

  lemma ThenByPreorder<T(!new)>(first: (T, T) -> bool, second: (T, T) -> bool)
    requires TotalPreorder(first) && TotalPreorder(second)
    ensures TotalPreorder(ThenBy(first, second))
  {
    var r := ThenBy(first, second);
    forall a, b, c | r(a, b) && r(b, c) ensures r(a, c) {
      assert first(a, b) && first(b, c);
      if first(c, a) {
        assert first(b, a) && first(c, b);
        assert second(a, b) && second(b, c);
      }
    }
    forall a, b ensures r(a, b) || r(b, a) {
      if first(a, b) && first(b, a) {
        assert second(a, b) || second(b, a);
      }
    }
  }

  // ---------------------------------------------------------------------
  // Concrete orders

  function IntLe(): (le: (int, int) -> bool)
    ensures forall a, b :: le(a, b) == (a <= b)
  {
    (a: int, b: int) => a <= b
  }

  lemma IntLePreorder()
    ensures TotalPreorder(IntLe())
  {
  }

  /** memcmp order on byte strings, a proper prefix first. */
  predicate BytesLe(a: seq<bv8>, b: seq<bv8>)
    decreases |a|
  {
    |a| == 0 || (|b| > 0 && (a[0] < b[0] || (a[0] == b[0] && BytesLe(a[1..], b[1..]))))
  }

  lemma {:induction false} BytesLeTotal(a: seq<bv8>, b: seq<bv8>)
    ensures BytesLe(a, b) || BytesLe(b, a)
    decreases |a|
  {
    if |a| > 0 && |b| > 0 && a[0] == b[0] {
      BytesLeTotal(a[1..], b[1..]);
    }
  }

  lemma {:induction false} BytesLeTrans(a: seq<bv8>, b: seq<bv8>, c: seq<bv8>)
    requires BytesLe(a, b) && BytesLe(b, c)
    ensures BytesLe(a, c)
    decreases |a|
  {
    if |a| > 0 && a[0] == b[0] && b[0] == c[0] {
      BytesLeTrans(a[1..], b[1..], c[1..]);
    }
  }

  lemma {:induction false} BytesLeAntisymmetric(a: seq<bv8>, b: seq<bv8>)
    requires BytesLe(a, b) && BytesLe(b, a)
    ensures a == b
    decreases |a|
  {
    if |a| > 0 {
      BytesLeAntisymmetric(a[1..], b[1..]);
      assert a == [a[0]] + a[1..] && b == [b[0]] + b[1..];
    }
  }

  /** TEXT comparison under SQLite's default BINARY collation: the UTF-8
      encodings compared as bytes. */
  function TextLe(): (le: (string, string) -> bool)
    ensures forall a, b :: le(a, b) == BytesLe(Utf8.Encode(a), Utf8.Encode(b))
  {
    (a: string, b: string) => BytesLe(Utf8.Encode(a), Utf8.Encode(b))
  }

  lemma TextLePreorder()
    ensures TotalPreorder(TextLe())
  {
    var le := TextLe();
    forall a, b, c | le(a, b) && le(b, c) ensures le(a, c) {
      BytesLeTrans(Utf8.Encode(a), Utf8.Encode(b), Utf8.Encode(c));
    }
    forall a, b ensures le(a, b) || le(b, a) {
      BytesLeTotal(Utf8.Encode(a), Utf8.Encode(b));
    }
  }

  /** Distinct strings never tie under BINARY collation. */
  lemma TextLeAntisymmetric(a: string, b: string)
    requires TextLe()(a, b) && TextLe()(b, a)
    ensures a == b
  {
    BytesLeAntisymmetric(Utf8.Encode(a), Utf8.Encode(b));
    Utf8.DecodeEncode(a);
    Utf8.DecodeEncode(b);
  }

  /** ORDER BY an integer column ASC. */
  function Ascending<T(!new)>(key: T -> int): (le: (T, T) -> bool)
    ensures TotalPreorder(le)
    ensures forall a, b :: le(a, b) == (key(a) <= key(b))
  {
    IntLePreorder();
    ByPreorder(key, IntLe());
    By(key, IntLe())
  }

  /** ORDER BY an integer column DESC. */
  function Descending<T(!new)>(key: T -> int): (le: (T, T) -> bool)
    ensures TotalPreorder(le)
    ensures forall a, b :: le(a, b) == (key(a) >= key(b))
  {
    IntLePreorder();
    ByPreorder(key, IntLe());
    DescPreorder(By(key, IntLe()));
    Desc(By(key, IntLe()))
  }

  /** ORDER BY a TEXT column ASC. */
  function TextAscending<T(!new)>(key: T -> string): (le: (T, T) -> bool)
    ensures TotalPreorder(le)
    ensures forall a, b :: le(a, b) == TextLe()(key(a), key(b))
  {
    TextLePreorder();
    ByPreorder(key, TextLe());
    By(key, TextLe())
  }

  /** ORDER BY a nullable column ASC: NULL sorts before every value. */
  function NullsFirst<K(!new)>(le: (K, K) -> bool): (r: (Option<K>, Option<K>) -> bool)
  {
    (a: Option<K>, b: Option<K>) => a.None? || (b.Some? && le(a.value, b.value))
  }

  lemma NullsFirstPreorder<K(!new)>(le: (K, K) -> bool)
    requires TotalPreorder(le)
    ensures TotalPreorder(NullsFirst(le))
  {
    var r := NullsFirst(le);
    forall a, b, c | r(a, b) && r(b, c) ensures r(a, c) {
      if a.Some? {
        assert le(a.value, b.value) && le(b.value, c.value);
      }
    }
    forall a, b ensures r(a, b) || r(b, a) {
      if a.Some? && b.Some? {
        assert le(a.value, b.value) || le(b.value, a.value);
      }
    }
  }

  // ---------------------------------------------------------------------
  // Filter, sort, limit

  /** WHERE: the rows satisfying `keep`, in their original order. */
  function Filter<T(!new)>(xs: seq<T>, keep: T -> bool): (r: seq<T>)
    ensures |r| <= |xs|
    ensures forall x :: x in r <==> x in xs && keep(x)
    ensures multiset(r) <= multiset(xs)
    decreases |xs|
  {
    if |xs| == 0 then []
    else
      assert xs == [xs[0]] + xs[1..];
      (if keep(xs[0]) then [xs[0]] else []) + Filter(xs[1..], keep)
  }

  /** A WHERE clause every row satisfies selects the whole table. */
  lemma {:induction false} FilterAll<T(!new)>(xs: seq<T>, keep: T -> bool)
    requires forall i :: 0 <= i < |xs| ==> keep(xs[i])
    ensures Filter(xs, keep) == xs
    decreases |xs|
  {
    if |xs| > 0 {
      FilterAll(xs[1..], keep);
      assert Filter(xs, keep) == [xs[0]] + Filter(xs[1..], keep);
      assert xs == [xs[0]] + xs[1..];
    }
  }

  /** WHERE distributes over concatenation, so it keeps the rows it
      selects in the order the scan produced them. */
  lemma {:induction false} FilterAppend<T(!new)>(a: seq<T>, b: seq<T>, keep: T -> bool)
    ensures Filter(a + b, keep) == Filter(a, keep) + Filter(b, keep)
    decreases |a|
  {
    if |a| == 0 {
      assert a + b == b;
    } else {
      FilterAppend(a[1..], b, keep);
      var head := if keep(a[0]) then [a[0]] else [];
      assert (a + b)[0] == a[0] && (a + b)[1..] == a[1..] + b;
      calc {
        Filter(a + b, keep);
        head + Filter(a[1..] + b, keep);
        head + (Filter(a[1..], keep) + Filter(b, keep));
        { assert head + (Filter(a[1..], keep) + Filter(b, keep)) == (head + Filter(a[1..], keep)) + Filter(b, keep); }
        Filter(a, keep) + Filter(b, keep);
      }
    }
  }

  /** Whatever order the scan was in, the selected rows are in it too. */
  lemma {:induction false} FilterSorted<T(!new)>(xs: seq<T>, keep: T -> bool, le: (T, T) -> bool)
    requires Sorted(xs, le)
    ensures Sorted(Filter(xs, keep), le)
    decreases |xs|
  {
    if |xs| > 0 {
      FilterSorted(xs[1..], keep, le);
      var tail := Filter(xs[1..], keep);
      assert Filter(xs, keep) == (if keep(xs[0]) then [xs[0]] else []) + tail;
      forall j | 0 <= j < |tail| ensures le(xs[0], tail[j]) {
        assert tail[j] in xs[1..];
        var k :| 0 <= k < |xs[1..]| && xs[1..][k] == tail[j];
        assert xs[k + 1] == tail[j];
      }
    }
  }

  /** WHERE keeps every selected row as often as the scan holds it, and
      no other row. */
  lemma {:induction false} FilterCount<T(!new)>(xs: seq<T>, keep: T -> bool)
    ensures forall x :: multiset(Filter(xs, keep))[x] == if keep(x) then multiset(xs)[x] else 0
    decreases |xs|
  {
    if |xs| > 0 {
      FilterCount(xs[1..], keep);
      assert xs == [xs[0]] + xs[1..];
      assert Filter(xs, keep) == (if keep(xs[0]) then [xs[0]] else []) + Filter(xs[1..], keep);
    }
  }

  function Insert<T>(x: T, xs: seq<T>, le: (T, T) -> bool): (r: seq<T>)
    ensures multiset(r) == multiset(xs) + multiset{x}
    decreases |xs|
  {
    if |xs| == 0 then [x]
    else if le(x, xs[0]) then [x] + xs
    else
      assert xs == [xs[0]] + xs[1..];
      [xs[0]] + Insert(x, xs[1..], le)
  }

  lemma {:induction false} InsertSorted<T(!new)>(x: T, xs: seq<T>, le: (T, T) -> bool)
    requires TotalPreorder(le) && Sorted(xs, le)
    ensures Sorted(Insert(x, xs, le), le)
    decreases |xs|
  {
    if |xs| > 0 && !le(x, xs[0]) {
      InsertSorted(x, xs[1..], le);
      var r := Insert(x, xs, le);
      var tail := Insert(x, xs[1..], le);
      assert le(xs[0], x);
      forall j | 0 <= j < |tail| ensures le(xs[0], tail[j]) {
        assert tail[j] in multiset(tail);
        assert tail[j] == x || tail[j] in multiset(xs[1..]);
        if tail[j] != x {
          var k :| 0 <= k < |xs[1..]| && xs[1..][k] == tail[j];
          assert xs[k + 1] == tail[j];
        }
      }
      assert r == [xs[0]] + tail;
    }
  }

  /** ORDER BY: a stable insertion sort. */
  function Sort<T>(xs: seq<T>, le: (T, T) -> bool): (r: seq<T>)
    ensures multiset(r) == multiset(xs)
    ensures |r| == |xs|
    decreases |xs|
  {
    if |xs| == 0 then []
    else
      assert xs == [xs[0]] + xs[1..];
      Insert(xs[0], Sort(xs[1..], le), le)
  }

  lemma {:induction false} SortSorted<T(!new)>(xs: seq<T>, le: (T, T) -> bool)
    requires TotalPreorder(le)
    ensures Sorted(Sort(xs, le), le)
    decreases |xs|
  {
    if |xs| > 0 {
      SortSorted(xs[1..], le);
      InsertSorted(xs[0], Sort(xs[1..], le), le);
    }
  }

  /** LIMIT: a negative limit means no limit, as in SQLite. */
  function Take<T>(xs: seq<T>, limit: int): (r: seq<T>)
    ensures |r| == if 0 <= limit < |xs| then limit else |xs|
    ensures r == xs[..|r|]
  {
    if 0 <= limit < |xs| then xs[..limit] else xs
  }

  /** LIMIT never repeats a row: each row of the prefix is counted in the
      input at least as often. */
  lemma TakeSubMultiset<T>(xs: seq<T>, limit: int)
    ensures multiset(Take(xs, limit)) <= multiset(xs)
  {
    var r := Take(xs, limit);
    assert xs == r + xs[|r|..];
    assert multiset(xs) == multiset(r) + multiset(xs[|r|..]);
  }

  /** In a sorted sequence, whatever lies beyond a prefix is no smaller
      than anything in it. */
  lemma PrefixLeast<T>(s: seq<T>, le: (T, T) -> bool, n: nat)
    requires Sorted(s, le) && n <= |s|
    ensures forall y :: y in s && y !in s[..n] ==> forall i :: 0 <= i < n ==> le(s[i], y)
  {
    forall y | y in s && y !in s[..n] ensures forall i :: 0 <= i < n ==> le(s[i], y) {
      var j :| 0 <= j < |s| && s[j] == y;
    }
  }

  /** Members of a permutation of `Filter(xs, keep)` come from `xs` and
      satisfy `keep`. */
  lemma PermutedFilter<T(!new)>(s: seq<T>, xs: seq<T>, keep: T -> bool)
    requires multiset(s) == multiset(Filter(xs, keep))
    ensures forall y :: y in s <==> y in xs && keep(y)
  {
    forall y ensures y in s <==> y in xs && keep(y) {
      assert y in s <==> y in multiset(s);
      assert y in Filter(xs, keep) <==> y in multiset(Filter(xs, keep));
    }
  }

  /** The rows selected by `keep`, ordered by `le`, at most `limit` of
      them: the ones that come first in the order. */
  function Query<T(!new)>(xs: seq<T>, keep: T -> bool, le: (T, T) -> bool, limit: int): (r: seq<T>)
    requires TotalPreorder(le)
    ensures forall i :: 0 <= i < |r| ==> r[i] in xs && keep(r[i])
    ensures Sorted(r, le)
    ensures |r| == if 0 <= limit < |Filter(xs, keep)| then limit else |Filter(xs, keep)|
    ensures multiset(r) <= multiset(Filter(xs, keep))
    ensures !(0 <= limit < |Filter(xs, keep)|) ==> multiset(r) == multiset(Filter(xs, keep))
    ensures !(0 <= limit < |Filter(xs, keep)|) ==> forall y :: y in r <==> y in xs && keep(y)
    ensures forall y :: y in xs && keep(y) && y !in r ==> forall i :: 0 <= i < |r| ==> le(r[i], y)
  {
    SortedPrefix(xs, keep, le, limit);
    Take(Sort(Filter(xs, keep), le), limit)
  }

  /** A query without a LIMIT: each kept row exactly as often as the input
      holds it, no other row, in the order `le`. */
  function Select<T(!new)>(xs: seq<T>, keep: T -> bool, le: (T, T) -> bool): (r: seq<T>)
    requires TotalPreorder(le)
    ensures forall y :: y in r <==> y in xs && keep(y)
    ensures forall y :: multiset(r)[y] == if keep(y) then multiset(xs)[y] else 0
    ensures Sorted(r, le)
  {
    FilterCount(xs, keep);
    Query(xs, keep, le, -1)
  }

  /** What `Query` promises, proved for the pipeline it runs. */
  lemma SortedPrefix<T(!new)>(xs: seq<T>, keep: T -> bool, le: (T, T) -> bool, limit: int)
    requires TotalPreorder(le)
    ensures var f := Filter(xs, keep);
      var r := Take(Sort(f, le), limit);
      && (forall i :: 0 <= i < |r| ==> r[i] in xs && keep(r[i]))
      && Sorted(r, le)
      && |r| == (if 0 <= limit < |f| then limit else |f|)
      && multiset(r) <= multiset(f)
      && (!(0 <= limit < |f|) ==> multiset(r) == multiset(f))
      && (!(0 <= limit < |f|) ==> forall y :: y in r <==> y in xs && keep(y))
      && (forall y :: y in xs && keep(y) && y !in r ==> forall i :: 0 <= i < |r| ==> le(r[i], y))
  {
    var f := Filter(xs, keep);
    var s := Sort(f, le);
    TakeSubMultiset(s, limit);
    SortSorted(f, le);
    PermutedFilter(s, xs, keep);
    SortedTake(s, le, limit);
  }

  /** A LIMIT on sorted rows keeps them sorted, takes only rows it was
      given, and leaves out nothing that orders before a row it takes. */
  lemma SortedTake<T>(s: seq<T>, le: (T, T) -> bool, limit: int)
    requires Sorted(s, le)
    ensures var r := Take(s, limit);
      && Sorted(r, le)
      && (forall i :: 0 <= i < |r| ==> r[i] in s)
      && (forall y :: y in s && y !in r ==> forall i :: 0 <= i < |r| ==> le(r[i], y))
  {
    var r := Take(s, limit);
    PrefixLeast(s, le, |r|);
    assert forall i :: 0 <= i < |r| ==> r[i] == s[i];
  }
}

=== FILE: planner.dfy ===
/** `db/planner.rs`: dated events and notes, listed one day at a time. */
module PlannerStore {
  import opened Results
  import opened Text
  import Utf8
  import Validation
  import Ordering
  import opened Schema

  datatype CreateEventRequest = CreateEventRequest(
    title: string, description: Option<string>, eventDate: string,
    startTime: Option<string>, endTime: Option<string>, eventType: string, priority: string)

  datatype CreateNoteRequest = CreateNoteRequest(title: string, content: string, noteDate: string, tags: Option<string>)

  /** The checks `create_event` runs before touching the database; the
      event type and the times are not checked. */
  function CheckEvent(req: CreateEventRequest): (r: Outcome)
    ensures r.Pass? <==>
      && HasContent(req.title) && Utf8.ByteLen(Trim(req.title)) <= 200
      && Validation.ValidateDateFormat(req.eventDate).Pass?
      && req.priority in Validation.Priorities
    ensures !HasContent(req.title) ==> r == Fail(Empty("Event title"))
    ensures HasContent(req.title) && Utf8.ByteLen(Trim(req.title)) <= 200 && Validation.ValidateDateFormat(req.eventDate).Fail? ==>
      r == Fail(InvalidDate)
  {
    TrimEmptyIffBlank(req.title);
    Validation.ValidateNotEmpty(req.title, "Event title")
      .Then(Validation.ValidateStringLength(req.title, "Event title", 1, 200))
      .Then(Validation.ValidateDateFormat(req.eventDate))
      .Then(Validation.ValidatePriority(req.priority))
  }

  /** `create_event`: validate, trim the title, description, type and
      priority, insert; the date and the times are stored as given. */
  function CreateEvent(s: Store, req: CreateEventRequest, now: Timestamp): (r: Result<(Store, Event)>)
    ensures r.Ok? <==> CheckEvent(req).Pass?
    ensures r.Err? ==> r.error == CheckEvent(req).error
    ensures r.Ok? ==> var (t, row) := r.value;
      && row == Event(s.events.NextId(), Trim(req.title), Validation.SanitizeOptionalString(req.description),
                      req.eventDate, req.startTime, req.endTime, Trim(req.eventType), req.priority, now, now)
      && t == s.(events := s.events.Insert(row))
      && (Valid(s) ==> Valid(t))
  {
    var check := CheckEvent(req);
    if check.Fail? then Err(check.error)
    else
      Validation.PriorityIsTrimmed(req.priority);
      var row := Event(s.events.NextId(), Validation.SanitizeString(req.title),
                       Validation.SanitizeOptionalString(req.description), req.eventDate, req.startTime,
                       req.endTime, Validation.SanitizeString(req.eventType),
                       Validation.SanitizeString(req.priority), now, now);
      Ok((InsertEvent(s, row), row))
  }

  /** The order of `ORDER BY start_time ASC`: events without a start time
      first, then by start time as text. */
  predicate StartsNoLater(a: Event, b: Event) {
    a.startTime.None? || (b.startTime.Some? && Ordering.TextLe()(a.startTime.value, b.startTime.value))
  }

  /** ORDER BY start_time ASC. */
  function StartTimeOrder(): (le: (Event, Event) -> bool)
    ensures Ordering.TotalPreorder(le)
  {
    Ordering.TextLePreorder();
    Ordering.NullsFirstPreorder(Ordering.TextLe());
    Ordering.ByPreorder((x: Event) => x.startTime, Ordering.NullsFirst(Ordering.TextLe()));
    Ordering.By((x: Event) => x.startTime, Ordering.NullsFirst(Ordering.TextLe()))
  }

  /** The start-time order puts events without a start time first. */
  lemma StartTimeOrderMeans(a: Event, b: Event)
    ensures StartTimeOrder()(a, b) == StartsNoLater(a, b)
  {
  }

  /** The query of `get_events_by_date`: the events of exactly that date,
      each as often as it is stored, by start time. */
  function EventsOn(s: Store, date: string): (r: seq<Event>)
    ensures forall x :: x in r <==> x in s.events.Rows() && x.eventDate == date
    ensures forall x :: multiset(r)[x] == if x.eventDate == date then multiset(s.events.Rows())[x] else 0
    ensures forall i, j :: 0 <= i < j < |r| ==> StartsNoLater(r[i], r[j])
  {
    var r := Ordering.Select(s.events.Rows(), (x: Event) => x.eventDate == date, StartTimeOrder());
    assert forall i, j :: 0 <= i < j < |r| ==> StartsNoLater(r[i], r[j]) by {
      forall i, j | 0 <= i < j < |r| ensures StartsNoLater(r[i], r[j]) {
        StartTimeOrderMeans(r[i], r[j]);
      }
    }
    r
  }

  /** `get_events_by_date`: the date must pass the format check; then the
      events of exactly that date, by start time. */
  function GetEventsByDate(s: Store, date: string): (r: Result<seq<Event>>)
    ensures r.Err? <==> Validation.ValidateDateFormat(date).Fail?
    ensures r.Err? ==> r.error == InvalidDate
    ensures r.Ok? ==> forall x :: x in r.value <==> x in s.events.Rows() && x.eventDate == date
    ensures r.Ok? ==> forall x :: multiset(r.value)[x] == if x.eventDate == date then multiset(s.events.Rows())[x] else 0
    ensures r.Ok? ==> forall i, j :: 0 <= i < j < |r.value| ==> StartsNoLater(r.value[i], r.value[j])
  {
    var check := Validation.ValidateDateFormat(date);
    if check.Fail? then Err(check.error) else Ok(EventsOn(s, date))
  }

  /** A created event is listed under its date. */
  lemma CreatedEventIsListed(s: Store, req: CreateEventRequest, now: Timestamp)
    requires WellKeyed(s) && CreateEvent(s, req, now).Ok?
    ensures var (t, row) := CreateEvent(s, req, now).value;
      GetEventsByDate(t, req.eventDate).Ok? && row in GetEventsByDate(t, req.eventDate).value
  {
    var (t, row) := CreateEvent(s, req, now).value;
    RowsOfInsert(s.events, (x: Event) => x.id, row);
  }

  /** The checks `create_note` runs before touching the database. */
  function CheckNote(req: CreateNoteRequest): (r: Outcome)
    ensures r.Pass? <==>
      && HasContent(req.title) && Utf8.ByteLen(Trim(req.title)) <= 200
      && HasContent(req.content)
      && Validation.ValidateDateFormat(req.noteDate).Pass?
    ensures !HasContent(req.title) ==> r == Fail(Empty("Note title"))
    ensures HasContent(req.title) && Utf8.ByteLen(Trim(req.title)) <= 200 && !HasContent(req.content) ==>
      r == Fail(Empty("Note content"))
  {
    TrimEmptyIffBlank(req.title);
    Validation.ValidateNotEmpty(req.title, "Note title")
      .Then(Validation.ValidateStringLength(req.title, "Note title", 1, 200))
      .Then(Validation.ValidateNotEmpty(req.content, "Note content"))
      .Then(Validation.ValidateDateFormat(req.noteDate))
  }

  /** `create_note`: validate, trim the title and tags, insert; the content
      and the date are stored exactly as given. */
  function CreateNote(s: Store, req: CreateNoteRequest, now: Timestamp): (r: Result<(Store, Note)>)
    ensures r.Ok? <==> CheckNote(req).Pass?
    ensures r.Err? ==> r.error == CheckNote(req).error
    ensures r.Ok? ==> var (t, row) := r.value;
      && row == Note(s.notes.NextId(), Trim(req.title), req.content, req.noteDate,
                     Validation.SanitizeOptionalString(req.tags), now, now)
      && t == s.(notes := s.notes.Insert(row))
      && (Valid(s) ==> Valid(t))
  {
    var check := CheckNote(req);
    if check.Fail? then Err(check.error)
    else
      var row := Note(s.notes.NextId(), Validation.SanitizeString(req.title), req.content, req.noteDate,
                      Validation.SanitizeOptionalString(req.tags), now, now);
      Ok((InsertNote(s, row), row))
  }

  /** `get_notes_by_date`: the date must pass the format check; then the
      notes of exactly that date, newest first. */
  function GetNotesByDate(s: Store, date: string): (r: Result<seq<Note>>)
    ensures r.Err? <==> Validation.ValidateDateFormat(date).Fail?
    ensures r.Err? ==> r.error == InvalidDate
    ensures r.Ok? ==> forall x :: x in r.value <==> x in s.notes.Rows() && x.noteDate == date
    ensures r.Ok? ==> forall x :: multiset(r.value)[x] == if x.noteDate == date then multiset(s.notes.Rows())[x] else 0
    ensures r.Ok? ==> forall i, j :: 0 <= i < j < |r.value| ==> r.value[i].createdAt >= r.value[j].createdAt
  {
    var check := Validation.ValidateDateFormat(date);
    if check.Fail? then Err(check.error)
    else
      Ok(Ordering.Select(s.notes.Rows(), (x: Note) => x.noteDate == date, Ordering.Descending((x: Note) => x.createdAt)))
  }

  /** A created note is listed under its date, its content untouched. */
  lemma CreatedNoteIsListed(s: Store, req: CreateNoteRequest, now: Timestamp)
    requires WellKeyed(s) && CreateNote(s, req, now).Ok?
    ensures var (t, row) := CreateNote(s, req, now).value;
      && GetNotesByDate(t, req.noteDate).Ok? && row in GetNotesByDate(t, req.noteDate).value
      && row.content == req.content
  {
    var (t, row) := CreateNote(s, req, now).value;
    RowsOfInsert(s.notes, (x: Note) => x.id, row);
  }
}

=== FILE: projects.dfy ===
/** `db/projects.rs`: projects, their tasks and the task status update. */
module ProjectStore {
  import opened Results
  import opened Text
  import Utf8
  import Validation
  import Ordering
  import opened Schema

  const ProjectStatuses: seq<string> := ["active", "completed", "on_hold", "cancelled"]
  const TaskStatuses: seq<string> := ["todo", "in_progress", "completed", "blocked"]

  datatype CreateProjectRequest = CreateProjectRequest(
    name: string, description: Option<string>, status: string, priority: string,
    startDate: Option<string>, endDate: Option<string>)

  datatype CreateTaskRequest = CreateTaskRequest(
    projectId: int, title: string, description: Option<string>, status: string,
    priority: string, dueDate: Option<string>)

  /** `if let Some(d) = date { validate_date_format(d)? }`. */
  function CheckOptionalDate(date: Option<string>): (r: Outcome)
    ensures r.Pass? <==> date.None? || Validation.ValidateDateFormat(date.value).Pass?
    ensures r.Fail? ==> r.error == InvalidDate
  {
    match date
    case None => Pass
    case Some(d) => Validation.ValidateDateFormat(d)
  }

  /** The statuses hold no whitespace, so an accepted status is stored
      exactly as given. */
  lemma AllowedValuesAreTrimmed(value: string, allowed: seq<string>)
    requires allowed == ProjectStatuses || allowed == TaskStatuses
    requires value in allowed
    ensures Validation.SanitizeString(value) == value
  {
    assert forall i :: 0 <= i < |value| ==> !IsWhitespace(value[i]);
    TrimNoWhitespace(value);
  }

  /** The checks `create_project` runs before touching the database. */
  function CheckProject(req: CreateProjectRequest): (r: Outcome)
    ensures r.Pass? <==>
      && HasContent(req.name) && Utf8.ByteLen(Trim(req.name)) <= 200
      && req.status in ProjectStatuses
      && req.priority in Validation.Priorities
      && CheckOptionalDate(req.startDate).Pass? && CheckOptionalDate(req.endDate).Pass?
    ensures !HasContent(req.name) ==> r == Fail(Empty("Project name"))
    ensures HasContent(req.name) && Utf8.ByteLen(Trim(req.name)) <= 200 && req.status !in ProjectStatuses ==>
      r == Fail(InvalidStatus(ProjectStatuses))
  {
    TrimEmptyIffBlank(req.name);
    Validation.ValidateNotEmpty(req.name, "Project name")
      .Then(Validation.ValidateStringLength(req.name, "Project name", 1, 200))
      .Then(Validation.ValidateStatus(req.status, ProjectStatuses))
      .Then(Validation.ValidatePriority(req.priority))
      .Then(CheckOptionalDate(req.startDate))
      .Then(CheckOptionalDate(req.endDate))
  }

  /** `create_project`: validate, trim the text fields, insert. The dates
      are stored as given. */
  function CreateProject(s: Store, req: CreateProjectRequest, now: Timestamp): (r: Result<(Store, Project)>)
    ensures r.Ok? <==> CheckProject(req).Pass?
    ensures r.Err? ==> r.error == CheckProject(req).error
    ensures r.Ok? ==> var (t, row) := r.value;
      && row == Project(s.projects.NextId(), Trim(req.name), Validation.SanitizeOptionalString(req.description),
                        req.status, req.priority, req.startDate, req.endDate, now, now)
      && t == s.(projects := s.projects.Insert(row))
      && (Valid(s) ==> Valid(t))
  {
    var check := CheckProject(req);
    if check.Fail? then Err(check.error)
    else
      AllowedValuesAreTrimmed(req.status, ProjectStatuses);
      Validation.PriorityIsTrimmed(req.priority);
      var row := Project(s.projects.NextId(), Validation.SanitizeString(req.name),
                         Validation.SanitizeOptionalString(req.description),
                         Validation.SanitizeString(req.status), Validation.SanitizeString(req.priority),
                         req.startDate, req.endDate, now, now);
      Ok((InsertProject(s, row), row))
  }

  /** `get_projects`: every project, most recently updated first. */
  function GetProjects(s: Store): (r: seq<Project>)
    ensures multiset(r) == multiset(s.projects.Rows())
    ensures forall i, j :: 0 <= i < j < |r| ==> r[i].updatedAt >= r[j].updatedAt
  {
    var all := (p: Project) => true;
    Ordering.FilterAll(s.projects.Rows(), all);
    Ordering.Query(s.projects.Rows(), all, Ordering.Descending((p: Project) => p.updatedAt), -1)
  }

  /** The checks `create_task` runs before touching the database. */
  function CheckTask(req: CreateTaskRequest): (r: Outcome)
    ensures r.Pass? <==>
      && HasContent(req.title) && Utf8.ByteLen(Trim(req.title)) <= 200
      && req.status in TaskStatuses
      && req.priority in Validation.Priorities
      && CheckOptionalDate(req.dueDate).Pass?
    ensures !HasContent(req.title) ==> r == Fail(Empty("Task title"))
    ensures HasContent(req.title) && Utf8.ByteLen(Trim(req.title)) <= 200 && req.status !in TaskStatuses ==>
      r == Fail(InvalidStatus(TaskStatuses))
  {
    TrimEmptyIffBlank(req.title);
    Validation.ValidateNotEmpty(req.title, "Task title")
      .Then(Validation.ValidateStringLength(req.title, "Task title", 1, 200))
      .Then(Validation.ValidateStatus(req.status, TaskStatuses))
      .Then(Validation.ValidatePriority(req.priority))
      .Then(CheckOptionalDate(req.dueDate))
  }

  /** `create_task`: validate, trim, insert; a new task has no completion
      time, whatever its status. With foreign keys on, the project must
      exist. */
  function CreateTask(s: Store, req: CreateTaskRequest, now: Timestamp): (r: Result<(Store, Task)>)
    ensures CheckTask(req).Fail? ==> r == Err(CheckTask(req).error)
    ensures r.Ok? <==> CheckTask(req).Pass? && (s.foreignKeys ==> req.projectId in s.projects.rows)
    ensures r.Err? && CheckTask(req).Pass? ==> r.error == ForeignKeyViolation
    ensures r.Ok? ==> var (t, row) := r.value;
      && row == Task(s.tasks.NextId(), req.projectId, Trim(req.title), Validation.SanitizeOptionalString(req.description),
                     req.status, req.priority, req.dueDate, None, now, now)
      && t == s.(tasks := s.tasks.Insert(row))
      && (Valid(s) ==> Valid(t))
  {
    var check := CheckTask(req);
    if check.Fail? then Err(check.error)
    else
      AllowedValuesAreTrimmed(req.status, TaskStatuses);
      Validation.PriorityIsTrimmed(req.priority);
      InsertTask(s, Task(s.tasks.NextId(), req.projectId, Validation.SanitizeString(req.title),
                         Validation.SanitizeOptionalString(req.description),
                         Validation.SanitizeString(req.status), Validation.SanitizeString(req.priority),
                         req.dueDate, None, now, now))
  }

  /** `get_tasks_by_project`: the project's tasks, oldest first. */
  function GetTasksByProject(s: Store, projectId: int): (r: seq<Task>)
    ensures forall x :: x in r <==> x in s.tasks.Rows() && x.projectId == projectId
    ensures forall x :: multiset(r)[x] == if x.projectId == projectId then multiset(s.tasks.Rows())[x] else 0
    ensures forall i, j :: 0 <= i < j < |r| ==> r[i].createdAt <= r[j].createdAt
  {
    Ordering.Select(s.tasks.Rows(), (x: Task) => x.projectId == projectId, Ordering.Ascending((x: Task) => x.createdAt))
  }

  /** The row UPDATE tasks SET status, completed_at, updated_at writes. */
  function WithStatus(x: Task, status: string, now: Timestamp): (y: Task)
    ensures y.completedAt.Some? <==> status == "completed"
    ensures y.completedAt.Some? ==> y.completedAt.value == now
    ensures y.status == status && y.updatedAt == now
    ensures y.(status := x.status, completedAt := x.completedAt, updatedAt := x.updatedAt) == x
  {
    x.(status := status, completedAt := if status == "completed" then Some(now) else None, updatedAt := now)
  }

  /** `update_task_status`: the status must be a task status; an unknown
      task id updates nothing and still succeeds. */
  function UpdateTaskStatus(s: Store, taskId: int, status: string, now: Timestamp): (r: Result<Store>)
    ensures r.Ok? <==> status in TaskStatuses
    ensures r.Err? ==> r.error == InvalidStatus(TaskStatuses)
    ensures r.Ok? && taskId !in s.tasks.rows ==> r.value == s
    ensures r.Ok? && taskId in s.tasks.rows ==>
      r.value == s.(tasks := Table(s.tasks.rows[taskId := WithStatus(s.tasks.rows[taskId], status, now)], s.tasks.lastId))
    ensures r.Ok? && Valid(s) ==> Valid(r.value)
  {
    var check := Validation.ValidateStatus(status, TaskStatuses);
    if check.Fail? then Err(check.error)
    else Ok(SetStatus(s, taskId, status, now))
  }

  /** The UPDATE itself, shared with the unvalidated copy in `database.rs`. */
  function SetStatus(s: Store, taskId: int, status: string, now: Timestamp): (t: Store)
    ensures taskId !in s.tasks.rows ==> t == s
    ensures taskId in s.tasks.rows ==>
      t == s.(tasks := Table(s.tasks.rows[taskId := WithStatus(s.tasks.rows[taskId], status, now)], s.tasks.lastId))
    ensures Valid(s) ==> Valid(t)
  {
    if taskId !in s.tasks.rows then s
    else s.(tasks := Table(s.tasks.rows[taskId := WithStatus(s.tasks.rows[taskId], status, now)], s.tasks.lastId))
  }

  /** A task carries a completion time only while its status is
      "completed". */
  predicate CompletionConsistent(s: Store) {
    forall k :: k in s.tasks.rows && s.tasks.rows[k].completedAt.Some? ==> s.tasks.rows[k].status == "completed"
  }

  lemma CreateTaskKeepsConsistency(s: Store, req: CreateTaskRequest, now: Timestamp)
    requires CompletionConsistent(s) && CreateTask(s, req, now).Ok?
    ensures CompletionConsistent(CreateTask(s, req, now).value.0)
  {
  }

  lemma SetStatusKeepsConsistency(s: Store, taskId: int, status: string, now: Timestamp)
    requires CompletionConsistent(s)
    ensures CompletionConsistent(SetStatus(s, taskId, status, now))
  {
  }

  /** Marking a task completed stamps it; moving it to any other status
      clears the stamp. */
  lemma CompletionFollowsStatus(s: Store, taskId: int, status: string, now: Timestamp)
    requires taskId in s.tasks.rows
    requires UpdateTaskStatus(s, taskId, status, now).Ok?
    ensures var x := UpdateTaskStatus(s, taskId, status, now).value.tasks.rows[taskId];
      && x.status == status
      && (x.completedAt == Some(now) <==> status == "completed")
      && (x.completedAt.None? <==> status != "completed")
  {
  }

  /** A task created with status "completed" has no completion time: only
      the status update stamps one. */
  lemma CreatedCompletedIsUnstamped(s: Store, req: CreateTaskRequest, now: Timestamp)
    requires req.status == "completed" && CreateTask(s, req, now).Ok?
    ensures CreateTask(s, req, now).value.1.completedAt.None?
    ensures CreateTask(s, req, now).value.1.status == "completed"
  {
  }
}

=== FILE: results.dfy ===
/** Failure-carrying datatypes shared by the whole model.

    The Rust code returns `anyhow::Result<T>`; here the error side is a
    closed datatype with one constructor per distinct failure the core can
    raise: the validator messages of `validation.rs`, the UTF-8 failure of
    `String::from_utf8`, and the three SQLite failures the record store can
    hit (no row for `query_row`, a foreign-key and a uniqueness violation). */
module Results {

  datatype Option<+T> = None | Some(value: T)

  datatype Error =
    // validation.rs
    | TooShort(field: string, min: nat)          // "{field} must be at least {min} characters"
    | TooLong(field: string, max: nat)           // "{field} must be at most {max} characters"
    | Empty(field: string)                       // "{field} cannot be empty"
    | InvalidEmail                               // "Invalid email format"
    | LanguageCodeLength                         // "Language code must be between 2 and 5 characters"
    | LanguageCodeChars                          // "Language code must contain only letters and hyphens"
    | DifficultyOutOfRange                       // "Difficulty level must be between 1 and 5"
    | QualityOutOfRange                          // "Quality rating must be between 0 and 5"
    | InvalidStatus(allowed: seq<string>)        // "Invalid status. Allowed values: ..."
    | InvalidDate                                // "Date must be in YYYY-MM-DD format"
    // String::from_utf8
    | InvalidUtf8
    // rusqlite / SQLite
    | QueryReturnedNoRows
    | ForeignKeyViolation
    | UniqueViolation(column: string)
  {
    /** True for the errors the validators raise before any lock is taken. */
    predicate IsValidation() {
      !(InvalidUtf8? || QueryReturnedNoRows? || ForeignKeyViolation? || UniqueViolation?)
    }
  }

  datatype Result<+T> = Ok(value: T) | Err(error: Error)

  /** The `Result<()>` of a validator: `Pass` is `Ok(())`. */
  datatype Outcome = Pass | Fail(error: Error) {

    /** Sequencing of two checks, as `a?; b?` does in Rust: the first
        failure wins. */
    function Then(next: Outcome): (r: Outcome)
      ensures r.Pass? <==> Pass? && next.Pass?
      ensures Fail? ==> r == this
      ensures Pass? ==> r == next
    {
      if Pass? then next else this
    }
  }
}

=== FILE: scheduler.dfy ===
/** The SuperMemo SM-2 step of `review_flashcard`.

    Both live copies (`db/vocabulary.rs` and `database.rs`) run the same
    transition on the `(ease, interval, repetitions)` of one card, given a
    quality in 0..5. The `f64` ease is an exact `real` here; `round` is
    Rust's half-away-from-zero rounding and `as i32` its saturating cast. */
module Sm2 {

  const MinEase: real := 1.3
  const InitialEase: real := 2.5
  const InitialInterval: int := 1
  const I32Min: int := -0x8000_0000
  const I32Max: int := 0x7FFF_FFFF

  /** `quality.max(0).min(5)`. */
  function Clamp(q: int): (r: int)
    ensures 0 <= r <= 5
    ensures 0 <= q <= 5 ==> r == q
    ensures q < 0 ==> r == 0
    ensures q > 5 ==> r == 5
  {
    if q < 0 then 0 else if q > 5 then 5 else q
  }

  /** `f64::round`: to the nearest integer, halves away from zero. */
  function Round(x: real): (r: int)
    ensures x >= 0.0 ==> r as real - 0.5 <= x < r as real + 0.5
    ensures x < 0.0 ==> r as real - 0.5 < x <= r as real + 0.5
  {
    if x >= 0.0 then (x + 0.5).Floor else -((-x + 0.5).Floor)
  }

  /** `f64 as i32`: out-of-range values saturate. */
  function SaturateI32(v: int): (r: int)
    ensures I32Min <= r <= I32Max
    ensures I32Min <= v <= I32Max ==> r == v
    ensures v > I32Max ==> r == I32Max
    ensures v < I32Min ==> r == I32Min
  {
    if v > I32Max then I32Max else if v < I32Min then I32Min else v
  }

  /** The change of ease before the floor: 0.1 - (5-q)(0.08 + (5-q)0.02). */
  function EaseDelta(q: int): (d: real)
    requires 0 <= q <= 5
    ensures d <= 0.1
  {
    var m := (5 - q) as real;
    0.1 - m * (0.08 + m * 0.02)
  }

  /** `ease_factor.max(1.3)` after adding the delta. */
  function NextEase(ease: real, q: int): (r: real)
    requires 0 <= q <= 5
    ensures r >= MinEase
    ensures r == ease + EaseDelta(q) || r == MinEase
    ensures r >= ease + EaseDelta(q)
  {
    var e := ease + EaseDelta(q);
    if e > MinEase then e else MinEase
  }

  /** `(interval as f64 * ease_factor).round() as i32`: the interval of a
      third or later success. */
  function Scaled(interval: int, ease: real): (r: int)
    ensures I32Min <= r <= I32Max
    ensures var x := interval as real * ease;
            0.0 <= x <= I32Max as real ==> r as real - 0.5 <= x < r as real + 0.5
    ensures 1 <= interval <= I32Max && ease >= MinEase ==> r >= interval
  {
    var r := SaturateI32(Round(interval as real * ease));
    if 1 <= interval && ease >= MinEase then ScaledIntervalGrows(interval, ease); r else r
  }

  /** The scheduling fields of a flashcard row. */
  datatype Card = Card(ease: real, interval: int, repetitions: int)

  /** The values `create_vocabulary` gives a new card (and the column
      defaults of the schema). */
  const Initial: Card := Card(InitialEase, InitialInterval, 0)

  /** One review with a quality already in 0..5. */
  function Transition(c: Card, q: int): (r: Card)
    requires 0 <= q <= 5
    ensures r.ease >= MinEase && r.ease == NextEase(c.ease, q)
    ensures q < 3 ==> r.repetitions == 0 && r.interval == 1
    ensures q >= 3 ==> r.repetitions == c.repetitions + 1
    ensures q >= 3 && c.repetitions == 0 ==> r.interval == 1
    ensures q >= 3 && c.repetitions == 1 ==> r.interval == 6
    ensures q >= 3 && c.repetitions >= 2 ==> r.interval == Scaled(c.interval, c.ease)
    ensures I32Min <= r.interval <= I32Max
  {
    var ease := NextEase(c.ease, q);
    if q >= 3 then
      var interval :=
        if c.repetitions == 0 then 1
        else if c.repetitions == 1 then 6
        else Scaled(c.interval, c.ease);
      Card(ease, interval, c.repetitions + 1)
    else
      Card(ease, 1, 0)
  }

  /** The interval after a third or later success is the old interval
      times the old ease, rounded to the nearest day. */
  lemma LongIntervalIsScaled(c: Card, q: int)
    requires 3 <= q <= 5 && c.repetitions >= 2
    requires 0.0 <= c.interval as real * c.ease <= I32Max as real
    ensures var i := Transition(c, q).interval as real;
            i - 0.5 <= c.interval as real * c.ease < i + 0.5
  {
    var r := Scaled(c.interval, c.ease);
    assert Transition(c, q).interval == r;
  }

  /** The ease deltas of the SM-2 table: +0.1 at 5, none at 4, -0.14 at 3,
      then -0.32, -0.54 and -0.8 for the failing grades. */
  lemma EaseDeltaTable()
    ensures EaseDelta(5) == 0.1 && EaseDelta(4) == 0.0 && EaseDelta(3) == -0.14
    ensures EaseDelta(2) == -0.32 && EaseDelta(1) == -0.54 && EaseDelta(0) == -0.8
  {
  }

  /** A better grade never lowers the new ease. */
  lemma EaseMonotone(ease: real, q1: int, q2: int)
    requires 0 <= q1 <= q2 <= 5
    ensures NextEase(ease, q1) <= NextEase(ease, q2)
  {
    EaseDeltaTable();
    assert q1 == 0 || q1 == 1 || q1 == 2 || q1 == 3 || q1 == 4 || q1 == 5;
    assert q2 == 0 || q2 == 1 || q2 == 2 || q2 == 3 || q2 == 4 || q2 == 5;
  }

  /** A card that is scheduled as the store can produce it: every card
      starts as `Initial` and changes only through `Transition`. */
  predicate Reachable(c: Card) {
    && c.ease >= MinEase
    && 1 <= c.interval <= I32Max
    && c.repetitions >= 0
    && (c.repetitions <= 1 ==> c.interval == 1)
  }

  lemma InitialReachable()
    ensures Reachable(Initial)
  {
  }

  lemma TransitionReachable(c: Card, q: int)
    requires Reachable(c) && 0 <= q <= 5
    ensures Reachable(Transition(c, q))
  {
  }

  /** `round(i * e)` for an ease of at least 1.3 is at least `i`. */
  lemma ScaledIntervalGrows(i: int, e: real)
    requires 1 <= i && e >= MinEase
    ensures Round(i as real * e) >= i
  {
    var x := i as real;
    assert x * e - x == x * (e - 1.0);
    assert x * (e - 1.0) >= 0.0;
  }

  /** On the success path the interval never shrinks. */
  lemma SuccessNeverShrinks(c: Card, q: int)
    requires Reachable(c) && 3 <= q <= 5
    ensures Transition(c, q).interval >= c.interval
  {
  }

  /** A failure forgets the progress: the next state does not depend on
      the interval or repetitions the card had. */
  lemma FailureResets(c: Card, d: Card, q: int)
    requires 0 <= q < 3 && c.ease == d.ease
    ensures Transition(c, q) == Transition(d, q)
    ensures Transition(c, q) == Card(NextEase(c.ease, q), 1, 0)
  {
  }

  /** The first two successes from a new card give the fixed intervals 1
      and 6, whatever the grades. */
  lemma FirstSuccesses(q1: int, q2: int)
    requires 3 <= q1 <= 5 && 3 <= q2 <= 5
    ensures Transition(Initial, q1).interval == 1
    ensures Transition(Transition(Initial, q1), q2).interval == 6
    ensures Transition(Transition(Initial, q1), q2).repetitions == 2
  {
  }
}

=== FILE: schema.dfy ===
/** The SQLite database of `db/connection.rs` as an immutable value.

    Each table is a map from rowid to row plus the AUTOINCREMENT counter,
    so a new row gets the id one past the largest ever handed out. The
    constraints of the schema are enforced by the insert functions here:
    NOT NULL is the types, UNIQUE is checked on every insert, and the
    foreign keys are checked only when the connection enabled them, which
    `db/connection.rs` does and `database.rs` does not. ON DELETE CASCADE
    is the semantics of deleting a parent row. Timestamps are seconds. */
module Schema {
  import opened Results
  import Sm2
  import Ordering

  type Timestamp = int

  const SecondsPerDay: int := 86400

  datatype Language = Language(id: int, name: string, code: string, flagEmoji: string, createdAt: Timestamp)

  datatype Vocabulary = Vocabulary(
    id: int, languageId: int, word: string, translation: string,
    pronunciation: Option<string>, exampleSentence: Option<string>,
    difficultyLevel: int, createdAt: Timestamp)

  datatype Flashcard = Flashcard(
    id: int, vocabularyId: int, easeFactor: real, intervalDays: int, repetitions: int,
    nextReview: Timestamp, lastReviewed: Option<Timestamp>, createdAt: Timestamp)
  {
    /** The fields the scheduler reads and writes. */
    function Card(): Sm2.Card {
      Sm2.Card(easeFactor, intervalDays, repetitions)
    }
  }

  datatype TechSpace = TechSpace(id: int, name: string, description: Option<string>, icon: string, createdAt: Timestamp)

  datatype CodeSnippet = CodeSnippet(
    id: int, techSpaceId: int, title: string, description: Option<string>, code: string,
    language: string, tags: Option<string>, createdAt: Timestamp, updatedAt: Timestamp)

  datatype Project = Project(
    id: int, name: string, description: Option<string>, status: string, priority: string,
    startDate: Option<string>, endDate: Option<string>, createdAt: Timestamp, updatedAt: Timestamp)

  datatype Task = Task(
    id: int, projectId: int, title: string, description: Option<string>, status: string,
    priority: string, dueDate: Option<string>, completedAt: Option<Timestamp>,
    createdAt: Timestamp, updatedAt: Timestamp)

  datatype Event = Event(
    id: int, title: string, description: Option<string>, eventDate: string,
    startTime: Option<string>, endTime: Option<string>, eventType: string, priority: string,
    createdAt: Timestamp, updatedAt: Timestamp)

  datatype Note = Note(
    id: int, title: string, content: string, noteDate: string, tags: Option<string>,
    createdAt: Timestamp, updatedAt: Timestamp)

  datatype PersonalAccount = PersonalAccount(
    id: int, title: string, email: string, password: string, website: Option<string>,
    notes: Option<string>, category: string, createdAt: Timestamp, updatedAt: Timestamp)

  datatype PersonalInfo = PersonalInfo(
    id: int, title: string, content: string, category: string, isSensitive: bool,
    createdAt: Timestamp, updatedAt: Timestamp)

  // ---------------------------------------------------------------------
  // Column defaults

  const DefaultDifficulty: int := 1
  const DefaultEase: real := 2.5
  const DefaultInterval: int := 1
  const DefaultRepetitions: int := 0
  const DefaultProjectStatus: string := "active"
  const DefaultPriority: string := "medium"
  const DefaultTaskStatus: string := "todo"
  const DefaultEventType: string := "event"
  const DefaultAccountCategory: string := "email"
  const DefaultInfoCategory: string := "general"
  const DefaultIsSensitive: bool := false

  /** The flashcard defaults are the scheduler's starting state. */
  lemma FlashcardDefaultsAreInitial()
    ensures Sm2.Card(DefaultEase, DefaultInterval, DefaultRepetitions) == Sm2.Initial
    ensures Sm2.Reachable(Sm2.Card(DefaultEase, DefaultInterval, DefaultRepetitions))
  {
  }

  // ---------------------------------------------------------------------
  // Tables

  datatype Table<T(!new)> = Table(rows: map<int, T>, lastId: int) {

    /** The rowid AUTOINCREMENT hands out next. */
    function NextId(): int {
      lastId + 1
    }

    function Insert(row: T): (t: Table<T>)
      ensures t.rows.Keys == rows.Keys + {NextId()}
      ensures t.rows[NextId()] == row
      ensures forall k :: k in rows && k != NextId() ==> t.rows[k] == rows[k]
      ensures t.lastId == NextId()
    {
      Table(rows[NextId() := row], NextId())
    }

    /** DELETE ... WHERE: the rows `drop` selects disappear. */
    function Remove(drop: T -> bool): (t: Table<T>)
      ensures forall k :: k in t.rows <==> k in rows && !drop(rows[k])
      ensures forall k :: k in t.rows ==> t.rows[k] == rows[k]
      ensures t.lastId == lastId
    {
      Table(map k | k in rows && !drop(rows[k]) :: rows[k], lastId)
    }

    /** DELETE ... WHERE id = ?: the row with that rowid disappears. */
    function RemoveId(id: int): (t: Table<T>)
      ensures t.rows.Keys == rows.Keys - {id}
      ensures forall k :: k in t.rows ==> t.rows[k] == rows[k]
      ensures t.lastId == lastId
    {
      Table(rows - {id}, lastId)
    }

    /** The model's full scan: the rows in rowid order, which every
        query then filters and sorts. */
    function Rows(): seq<T> {
      RowsUpTo(lastId)
    }

    function RowsUpTo(n: int): (r: seq<T>)
      ensures forall x :: x in r <==> exists k :: 1 <= k <= n && k in rows && rows[k] == x
      decreases n
    {
      if n <= 0 then []
      else RowsUpTo(n - 1) + (if n in rows then [rows[n]] else [])
    }

    /** Ids lie in 1..lastId and every row carries its own id. */
    predicate WellKeyed(idOf: T -> int) {
      && lastId >= 0
      && forall k :: k in rows ==> 1 <= k <= lastId && idOf(rows[k]) == k
    }
  }

  /** In a well-keyed table the scan sees exactly the stored rows. */
  lemma RowsAreStored<T(!new)>(t: Table<T>, idOf: T -> int)
    requires t.WellKeyed(idOf)
    ensures forall x :: x in t.Rows() <==> exists k :: k in t.rows && t.rows[k] == x
    ensures forall k :: k in t.rows ==> t.rows[k] in t.Rows()
  {
  }

  /** The scan lists rows by ascending rowid. */
  lemma {:induction false} RowsAscending<T(!new)>(t: Table<T>, idOf: T -> int, n: int)
    requires t.WellKeyed(idOf)
    ensures forall i :: 0 <= i < |t.RowsUpTo(n)| ==> idOf(t.RowsUpTo(n)[i]) <= n
    ensures forall i, j :: 0 <= i < j < |t.RowsUpTo(n)| ==> idOf(t.RowsUpTo(n)[i]) < idOf(t.RowsUpTo(n)[j])
    decreases n
  {
    if n > 0 {
      RowsAscending(t, idOf, n - 1);
      var p := t.RowsUpTo(n - 1);
      if n in t.rows {
        assert t.RowsUpTo(n) == p + [t.rows[n]];
        assert idOf(t.rows[n]) == n;
      } else {
        assert t.RowsUpTo(n) == p;
      }
    }
  }

  /** A WHERE over the scan lists the rows it keeps by ascending rowid. */
  lemma ScanFilterAscending<T(!new)>(t: Table<T>, idOf: T -> int, keep: T -> bool)
    ensures t.WellKeyed(idOf) ==> var r := Ordering.Filter(t.Rows(), keep);
      forall i, j :: 0 <= i < j < |r| ==> idOf(r[i]) < idOf(r[j])
  {
    if t.WellKeyed(idOf) {
      RowsAscending(t, idOf, t.lastId);
      Ordering.FilterSorted(t.Rows(), keep, (a: T, b: T) => idOf(a) < idOf(b));
    }
  }

  /** An insert appends to the scan: the new id is the largest. */
  lemma RowsOfInsert<T(!new)>(t: Table<T>, idOf: T -> int, row: T)
    requires t.WellKeyed(idOf)
    ensures t.Insert(row).Rows() == t.Rows() + [row]
  {
    var u := t.Insert(row);
    assert u.RowsUpTo(t.lastId) == t.RowsUpTo(t.lastId) by {
      RowsAgree(t, u, t.lastId);
    }
  }

  lemma {:induction false} RowsAgree<T(!new)>(t: Table<T>, u: Table<T>, n: int)
    requires forall k :: k <= n ==> (k in t.rows <==> k in u.rows)
    requires forall k :: k <= n && k in t.rows ==> t.rows[k] == u.rows[k]
    ensures t.RowsUpTo(n) == u.RowsUpTo(n)
    decreases n
  {
    if n > 0 {
      RowsAgree(t, u, n - 1);
    }
  }

  function Empty<T(!new)>(): (t: Table<T>)
    ensures t.rows == map[] && t.lastId == 0
  {
    Table(map[], 0)
  }

  // ---------------------------------------------------------------------
  // The database

  datatype Store = Store(
    foreignKeys: bool,
    languages: Table<Language>,
    vocabulary: Table<Vocabulary>,
    flashcards: Table<Flashcard>,
    techSpaces: Table<TechSpace>,
    codeSnippets: Table<CodeSnippet>,
    projects: Table<Project>,
    tasks: Table<Task>,
    events: Table<Event>,
    notes: Table<Note>,
    accounts: Table<PersonalAccount>,
    info: Table<PersonalInfo>)

  /** A newly created, empty database file: `Database::new` of `db/`
      passes `true` (the PRAGMA of connection.rs), that of `database.rs`
      passes `false`. A reopened file keeps its rows and is not modelled. */
  function Open(foreignKeys: bool): (s: Store)
    ensures s.foreignKeys == foreignKeys
    ensures s.languages.rows == map[] && s.vocabulary.rows == map[] && s.flashcards.rows == map[]
  {
    Store(foreignKeys, Empty(), Empty(), Empty(), Empty(), Empty(), Empty(), Empty(),
          Empty(), Empty(), Empty(), Empty())
  }

  predicate WellKeyed(s: Store) {
    && s.languages.WellKeyed((r: Language) => r.id)
    && s.vocabulary.WellKeyed((r: Vocabulary) => r.id)
    && s.flashcards.WellKeyed((r: Flashcard) => r.id)
    && s.techSpaces.WellKeyed((r: TechSpace) => r.id)
    && s.codeSnippets.WellKeyed((r: CodeSnippet) => r.id)
    && s.projects.WellKeyed((r: Project) => r.id)
    && s.tasks.WellKeyed((r: Task) => r.id)
    && s.events.WellKeyed((r: Event) => r.id)
    && s.notes.WellKeyed((r: Note) => r.id)
    && s.accounts.WellKeyed((r: PersonalAccount) => r.id)
    && s.info.WellKeyed((r: PersonalInfo) => r.id)
  }

  /** The UNIQUE columns: language name and code, tech-space name. */
  predicate Unique(s: Store) {
    && (forall a, b :: a in s.languages.rows && b in s.languages.rows && a != b ==>
          s.languages.rows[a].name != s.languages.rows[b].name
          && s.languages.rows[a].code != s.languages.rows[b].code)
    && (forall a, b :: a in s.techSpaces.rows && b in s.techSpaces.rows && a != b ==>
          s.techSpaces.rows[a].name != s.techSpaces.rows[b].name)
  }

  /** The FOREIGN KEY clauses: every child row names an existing parent. */
  predicate Referential(s: Store) {
    && (forall k :: k in s.vocabulary.rows ==> s.vocabulary.rows[k].languageId in s.languages.rows)
    && (forall k :: k in s.flashcards.rows ==> s.flashcards.rows[k].vocabularyId in s.vocabulary.rows)
    && (forall k :: k in s.codeSnippets.rows ==> s.codeSnippets.rows[k].techSpaceId in s.techSpaces.rows)
    && (forall k :: k in s.tasks.rows ==> s.tasks.rows[k].projectId in s.projects.rows)
  }

  /** The integrity the schema guarantees; referential integrity only
      holds where SQLite was told to enforce it. */
  predicate Valid(s: Store) {
    WellKeyed(s) && Unique(s) && (s.foreignKeys ==> Referential(s))
  }

  lemma OpenValid(foreignKeys: bool)
    ensures Valid(Open(foreignKeys))
  {
  }

  // ---------------------------------------------------------------------
  // Constrained inserts

  predicate LanguageNameTaken(s: Store, name: string) {
    exists k :: k in s.languages.rows && s.languages.rows[k].name == name
  }

  predicate LanguageCodeTaken(s: Store, code: string) {
    exists k :: k in s.languages.rows && s.languages.rows[k].code == code
  }

  predicate TechSpaceNameTaken(s: Store, name: string) {
    exists k :: k in s.techSpaces.rows && s.techSpaces.rows[k].name == name
  }

  /** INSERT INTO languages: both UNIQUE indexes are checked, name first. */
  function InsertLanguage(s: Store, name: string, code: string, flagEmoji: string, now: Timestamp): (r: Result<(Store, Language)>)
    ensures r.Ok? <==> !LanguageNameTaken(s, name) && !LanguageCodeTaken(s, code)
    ensures r.Err? ==> r.error == UniqueViolation(if LanguageNameTaken(s, name) then "languages.name" else "languages.code")
    ensures r.Ok? ==> var (t, row) := r.value;
      && row == Language(s.languages.NextId(), name, code, flagEmoji, now)
      && t == s.(languages := s.languages.Insert(row))
      && (Valid(s) ==> Valid(t))
  {
    if LanguageNameTaken(s, name) then Err(UniqueViolation("languages.name"))
    else if LanguageCodeTaken(s, code) then Err(UniqueViolation("languages.code"))
    else
      var row := Language(s.languages.NextId(), name, code, flagEmoji, now);
      var t := s.(languages := s.languages.Insert(row));
      assert Valid(s) ==> Valid(t) by {
        if Valid(s) {
          assert s.languages.NextId() !in s.languages.rows;
        }
      }
      Ok((t, row))
  }

  /** INSERT INTO vocabulary: the language must exist when foreign keys
      are enforced. */
  function InsertVocabulary(s: Store, v: Vocabulary): (r: Result<(Store, Vocabulary)>)
    requires v.id == s.vocabulary.NextId()
    ensures r.Ok? <==> !s.foreignKeys || v.languageId in s.languages.rows
    ensures r.Err? ==> r.error == ForeignKeyViolation
    ensures r.Ok? ==> r.value == (s.(vocabulary := s.vocabulary.Insert(v)), v)
    ensures r.Ok? && Valid(s) ==> Valid(r.value.0)
  {
    if s.foreignKeys && v.languageId !in s.languages.rows then Err(ForeignKeyViolation)
    else Ok((s.(vocabulary := s.vocabulary.Insert(v)), v))
  }

  /** INSERT INTO flashcards: the vocabulary row must exist when foreign
      keys are enforced. */
  function InsertFlashcard(s: Store, c: Flashcard): (r: Result<(Store, Flashcard)>)
    requires c.id == s.flashcards.NextId()
    ensures r.Ok? <==> !s.foreignKeys || c.vocabularyId in s.vocabulary.rows
    ensures r.Err? ==> r.error == ForeignKeyViolation
    ensures r.Ok? ==> r.value == (s.(flashcards := s.flashcards.Insert(c)), c)
    ensures r.Ok? && Valid(s) ==> Valid(r.value.0)
  {
    if s.foreignKeys && c.vocabularyId !in s.vocabulary.rows then Err(ForeignKeyViolation)
    else Ok((s.(flashcards := s.flashcards.Insert(c)), c))
  }

  /** INSERT INTO tech_spaces: the name is UNIQUE. */
  function InsertTechSpace(s: Store, t: TechSpace): (r: Result<(Store, TechSpace)>)
    requires t.id == s.techSpaces.NextId()
    ensures r.Ok? <==> !TechSpaceNameTaken(s, t.name)
    ensures r.Err? ==> r.error == UniqueViolation("tech_spaces.name")
    ensures r.Ok? ==> r.value == (s.(techSpaces := s.techSpaces.Insert(t)), t)
    ensures r.Ok? && Valid(s) ==> Valid(r.value.0)
  {
    if TechSpaceNameTaken(s, t.name) then Err(UniqueViolation("tech_spaces.name"))
    else
      var u := s.(techSpaces := s.techSpaces.Insert(t));
      assert Valid(s) ==> Valid(u) by {
        if Valid(s) {
          assert s.techSpaces.NextId() !in s.techSpaces.rows;
        }
      }
      Ok((u, t))
  }

  /** INSERT INTO code_snippets: the tech space must exist when foreign
      keys are enforced. */
  function InsertCodeSnippet(s: Store, c: CodeSnippet): (r: Result<(Store, CodeSnippet)>)
    requires c.id == s.codeSnippets.NextId()
    ensures r.Ok? <==> !s.foreignKeys || c.techSpaceId in s.techSpaces.rows
    ensures r.Err? ==> r.error == ForeignKeyViolation
    ensures r.Ok? ==> r.value == (s.(codeSnippets := s.codeSnippets.Insert(c)), c)
    ensures r.Ok? && Valid(s) ==> Valid(r.value.0)
  {
    if s.foreignKeys && c.techSpaceId !in s.techSpaces.rows then Err(ForeignKeyViolation)
    else Ok((s.(codeSnippets := s.codeSnippets.Insert(c)), c))
  }

  /** INSERT INTO tasks: the project must exist when foreign keys are
      enforced. */
  function InsertTask(s: Store, t: Task): (r: Result<(Store, Task)>)
    requires t.id == s.tasks.NextId()
    ensures r.Ok? <==> !s.foreignKeys || t.projectId in s.projects.rows
    ensures r.Err? ==> r.error == ForeignKeyViolation
    ensures r.Ok? ==> r.value == (s.(tasks := s.tasks.Insert(t)), t)
    ensures r.Ok? && Valid(s) ==> Valid(r.value.0)
  {
    if s.foreignKeys && t.projectId !in s.projects.rows then Err(ForeignKeyViolation)
    else Ok((s.(tasks := s.tasks.Insert(t)), t))
  }

  /** INSERT INTO projects: no constraint beyond NOT NULL. */
  function InsertProject(s: Store, p: Project): (t: Store)
    requires p.id == s.projects.NextId()
    ensures t == s.(projects := s.projects.Insert(p))
    ensures Valid(s) ==> Valid(t)
  {
    s.(projects := s.projects.Insert(p))
  }

  /** INSERT INTO events: no constraint beyond NOT NULL. */
  function InsertEvent(s: Store, e: Event): (t: Store)
    requires e.id == s.events.NextId()
    ensures t == s.(events := s.events.Insert(e))
    ensures Valid(s) ==> Valid(t)
  {
    s.(events := s.events.Insert(e))
  }

  /** INSERT INTO notes: no constraint beyond NOT NULL. */
  function InsertNote(s: Store, n: Note): (t: Store)
    requires n.id == s.notes.NextId()
    ensures t == s.(notes := s.notes.Insert(n))
    ensures Valid(s) ==> Valid(t)
  {
    s.(notes := s.notes.Insert(n))
  }

  /** INSERT INTO personal_accounts: no constraint beyond NOT NULL. */
  function InsertAccount(s: Store, a: PersonalAccount): (t: Store)
    requires a.id == s.accounts.NextId()
    ensures t == s.(accounts := s.accounts.Insert(a))
    ensures Valid(s) ==> Valid(t)
  {
    s.(accounts := s.accounts.Insert(a))
  }

  /** INSERT INTO personal_info: no constraint beyond NOT NULL. */
  function InsertInfo(s: Store, i: PersonalInfo): (t: Store)
    requires i.id == s.info.NextId()
    ensures t == s.(info := s.info.Insert(i))
    ensures Valid(s) ==> Valid(t)
  {
    s.(info := s.info.Insert(i))
  }

  // ---------------------------------------------------------------------
  // ON DELETE CASCADE

  /** DELETE FROM languages WHERE id = ?: with foreign keys on, the
      language's vocabulary goes too, and with it those words' cards. */
  function DeleteLanguage(s: Store, id: int): (t: Store)
    ensures id !in t.languages.rows
    ensures forall k :: k in t.languages.rows <==> k in s.languages.rows && k != id
    ensures t.foreignKeys ==> forall k :: k in t.vocabulary.rows ==> t.vocabulary.rows[k].languageId != id
    ensures t.foreignKeys ==> forall k :: k in s.vocabulary.rows && s.vocabulary.rows[k].languageId != id ==> k in t.vocabulary.rows
    ensures t.foreignKeys ==> forall k :: k in s.flashcards.rows && s.flashcards.rows[k].vocabularyId in t.vocabulary.rows ==> k in t.flashcards.rows
    ensures !t.foreignKeys ==> t.vocabulary == s.vocabulary && t.flashcards == s.flashcards
    ensures forall k :: k in t.languages.rows ==> t.languages.rows[k] == s.languages.rows[k]
    ensures forall k :: k in t.vocabulary.rows ==> k in s.vocabulary.rows && t.vocabulary.rows[k] == s.vocabulary.rows[k]
    ensures forall k :: k in t.flashcards.rows ==> k in s.flashcards.rows && t.flashcards.rows[k] == s.flashcards.rows[k]
    ensures t.languages.lastId == s.languages.lastId && t.vocabulary.lastId == s.vocabulary.lastId
    ensures t.flashcards.lastId == s.flashcards.lastId
    ensures t == s.(languages := t.languages, vocabulary := t.vocabulary, flashcards := t.flashcards)
    ensures Valid(s) ==> Valid(t)
  {
    var languages := s.languages.RemoveId(id);
    if s.foreignKeys then
      var vocabulary := s.vocabulary.Remove((v: Vocabulary) => v.languageId == id);
      var flashcards := s.flashcards.Remove((c: Flashcard) => c.vocabularyId !in vocabulary.rows);
      s.(languages := languages, vocabulary := vocabulary, flashcards := flashcards)
    else
      s.(languages := languages)
  }

  /** DELETE FROM tech_spaces WHERE id = ?: cascades to its snippets. */
  function DeleteTechSpace(s: Store, id: int): (t: Store)
    ensures id !in t.techSpaces.rows
    ensures forall k :: k in t.techSpaces.rows <==> k in s.techSpaces.rows && k != id
    ensures t.foreignKeys ==> forall k :: k in t.codeSnippets.rows ==> t.codeSnippets.rows[k].techSpaceId != id
    ensures t.foreignKeys ==> forall k :: k in s.codeSnippets.rows && s.codeSnippets.rows[k].techSpaceId != id ==> k in t.codeSnippets.rows
    ensures !t.foreignKeys ==> t.codeSnippets == s.codeSnippets
    ensures forall k :: k in t.techSpaces.rows ==> t.techSpaces.rows[k] == s.techSpaces.rows[k]
    ensures forall k :: k in t.codeSnippets.rows ==> k in s.codeSnippets.rows && t.codeSnippets.rows[k] == s.codeSnippets.rows[k]
    ensures t.techSpaces.lastId == s.techSpaces.lastId && t.codeSnippets.lastId == s.codeSnippets.lastId
    ensures t == s.(techSpaces := t.techSpaces, codeSnippets := t.codeSnippets)
    ensures Valid(s) ==> Valid(t)
  {
    var techSpaces := s.techSpaces.RemoveId(id);
    if s.foreignKeys then
      s.(techSpaces := techSpaces, codeSnippets := s.codeSnippets.Remove((c: CodeSnippet) => c.techSpaceId == id))
    else
      s.(techSpaces := techSpaces)
  }

  /** DELETE FROM projects WHERE id = ?: cascades to its tasks. */
  function DeleteProject(s: Store, id: int): (t: Store)
    ensures id !in t.projects.rows
    ensures forall k :: k in t.projects.rows <==> k in s.projects.rows && k != id
    ensures t.foreignKeys ==> forall k :: k in t.tasks.rows ==> t.tasks.rows[k].projectId != id
    ensures t.foreignKeys ==> forall k :: k in s.tasks.rows && s.tasks.rows[k].projectId != id ==> k in t.tasks.rows
    ensures !t.foreignKeys ==> t.tasks == s.tasks
    ensures forall k :: k in t.projects.rows ==> t.projects.rows[k] == s.projects.rows[k]
    ensures forall k :: k in t.tasks.rows ==> k in s.tasks.rows && t.tasks.rows[k] == s.tasks.rows[k]
    ensures t.projects.lastId == s.projects.lastId && t.tasks.lastId == s.tasks.lastId
    ensures t == s.(projects := t.projects, tasks := t.tasks)
    ensures Valid(s) ==> Valid(t)
  {
    var projects := s.projects.RemoveId(id);
    if s.foreignKeys then
      s.(projects := projects, tasks := s.tasks.Remove((x: Task) => x.projectId == id))
    else
      s.(projects := projects)
  }

  /** A cascade removes the cards of the words it removes: no card is
      left pointing at a deleted word. */
  lemma CascadeReachesFlashcards(s: Store, id: int)
    requires Valid(s) && s.foreignKeys
    ensures var t := DeleteLanguage(s, id);
      forall k ::
        (k in s.flashcards.rows && s.flashcards.rows[k].vocabularyId in s.vocabulary.rows
         && s.vocabulary.rows[s.flashcards.rows[k].vocabularyId].languageId == id) ==> k !in t.flashcards.rows
  {
  }

  /** Without the PRAGMA, deleting a language leaves its words behind,
      pointing at nothing. */
  lemma NoCascadeWithoutPragma(s: Store, id: int, k: int)
    requires !s.foreignKeys && k in s.vocabulary.rows && s.vocabulary.rows[k].languageId == id
    ensures var t := DeleteLanguage(s, id);
      k in t.vocabulary.rows && t.vocabulary.rows[k].languageId !in t.languages.rows
  {
  }
}

=== FILE: tech_notes.dfy ===
/** `db/tech_notes.rs`: tech spaces, the code snippets filed under them,
    and the snippet search. */
module TechNoteStore {
  import opened Results
  import opened Text
  import Utf8
  import Validation
  import Ordering
  import Like
  import opened Schema

  datatype CreateTechSpaceRequest = CreateTechSpaceRequest(name: string, description: Option<string>, icon: string)

  datatype CreateCodeSnippetRequest = CreateCodeSnippetRequest(
    techSpaceId: int, title: string, description: Option<string>, code: string,
    language: string, tags: Option<string>)

  /** The checks `create_tech_space` runs before touching the database. */
  function CheckTechSpace(req: CreateTechSpaceRequest): (r: Outcome)
    ensures r.Pass? <==> HasContent(req.name) && Utf8.ByteLen(Trim(req.name)) <= 100 && HasContent(req.icon)
    ensures !HasContent(req.name) ==> r == Fail(Empty("Tech space name"))
    ensures HasContent(req.name) && Utf8.ByteLen(Trim(req.name)) > 100 ==> r == Fail(TooLong("Tech space name", 100))
    ensures HasContent(req.name) && Utf8.ByteLen(Trim(req.name)) <= 100 && !HasContent(req.icon) ==> r == Fail(Empty("Icon"))
  {
    TrimEmptyIffBlank(req.name);
    Validation.ValidateNotEmpty(req.name, "Tech space name")
      .Then(Validation.ValidateStringLength(req.name, "Tech space name", 1, 100))
      .Then(Validation.ValidateNotEmpty(req.icon, "Icon"))
  }

  /** `create_tech_space`: validate, trim, insert; the name is UNIQUE. */
  function CreateTechSpace(s: Store, req: CreateTechSpaceRequest, now: Timestamp): (r: Result<(Store, TechSpace)>)
    ensures CheckTechSpace(req).Fail? ==> r == Err(CheckTechSpace(req).error)
    ensures r.Ok? <==> CheckTechSpace(req).Pass? && !TechSpaceNameTaken(s, Trim(req.name))
    ensures r.Err? && CheckTechSpace(req).Pass? ==> r.error == UniqueViolation("tech_spaces.name")
    ensures r.Ok? ==> var (t, row) := r.value;
      && row == TechSpace(s.techSpaces.NextId(), Trim(req.name), Validation.SanitizeOptionalString(req.description),
                          Trim(req.icon), now)
      && t == s.(techSpaces := s.techSpaces.Insert(row))
      && (Valid(s) ==> Valid(t))
  {
    var check := CheckTechSpace(req);
    if check.Fail? then Err(check.error)
    else
      InsertTechSpace(s, TechSpace(s.techSpaces.NextId(), Validation.SanitizeString(req.name),
                                   Validation.SanitizeOptionalString(req.description),
                                   Validation.SanitizeString(req.icon), now))
  }

  /** `get_tech_spaces`: every tech space, newest first. */
  function GetTechSpaces(s: Store): (r: seq<TechSpace>)
    ensures multiset(r) == multiset(s.techSpaces.Rows())
    ensures forall i, j :: 0 <= i < j < |r| ==> r[i].createdAt >= r[j].createdAt
  {
    var all := (x: TechSpace) => true;
    Ordering.FilterAll(s.techSpaces.Rows(), all);
    Ordering.Query(s.techSpaces.Rows(), all, Ordering.Descending((x: TechSpace) => x.createdAt), -1)
  }

  /** The checks `create_code_snippet` runs before touching the database. */
  function CheckSnippet(req: CreateCodeSnippetRequest): (r: Outcome)
    ensures r.Pass? <==>
      && HasContent(req.title) && Utf8.ByteLen(Trim(req.title)) <= 200
      && HasContent(req.code) && HasContent(req.language)
    ensures !HasContent(req.title) ==> r == Fail(Empty("Title"))
    ensures HasContent(req.title) && Utf8.ByteLen(Trim(req.title)) <= 200 && !HasContent(req.code) ==> r == Fail(Empty("Code"))
  {
    TrimEmptyIffBlank(req.title);
    Validation.ValidateNotEmpty(req.title, "Title")
      .Then(Validation.ValidateStringLength(req.title, "Title", 1, 200))
      .Then(Validation.ValidateNotEmpty(req.code, "Code"))
      .Then(Validation.ValidateNotEmpty(req.language, "Language"))
  }

  /** `create_code_snippet`: validate, trim everything but the code, which
      is stored exactly as given; insert. With foreign keys on, the tech
      space must exist. */
  function CreateCodeSnippet(s: Store, req: CreateCodeSnippetRequest, now: Timestamp): (r: Result<(Store, CodeSnippet)>)
    ensures CheckSnippet(req).Fail? ==> r == Err(CheckSnippet(req).error)
    ensures r.Ok? <==> CheckSnippet(req).Pass? && (s.foreignKeys ==> req.techSpaceId in s.techSpaces.rows)
    ensures r.Err? && CheckSnippet(req).Pass? ==> r.error == ForeignKeyViolation
    ensures r.Ok? ==> var (t, row) := r.value;
      && row == CodeSnippet(s.codeSnippets.NextId(), req.techSpaceId, Trim(req.title),
                            Validation.SanitizeOptionalString(req.description), req.code, Trim(req.language),
                            Validation.SanitizeOptionalString(req.tags), now, now)
      && t == s.(codeSnippets := s.codeSnippets.Insert(row))
      && (Valid(s) ==> Valid(t))
  {
    var check := CheckSnippet(req);
    if check.Fail? then Err(check.error)
    else
      InsertCodeSnippet(s, CodeSnippet(s.codeSnippets.NextId(), req.techSpaceId, Validation.SanitizeString(req.title),
                                       Validation.SanitizeOptionalString(req.description), req.code,
                                       Validation.SanitizeString(req.language),
                                       Validation.SanitizeOptionalString(req.tags), now, now))
  }

  /** `get_code_snippets_by_tech_space`: the space's snippets, most
      recently updated first. */
  function GetCodeSnippetsByTechSpace(s: Store, techSpaceId: int): (r: seq<CodeSnippet>)
    ensures forall x :: x in r <==> x in s.codeSnippets.Rows() && x.techSpaceId == techSpaceId
    ensures forall x :: multiset(r)[x] == if x.techSpaceId == techSpaceId then multiset(s.codeSnippets.Rows())[x] else 0
    ensures forall i, j :: 0 <= i < j < |r| ==> r[i].updatedAt >= r[j].updatedAt
  {
    Ordering.Select(s.codeSnippets.Rows(), (x: CodeSnippet) => x.techSpaceId == techSpaceId,
                    Ordering.Descending((x: CodeSnippet) => x.updatedAt))
  }

  // ---------------------------------------------------------------------
  // Search

  /** A nullable column LIKE the pattern: NULL never matches. */
  predicate LikeOptional(value: Option<string>, pattern: string) {
    value.Some? && Like.Like(value.value, pattern)
  }

  /** The WHERE clause of the search: the title, description, code or tags
      match `%query%`; the language column is not searched. */
  predicate Matches(x: CodeSnippet, query: string) {
    var p := Like.Surround(query);
    Like.Like(x.title, p) || LikeOptional(x.description, p) || Like.Like(x.code, p) || LikeOptional(x.tags, p)
  }

  function MatchFilter(query: string): (keep: CodeSnippet -> bool)
  {
    (x: CodeSnippet) => Matches(x, query)
  }

  /** Every matching snippet, in table order. */
  function Hits(s: Store, query: string): (r: seq<CodeSnippet>)
    ensures forall x :: x in r <==> x in s.codeSnippets.Rows() && Matches(x, query)
    ensures forall x :: multiset(r)[x] == if Matches(x, query) then multiset(s.codeSnippets.Rows())[x] else 0
  {
    Ordering.FilterCount(s.codeSnippets.Rows(), MatchFilter(query));
    Ordering.Filter(s.codeSnippets.Rows(), MatchFilter(query))
  }

  /** The hits come by ascending id: the model's pre-sort order. */
  lemma HitsInRowidOrder(s: Store, query: string)
    requires WellKeyed(s)
    ensures var r := Hits(s, query); forall i, j :: 0 <= i < j < |r| ==> r[i].id < r[j].id
  {
    var id := (x: CodeSnippet) => x.id;
    assert s.codeSnippets.WellKeyed(id);
    ScanFilterAscending(s.codeSnippets, id, MatchFilter(query));
    assert var r := Ordering.Filter(s.codeSnippets.Rows(), MatchFilter(query));
      forall i, j :: 0 <= i < j < |r| ==> id(r[i]) < id(r[j]);
    var r := Ordering.Filter(s.codeSnippets.Rows(), MatchFilter(query));
    forall i, j | 0 <= i < j < |r| ensures r[i].id < r[j].id {
      assert id(r[i]) < id(r[j]);
    }
  }

  /** `search_code_snippets`: the matching snippets, most recently updated
      first, at most `limit` of them (a negative limit is none); no match
      left out was updated later than one returned. */
  function SearchCodeSnippets(s: Store, query: string, limit: int): (r: seq<CodeSnippet>)
    ensures |r| == if 0 <= limit < |Hits(s, query)| then limit else |Hits(s, query)|
    ensures forall i :: 0 <= i < |r| ==> r[i] in s.codeSnippets.Rows() && Matches(r[i], query)
    ensures forall i, j :: 0 <= i < j < |r| ==> r[i].updatedAt >= r[j].updatedAt
    ensures forall x :: x in Hits(s, query) && x !in r ==> forall i :: 0 <= i < |r| ==> r[i].updatedAt >= x.updatedAt
    ensures !(0 <= limit < |Hits(s, query)|) ==> forall x :: x in r <==> x in Hits(s, query)
    ensures multiset(r) <= multiset(Hits(s, query))
  {
    SearchSelects(s, query, limit);
    SearchOrders(s, query, limit);
    Ordering.Query(s.codeSnippets.Rows(), MatchFilter(query), LatestFirst(), limit)
  }

  /** ORDER BY updated_at DESC. */
  function LatestFirst(): (le: (CodeSnippet, CodeSnippet) -> bool)
    ensures Ordering.TotalPreorder(le)
    ensures forall a, b :: le(a, b) == (a.updatedAt >= b.updatedAt)
  {
    Ordering.Descending((x: CodeSnippet) => x.updatedAt)
  }

  lemma SearchSelects(s: Store, query: string, limit: int)
    ensures var r := Ordering.Query(s.codeSnippets.Rows(), MatchFilter(query), LatestFirst(), limit);
      && |r| == (if 0 <= limit < |Hits(s, query)| then limit else |Hits(s, query)|)
      && (forall i :: 0 <= i < |r| ==> r[i] in s.codeSnippets.Rows() && Matches(r[i], query))
      && (!(0 <= limit < |Hits(s, query)|) ==> forall x :: x in r <==> x in Hits(s, query))
      && multiset(r) <= multiset(Hits(s, query))
  {
  }

  lemma SearchOrders(s: Store, query: string, limit: int)
    ensures var r := Ordering.Query(s.codeSnippets.Rows(), MatchFilter(query), LatestFirst(), limit);
      && (forall i, j :: 0 <= i < j < |r| ==> r[i].updatedAt >= r[j].updatedAt)
      && (forall x :: x in Hits(s, query) && x !in r ==> forall i :: 0 <= i < |r| ==> r[i].updatedAt >= x.updatedAt)
  {
    var le := LatestFirst();
    var r := Ordering.Query(s.codeSnippets.Rows(), MatchFilter(query), le, limit);
    assert forall i, j :: 0 <= i < j < |r| ==> le(r[i], r[j]);
  }

  /** For a query without wildcards, a snippet matches exactly when one of
      the four searched columns contains the query, ASCII letters compared
      without case. */
  lemma MatchesIsSubstringSearch(x: CodeSnippet, query: string)
    requires Like.Literal(query)
    ensures Matches(x, query) <==>
      || Like.Contains(x.title, query)
      || (x.description.Some? && Like.Contains(x.description.value, query))
      || Like.Contains(x.code, query)
      || (x.tags.Some? && Like.Contains(x.tags.value, query))
  {
    Like.SurroundIsContains(x.title, query);
    Like.SurroundIsContains(x.code, query);
    if x.description.Some? {
      Like.SurroundIsContains(x.description.value, query);
    }
    if x.tags.Some? {
      Like.SurroundIsContains(x.tags.value, query);
    }
  }

  /** An empty search lists every snippet. */
  lemma EmptySearchFindsAll(s: Store, limit: int)
    requires limit < 0
    ensures forall x :: x in SearchCodeSnippets(s, "", limit) <==> x in s.codeSnippets.Rows()
  {
    forall x: CodeSnippet ensures Matches(x, "") {
      Like.EmptyQueryMatchesAll(x.title);
    }
  }
}

=== FILE: text.dfy ===
/** The `str` operations the validators rely on: `trim`, `split` and
    `contains`, over Unicode scalar values. */
module Text {

  /** `char::is_whitespace`: the Unicode White_Space property. */
  predicate IsWhitespace(c: char) {
    var x := c as int;
    || 0x09 <= x <= 0x0D
    || x == 0x20 || x == 0x85 || x == 0xA0 || x == 0x1680
    || 0x2000 <= x <= 0x200A
    || x == 0x2028 || x == 0x2029 || x == 0x202F || x == 0x205F || x == 0x3000
  }

  /** True when `s` holds at least one character that is not whitespace. */
  predicate HasContent(s: string) {
    exists i :: 0 <= i < |s| && !IsWhitespace(s[i])
  }

  /** `trim_start`: drops the leading whitespace. */
  function TrimStart(s: string): (r: string)
    ensures |r| <= |s| && r == s[|s| - |r|..]
    ensures forall i :: 0 <= i < |s| - |r| ==> IsWhitespace(s[i])
    ensures |r| > 0 ==> !IsWhitespace(r[0])
    decreases |s|
  {
    if |s| > 0 && IsWhitespace(s[0]) then TrimStart(s[1..]) else s
  }

  /** `trim_end`: drops the trailing whitespace. */
  function TrimEnd(s: string): (r: string)
    ensures |r| <= |s| && r == s[..|r|]
    ensures forall i :: |r| <= i < |s| ==> IsWhitespace(s[i])
    ensures |r| > 0 ==> !IsWhitespace(r[|r| - 1])
    decreases |s|
  {
    if |s| > 0 && IsWhitespace(s[|s| - 1]) then TrimEnd(s[..|s| - 1]) else s
  }

  /** Number of whitespace characters `s` starts with. */
  function LeadingSpace(s: string): (n: nat)
    ensures n <= |s|
    ensures forall i :: 0 <= i < n ==> IsWhitespace(s[i])
    ensures n < |s| ==> !IsWhitespace(s[n])
    decreases |s|
  {
    if |s| > 0 && IsWhitespace(s[0]) then 1 + LeadingSpace(s[1..]) else 0
  }

  /** `trim`: the slice of `s` from its first non-whitespace character to
      its last, everything cut off being whitespace. */
  function Trim(s: string): (r: string)
    ensures LeadingSpace(s) + |r| <= |s|
    ensures r == s[LeadingSpace(s)..LeadingSpace(s) + |r|]
    ensures forall i :: LeadingSpace(s) + |r| <= i < |s| ==> IsWhitespace(s[i])
    ensures |r| > 0 ==> !IsWhitespace(r[0]) && !IsWhitespace(r[|r| - 1])
  {
    var t := TrimStart(s);
    var r := TrimEnd(t);
    assert |s| - |t| == LeadingSpace(s);
    r
  }

  /** The trimmed string is empty exactly when `s` is blank. */
  lemma TrimEmptyIffBlank(s: string)
    ensures |Trim(s)| == 0 <==> !HasContent(s)
  {
    var r := Trim(s);
    var a := LeadingSpace(s);
    if |r| > 0 {
      assert s[a] == r[0];
    }
  }

  /** A string that neither starts nor ends with whitespace is its own trim. */
  lemma TrimOfTrimmed(s: string)
    requires |s| > 0 ==> !IsWhitespace(s[0]) && !IsWhitespace(s[|s| - 1])
    ensures Trim(s) == s
  {
  }

  /** `trim` is idempotent. */
  lemma TrimIdempotent(s: string)
    ensures Trim(Trim(s)) == Trim(s)
  {
    TrimOfTrimmed(Trim(s));
  }

  /** A string without whitespace at all is unchanged by `trim`. */
  lemma TrimNoWhitespace(s: string)
    requires forall i :: 0 <= i < |s| ==> !IsWhitespace(s[i])
    ensures Trim(s) == s
  {
    TrimOfTrimmed(s);
  }

  // ---------------------------------------------------------------------
  // `split` on a single character

  /** The pieces joined back with the separator: the inverse of `Split`. */
  function Join(parts: seq<string>, sep: char): (s: string)
    requires |parts| >= 1
    decreases |parts|
  {
    if |parts| == 1 then parts[0] else parts[0] + [sep] + Join(parts[1..], sep)
  }

  /** Number of occurrences of `c` in `s`. */
  function Count(s: string, c: char): nat
    decreases |s|
  {
    if |s| == 0 then 0 else (if s[0] == c then 1 else 0) + Count(s[1..], c)
  }

  /** `s.split(sep).collect()`: the maximal separator-free pieces, one more
      than there are separators, empty ones included. */
  function Split(s: string, sep: char): (parts: seq<string>)
    ensures |parts| >= 1
    ensures forall k :: 0 <= k < |parts| ==> sep !in parts[k]
    decreases |s|
  {
    if |s| == 0 then [""]
    else
      var rest := Split(s[1..], sep);
      if s[0] == sep then [""] + rest
      else [[s[0]] + rest[0]] + rest[1..]
  }

  /** Joining the pieces gives back the string. */
  lemma {:induction false} JoinSplit(s: string, sep: char)
    ensures Join(Split(s, sep), sep) == s
    decreases |s|
  {
    if |s| > 0 {
      var rest := Split(s[1..], sep);
      JoinSplit(s[1..], sep);
      if s[0] == sep {
        assert Split(s, sep)[1..] == rest;
      } else {
        var parts := Split(s, sep);
        if |rest| == 1 {
          assert parts == [[s[0]] + rest[0]];
        } else {
          assert parts[1..] == rest[1..];
          assert Join(rest, sep) == rest[0] + [sep] + Join(rest[1..], sep);
        }
      }
    }
  }

  /** Splitting a join of separator-free pieces gives the pieces back. */
  lemma {:induction false} SplitJoin(parts: seq<string>, sep: char)
    requires |parts| >= 1
    requires forall k :: 0 <= k < |parts| ==> sep !in parts[k]
    ensures Split(Join(parts, sep), sep) == parts
    decreases |parts|, |parts[0]|
  {
    var s := Join(parts, sep);
    var p := parts[0];
    if |p| == 0 {
      if |parts| > 1 {
        SplitJoin(parts[1..], sep);
        assert s == [sep] + Join(parts[1..], sep);
        assert s[1..] == Join(parts[1..], sep);
      }
    } else {
      var tail := [p[1..]] + parts[1..];
      assert forall k :: 0 <= k < |tail| ==> sep !in tail[k] by {
        forall k | 0 <= k < |tail| ensures sep !in tail[k] {
          if k == 0 {
            assert forall j :: 0 <= j < |p[1..]| ==> p[1..][j] == p[j + 1];
          } else {
            assert tail[k] == parts[k];
          }
        }
      }
      SplitJoin(tail, sep);
      JoinHeadCons(parts, sep);
      assert s[1..] == Join(tail, sep);
      assert s[0] == p[0] && p[0] != sep;
      assert [p[0]] + p[1..] == p;
      assert parts == [p] + parts[1..];
    }
  }

  lemma JoinHeadCons(parts: seq<string>, sep: char)
    requires |parts| >= 1 && |parts[0]| > 0
    ensures Join(parts, sep) == [parts[0][0]] + Join([parts[0][1..]] + parts[1..], sep)
  {
    var tail := [parts[0][1..]] + parts[1..];
    assert tail[1..] == parts[1..];
  }

  /** `split` yields one piece more than the separator occurs. */
  lemma {:induction false} SplitCount(s: string, sep: char)
    ensures |Split(s, sep)| == Count(s, sep) + 1
    decreases |s|
  {
    if |s| > 0 {
      SplitCount(s[1..], sep);
    }
  }
}

=== FILE: utf8.dfy ===
/** UTF-8 as Rust strings use it (RFC 3629).

    A Rust `&str` is a UTF-8 byte string: `.len()` counts bytes, `.bytes()`
    iterates them, `.as_bytes()` exposes them, and `String::from_utf8`
    accepts exactly the well-formed sequences (no overlong forms, no
    surrogates, nothing above U+10FFFF). Dafny's `char` is a Unicode scalar
    value, so `Encode` is total on `string` and `Decode` is its exact
    inverse. */
module Utf8 {
  import opened Results

  /** Unicode scalar values: code points minus the surrogate range. */
  predicate IsScalar(cp: int) {
    (0 <= cp < 0xD800) || (0xE000 <= cp < 0x110000)
  }

  /** Number of bytes the shortest encoding of `cp` takes. */
  function Width(cp: int): nat {
    if cp < 0x80 then 1
    else if cp < 0x800 then 2
    else if cp < 0x1_0000 then 3
    else 4
  }

  /** Byte values as integers, so that the arithmetic below stays linear. */
  predicate IsByte(v: int) {
    0 <= v < 256
  }

  predicate AllBytes(vs: seq<int>) {
    forall i :: 0 <= i < |vs| ==> IsByte(vs[i])
  }

  /** The byte holding `v`, built by counting up so that the proof stays
      in bit-vector arithmetic. */
  function ByteOf(v: int): (b: bv8)
    requires IsByte(v)
    ensures b as int == v
    decreases v
  {
    if v == 0 then 0 else ByteOf(v - 1) + 1
  }

  /** A byte is determined by its value. */
  lemma ByteInjective(a: bv8, b: bv8)
    requires a as int == b as int
    ensures a == b
  {
  }

  function ToBv(vs: seq<int>): (b: seq<bv8>)
    requires AllBytes(vs)
    ensures |b| == |vs|
    ensures forall i :: 0 <= i < |vs| ==> b[i] as int == vs[i]
  {
    seq(|vs|, i requires 0 <= i < |vs| => ByteOf(vs[i]))
  }

  function ToInts(b: seq<bv8>): (vs: seq<int>)
    ensures |vs| == |b| && AllBytes(vs)
    ensures forall i :: 0 <= i < |b| ==> vs[i] == b[i] as int
  {
    seq(|b|, i requires 0 <= i < |b| => b[i] as int)
  }

  lemma BridgeInts(b: seq<bv8>)
    ensures ToBv(ToInts(b)) == b
  {
    var t := ToBv(ToInts(b));
    forall i | 0 <= i < |b| ensures t[i] == b[i] {
      assert t[i] as int == b[i] as int;
    }
  }

  lemma BridgeBv(vs: seq<int>)
    requires AllBytes(vs)
    ensures ToInts(ToBv(vs)) == vs
  {
  }

  predicate IsContV(v: int) {
    0x80 <= v < 0xC0
  }

  /** The shortest encoding of a scalar value, as byte values. */
  function EncodeScalar(cp: int): (vs: seq<int>)
    requires IsScalar(cp)
    ensures |vs| == Width(cp) && AllBytes(vs)
  {
    var q1 := cp / 64;
    var q2 := q1 / 64;
    var q3 := q2 / 64;
    if cp < 0x80 then [cp]
    else if cp < 0x800 then [0xC0 + q1, 0x80 + cp % 64]
    else if cp < 0x1_0000 then [0xE0 + q2, 0x80 + q1 % 64, 0x80 + cp % 64]
    else [0xF0 + q3, 0x80 + q2 % 64, 0x80 + q1 % 64, 0x80 + cp % 64]
  }

  function EncodeValues(s: string): (vs: seq<int>)
    ensures AllBytes(vs)
    ensures |vs| >= |s|
    ensures |s| == 0 <==> |vs| == 0
  {
    if |s| == 0 then [] else EncodeScalar(s[0] as int) + EncodeValues(s[1..])
  }

  /** `s.as_bytes()`. */
  function Encode(s: string): (b: seq<bv8>)
    ensures |b| >= |s|
    ensures |s| == 0 <==> |b| == 0
  {
    ToBv(EncodeValues(s))
  }

  /** `s.len()`: the byte length of the encoding. */
  function ByteLen(s: string): nat {
    |Encode(s)|
  }

  /** Length of the sequence announced by a lead byte, 0 when `v` cannot
      start a character. */
  function LeadWidth(v: int): nat {
    if 0 <= v < 0x80 then 1
    else if 0xC0 <= v < 0xE0 then 2
    else if 0xE0 <= v < 0xF0 then 3
    else if 0xF0 <= v < 0xF8 then 4
    else 0
  }

  /** The code point a lead byte and its continuation bytes spell out. */
  function Assemble(vs: seq<int>, w: nat): int
    requires 1 <= w <= 4 && |vs| >= w
  {
    if w == 1 then vs[0]
    else if w == 2 then (vs[0] - 0xC0) * 64 + (vs[1] - 0x80)
    else if w == 3 then ((vs[0] - 0xE0) * 64 + (vs[1] - 0x80)) * 64 + (vs[2] - 0x80)
    else (((vs[0] - 0xF0) * 64 + (vs[1] - 0x80)) * 64 + (vs[2] - 0x80)) * 64 + (vs[3] - 0x80)
  }

  predicate ContsFrom(vs: seq<int>, w: nat)
    requires w <= |vs|
  {
    forall i :: 1 <= i < w ==> IsContV(vs[i])
  }

  /** Decodes the first character of `vs`, returning it with its width, or
      `None` when the prefix is not a well-formed, shortest-form encoding of
      a scalar value. */
  function DecodeFirst(vs: seq<int>): (r: Option<(char, nat)>)
    requires |vs| > 0
    ensures r.Some? ==> 1 <= r.value.1 <= |vs|
  {
    var w := LeadWidth(vs[0]);
    if w == 0 || |vs| < w || !ContsFrom(vs, w) then None
    else
      var cp := Assemble(vs, w);
      if IsScalar(cp) && Width(cp) == w then Some((cp as char, w)) else None
  }

  function DecodeValues(vs: seq<int>): (r: Option<string>)
    decreases |vs|
  {
    if |vs| == 0 then Some([])
    else match DecodeFirst(vs)
      case None => None
      case Some((c, w)) =>
        match DecodeValues(vs[w..])
        case None => None
        case Some(rest) => Some([c] + rest)
  }

  /** `String::from_utf8`: `None` is its error. */
  function Decode(b: seq<bv8>): (r: Option<string>) {
    DecodeValues(ToInts(b))
  }

  lemma DecodeFirstOfScalar2(cp: int, vs: seq<int>)
    requires IsScalar(cp) && 0x80 <= cp < 0x800
    requires |vs| >= 2 && vs[..2] == EncodeScalar(cp)
    ensures LeadWidth(vs[0]) == 2 && ContsFrom(vs, 2) && Assemble(vs, 2) == cp
  {
    assert vs[0] == 0xC0 + cp / 64 && vs[1] == 0x80 + cp % 64;
  }

  lemma DecodeFirstOfScalar3(cp: int, vs: seq<int>)
    requires IsScalar(cp) && 0x800 <= cp < 0x1_0000
    requires |vs| >= 3 && vs[..3] == EncodeScalar(cp)
    ensures LeadWidth(vs[0]) == 3 && ContsFrom(vs, 3) && Assemble(vs, 3) == cp
  {
    var q1 := cp / 64;
    var q2 := q1 / 64;
    assert vs[0] == 0xE0 + q2 && vs[1] == 0x80 + q1 % 64 && vs[2] == 0x80 + cp % 64;
    assert q1 == q2 * 64 + q1 % 64;
    assert cp == q1 * 64 + cp % 64;
  }

  lemma DecodeFirstOfScalar4(cp: int, vs: seq<int>)
    requires IsScalar(cp) && 0x1_0000 <= cp
    requires |vs| >= 4 && vs[..4] == EncodeScalar(cp)
    ensures LeadWidth(vs[0]) == 4 && ContsFrom(vs, 4) && Assemble(vs, 4) == cp
  {
    var q1 := cp / 64;
    var q2 := q1 / 64;
    var q3 := q2 / 64;
    assert vs[0] == 0xF0 + q3 && vs[1] == 0x80 + q2 % 64;
    assert vs[2] == 0x80 + q1 % 64 && vs[3] == 0x80 + cp % 64;
    assert q2 == q3 * 64 + q2 % 64;
    assert q1 == q2 * 64 + q1 % 64;
    assert cp == q1 * 64 + cp % 64;
  }

  lemma DecodeFirstOfEncodeScalar(c: char, rest: seq<int>)
    ensures var e := EncodeScalar(c as int); DecodeFirst(e + rest) == Some((c, |e|))
  {
    var cp := c as int;
    var e := EncodeScalar(cp);
    var vs := e + rest;
    assert vs[..|e|] == e;
    if cp < 0x80 {
    } else if cp < 0x800 {
      DecodeFirstOfScalar2(cp, vs);
    } else if cp < 0x1_0000 {
      DecodeFirstOfScalar3(cp, vs);
    } else {
      DecodeFirstOfScalar4(cp, vs);
    }
  }

  lemma EncodeOfAssemble2(vs: seq<int>)
    requires |vs| >= 2 && LeadWidth(vs[0]) == 2 && ContsFrom(vs, 2)
    requires IsScalar(Assemble(vs, 2)) && Width(Assemble(vs, 2)) == 2
    ensures EncodeScalar(Assemble(vs, 2)) == vs[..2]
  {
    var cp := Assemble(vs, 2);
    assert IsContV(vs[1]);
    assert cp / 64 == vs[0] - 0xC0;
    assert cp % 64 == vs[1] - 0x80;
  }

  lemma EncodeOfAssemble3(vs: seq<int>)
    requires |vs| >= 3 && LeadWidth(vs[0]) == 3 && ContsFrom(vs, 3)
    requires IsScalar(Assemble(vs, 3)) && Width(Assemble(vs, 3)) == 3
    ensures EncodeScalar(Assemble(vs, 3)) == vs[..3]
  {
    var cp := Assemble(vs, 3);
    assert IsContV(vs[1]) && IsContV(vs[2]);
    var q1 := (vs[0] - 0xE0) * 64 + (vs[1] - 0x80);
    assert cp == q1 * 64 + (vs[2] - 0x80);
    assert cp / 64 == q1;
    assert cp % 64 == vs[2] - 0x80;
    assert q1 / 64 == vs[0] - 0xE0;
    assert q1 % 64 == vs[1] - 0x80;
  }

  lemma EncodeOfAssemble4(vs: seq<int>)
    requires |vs| >= 4 && LeadWidth(vs[0]) == 4 && ContsFrom(vs, 4)
    requires IsScalar(Assemble(vs, 4)) && Width(Assemble(vs, 4)) == 4
    ensures EncodeScalar(Assemble(vs, 4)) == vs[..4]
  {
    var cp := Assemble(vs, 4);
    assert IsContV(vs[1]) && IsContV(vs[2]) && IsContV(vs[3]);
    var q2 := (vs[0] - 0xF0) * 64 + (vs[1] - 0x80);
    var q1 := q2 * 64 + (vs[2] - 0x80);
    assert cp == q1 * 64 + (vs[3] - 0x80);
    assert cp / 64 == q1;
    assert cp % 64 == vs[3] - 0x80;
    assert q1 / 64 == q2;
    assert q1 % 64 == vs[2] - 0x80;
    assert q2 / 64 == vs[0] - 0xF0;
    assert q2 % 64 == vs[1] - 0x80;
  }

  lemma EncodeOfDecodeFirst(vs: seq<int>)
    requires |vs| > 0 && DecodeFirst(vs).Some?
    ensures var (c, w) := DecodeFirst(vs).value; EncodeScalar(c as int) == vs[..w]
  {
    var w := LeadWidth(vs[0]);
    if w == 2 {
      EncodeOfAssemble2(vs);
    } else if w == 3 {
      EncodeOfAssemble3(vs);
    } else if w == 4 {
      EncodeOfAssemble4(vs);
    }
  }

  lemma {:induction false} DecodeEncodeValues(s: string)
    ensures DecodeValues(EncodeValues(s)) == Some(s)
    decreases |s|
  {
    if |s| > 0 {
      var e := EncodeScalar(s[0] as int);
      var vs := EncodeValues(s);
      assert vs == e + EncodeValues(s[1..]);
      DecodeFirstOfEncodeScalar(s[0], EncodeValues(s[1..]));
      assert vs[|e|..] == EncodeValues(s[1..]);
      DecodeEncodeValues(s[1..]);
      assert [s[0]] + s[1..] == s;
    }
  }

  lemma EncodeValuesCons(c: char, rest: string)
    ensures EncodeValues([c] + rest) == EncodeScalar(c as int) + EncodeValues(rest)
  {
    assert ([c] + rest)[0] == c && ([c] + rest)[1..] == rest;
  }

  lemma DecodeValuesCons(vs: seq<int>)
    requires |vs| > 0 && DecodeValues(vs).Some?
    ensures DecodeFirst(vs).Some?
    ensures var (c, w) := DecodeFirst(vs).value;
      DecodeValues(vs[w..]).Some? && DecodeValues(vs).value == [c] + DecodeValues(vs[w..]).value
  {
  }

  lemma {:induction false} EncodeDecodeValues(vs: seq<int>)
    requires DecodeValues(vs).Some?
    ensures EncodeValues(DecodeValues(vs).value) == vs
    decreases |vs|
  {
    if |vs| > 0 {
      var c, w, rest := DecodeStep(vs);
      EncodeDecodeValues(vs[w..]);
      EncodeJoin(vs, c, w, rest);
    }
  }

  lemma EncodeJoin(vs: seq<int>, c: char, w: nat, rest: string)
    requires 1 <= w <= |vs|
    requires EncodeScalar(c as int) == vs[..w] && EncodeValues(rest) == vs[w..]
    ensures EncodeValues([c] + rest) == vs
  {
    EncodeValuesCons(c, rest);
    assert vs == vs[..w] + vs[w..];
  }

  /** One step of a successful decoding: the first character, the bytes it
      was read from, and the decoding of the remaining bytes. */
  lemma DecodeStep(vs: seq<int>) returns (c: char, w: nat, rest: string)
    requires |vs| > 0 && DecodeValues(vs).Some?
    ensures 1 <= w <= |vs|
    ensures EncodeScalar(c as int) == vs[..w]
    ensures DecodeValues(vs[w..]) == Some(rest)
    ensures DecodeValues(vs).value == [c] + rest
  {
    DecodeValuesCons(vs);
    c, w := DecodeFirst(vs).value.0, DecodeFirst(vs).value.1;
    rest := DecodeValues(vs[w..]).value;
    EncodeOfDecodeFirst(vs);
  }

  /** Every string survives `as_bytes` followed by `String::from_utf8`. */
  lemma DecodeEncode(s: string)
    ensures Decode(Encode(s)) == Some(s)
  {
    BridgeBv(EncodeValues(s));
    DecodeEncodeValues(s);
  }

  /** `String::from_utf8` accepts only byte strings that are the encoding of
      what it returns: the encoding is canonical. */
  lemma EncodeDecode(b: seq<bv8>)
    requires Decode(b).Some?
    ensures Encode(Decode(b).value) == b
  {
    EncodeDecodeValues(ToInts(b));
    BridgeInts(b);
  }

  /** `Decode` and `Encode` are inverse bijections between strings and
      well-formed UTF-8. */
  lemma DecodeIffEncode(b: seq<bv8>, s: string)
    ensures Decode(b) == Some(s) <==> b == Encode(s)
  {
    if b == Encode(s) {
      DecodeEncode(s);
    }
    if Decode(b) == Some(s) {
      EncodeDecode(b);
    }
  }

  predicate IsAscii(s: string) {
    forall i :: 0 <= i < |s| ==> s[i] as int < 0x80
  }

  /** An ASCII string is encoded one byte per character. */
  lemma {:induction false} AsciiEncodeValues(s: string)
    requires IsAscii(s)
    ensures |EncodeValues(s)| == |s|
    ensures forall i :: 0 <= i < |s| ==> EncodeValues(s)[i] == s[i] as int
    decreases |s|
  {
    if |s| > 0 {
      AsciiEncodeValues(s[1..]);
      assert EncodeValues(s) == [s[0] as int] + EncodeValues(s[1..]);
    }
  }

  lemma AsciiEncode(s: string)
    requires IsAscii(s)
    ensures |Encode(s)| == |s|
    ensures forall i :: 0 <= i < |s| ==> Encode(s)[i] as int == s[i] as int
  {
    AsciiEncodeValues(s);
  }

  lemma {:induction false} EncodeValuesAppend(s: string, t: string)
    ensures EncodeValues(s + t) == EncodeValues(s) + EncodeValues(t)
    decreases |s|
  {
    if |s| == 0 {
      assert s + t == t;
    } else {
      var st := s + t;
      assert st[0] == s[0] && st[1..] == s[1..] + t;
      EncodeValuesAppend(s[1..], t);
      var a, b, d := EncodeScalar(s[0] as int), EncodeValues(s[1..]), EncodeValues(t);
      assert EncodeValues(st) == a + (b + d);
      assert EncodeValues(s) == a + b;
      assert a + (b + d) == (a + b) + d;
    }
  }

  lemma EncodeAppend(s: string, t: string)
    ensures Encode(s + t) == Encode(s) + Encode(t)
  {
    EncodeValuesAppend(s, t);
    ToBvAppend(EncodeValues(s), EncodeValues(t));
  }

  lemma ToBvAppend(a: seq<int>, b: seq<int>)
    requires AllBytes(a) && AllBytes(b)
    ensures AllBytes(a + b) && ToBv(a + b) == ToBv(a) + ToBv(b)
  {
    var l, r := ToBv(a + b), ToBv(a) + ToBv(b);
    forall i | 0 <= i < |l| ensures l[i] == r[i] {
      if i < |a| {
        assert l[i] == ByteOf(a[i]) == r[i];
      } else {
        assert l[i] == ByteOf(b[i - |a|]) == r[i];
      }
    }
  }
}

=== FILE: validation.dfy ===
/** The `Validator` of `validation.rs`: pure checks that gate every create
    operation of the store, and the trimming sanitizers. A check returns
    `Pass` or the first failure it meets, as the `bail!`s do. */
module Validation {
  import opened Results
  import opened Text
  import Utf8

  /** `validate_string_length`: the UTF-8 byte length of the trimmed value
      must lie in `min..max`; a short value is reported before a long one. */
  function ValidateStringLength(value: string, field: string, min: nat, max: nat): (r: Outcome)
    ensures r.Pass? <==> min <= Utf8.ByteLen(Trim(value)) <= max
    ensures r.Fail? ==> r.error == (if Utf8.ByteLen(Trim(value)) < min then TooShort(field, min) else TooLong(field, max))
  {
    var len := Utf8.ByteLen(Trim(value));
    if len < min then Fail(TooShort(field, min))
    else if len > max then Fail(TooLong(field, max))
    else Pass
  }

  /** `validate_not_empty`: fails exactly when every character is
      whitespace. */
  function ValidateNotEmpty(value: string, field: string): (r: Outcome)
    ensures r.Pass? <==> HasContent(value)
    ensures r.Fail? ==> r.error == Empty(field)
  {
    TrimEmptyIffBlank(value);
    if |Trim(value)| == 0 then Fail(Empty(field)) else Pass
  }

  /** `validate_email`: non-blank and containing both '@' and '.', in any
      place and order. */
  function ValidateEmail(email: string): (r: Outcome)
    ensures r.Pass? <==> HasContent(email) && '@' in email && '.' in email
    ensures r.Fail? ==> r.error == (if HasContent(email) then InvalidEmail else Empty("Email"))
  {
    ValidateNotEmpty(email, "Email").Then(
      if '@' !in email || '.' !in email then Fail(InvalidEmail) else Pass)
  }

  predicate IsAsciiAlphabetic(c: char) {
    'A' <= c <= 'Z' || 'a' <= c <= 'z'
  }

  /** Every character is an ASCII letter or a hyphen. */
  predicate CodeChars(code: string) {
    forall i :: 0 <= i < |code| ==> IsAsciiAlphabetic(code[i]) || code[i] == '-'
  }

  /** `validate_language_code`: non-blank, 2 to 5 bytes long and made only
      of ASCII letters and '-'. The untrimmed code is measured. */
  function ValidateLanguageCode(code: string): (r: Outcome)
    ensures r.Pass? <==>
      && HasContent(code)
      && 2 <= Utf8.ByteLen(code) <= 5
      && CodeChars(code)
    ensures r.Fail? && !HasContent(code) ==> r.error == Empty("Language code")
    ensures r.Fail? && HasContent(code) && !(2 <= Utf8.ByteLen(code) <= 5) ==> r.error == LanguageCodeLength
    ensures r.Fail? && HasContent(code) && 2 <= Utf8.ByteLen(code) <= 5 ==> r.error == LanguageCodeChars
  {
    ValidateNotEmpty(code, "Language code").Then(
      if Utf8.ByteLen(code) < 2 || Utf8.ByteLen(code) > 5 then Fail(LanguageCodeLength)
      else if !CodeChars(code) then Fail(LanguageCodeChars)
      else Pass)
  }

  /** An accepted language code is 2 to 5 characters of ASCII, holds no
      whitespace and is therefore stored exactly as given. */
  lemma ValidCodeIsTrimmed(code: string)
    requires ValidateLanguageCode(code).Pass?
    ensures Trim(code) == code
    ensures Utf8.ByteLen(code) == |code| && 2 <= |code| <= 5
  {
    assert CodeChars(code);
    CodeCharsAscii(code);
    Utf8.AsciiEncode(code);
    TrimNoWhitespace(code);
  }

  lemma CodeCharsAscii(code: string)
    requires CodeChars(code)
    ensures Utf8.IsAscii(code)
    ensures forall i :: 0 <= i < |code| ==> !IsWhitespace(code[i])
  {
  }

  /** `validate_difficulty_level`. */
  function ValidateDifficultyLevel(level: int): (r: Outcome)
    ensures r.Pass? <==> 1 <= level <= 5
    ensures r.Fail? ==> r.error == DifficultyOutOfRange
  {
    if !(1 <= level <= 5) then Fail(DifficultyOutOfRange) else Pass
  }

  /** `validate_quality_rating`. */
  function ValidateQualityRating(quality: int): (r: Outcome)
    ensures r.Pass? <==> 0 <= quality <= 5
    ensures r.Fail? ==> r.error == QualityOutOfRange
  {
    if !(0 <= quality <= 5) then Fail(QualityOutOfRange) else Pass
  }

  /** `validate_status`: exact membership in the allowed list. */
  function ValidateStatus(status: string, allowed: seq<string>): (r: Outcome)
    ensures r.Pass? <==> exists k :: 0 <= k < |allowed| && allowed[k] == status
    ensures r.Fail? ==> r.error == InvalidStatus(allowed)
  {
    if status !in allowed then Fail(InvalidStatus(allowed)) else Pass
  }

  const Priorities: seq<string> := ["low", "medium", "high", "urgent"]

  /** `validate_priority`. */
  function ValidatePriority(priority: string): (r: Outcome)
    ensures r.Pass? <==> priority == "low" || priority == "medium" || priority == "high" || priority == "urgent"
    ensures r.Fail? ==> r.error == InvalidStatus(Priorities)
  {
    ValidateStatus(priority, Priorities)
  }

  /** An accepted priority holds no whitespace, so sanitizing keeps it. */
  lemma PriorityIsTrimmed(priority: string)
    requires ValidatePriority(priority).Pass?
    ensures SanitizeString(priority) == priority
  {
    assert forall i :: 0 <= i < |priority| ==> !IsWhitespace(priority[i]);
    TrimNoWhitespace(priority);
  }

  /** `validate_date_format`: the empty string, or three '-'-separated
      pieces of 4, 2 and 2 bytes. The pieces' characters are not checked. */
  function ValidateDateFormat(date: string): (r: Outcome)
    ensures r.Fail? ==> r.error == InvalidDate
    ensures |date| == 0 ==> r.Pass?
  {
    if |date| == 0 then Pass
    else
      var parts := Split(date, '-');
      if |parts| != 3 then Fail(InvalidDate)
      else if Utf8.ByteLen(parts[0]) != 4 || Utf8.ByteLen(parts[1]) != 2 || Utf8.ByteLen(parts[2]) != 2 then Fail(InvalidDate)
      else Pass
  }

  /** The shape `validate_date_format` accepts, stated without `split`:
      `y-m-d` with hyphen-free pieces of 4, 2 and 2 bytes. */
  predicate DateShaped(date: string, y: string, m: string, d: string) {
    && date == y + "-" + m + "-" + d
    && '-' !in y && '-' !in m && '-' !in d
    && Utf8.ByteLen(y) == 4 && Utf8.ByteLen(m) == 2 && Utf8.ByteLen(d) == 2
  }

  /** A date written as three hyphen-free pieces is split back into them,
      and accepted exactly when they have 4, 2 and 2 bytes. */
  lemma DateFormatOfPieces(date: string, y: string, m: string, d: string)
    requires date == y + "-" + m + "-" + d
    requires '-' !in y && '-' !in m && '-' !in d
    ensures Split(date, '-') == [y, m, d]
    ensures ValidateDateFormat(date).Pass? <==> Utf8.ByteLen(y) == 4 && Utf8.ByteLen(m) == 2 && Utf8.ByteLen(d) == 2
  {
    var parts := [y, m, d];
    assert Join(parts, '-') == date by {
      assert Join(parts[1..], '-') == m + "-" + d by {
        assert parts[1..][1..] == [d];
      }
    }
    SplitJoin(parts, '-');
  }

  /** A date of the documented shape is accepted. */
  lemma DateFormatAccepts(date: string, y: string, m: string, d: string)
    requires DateShaped(date, y, m, d)
    ensures ValidateDateFormat(date).Pass?
  {
    DateFormatOfPieces(date, y, m, d);
  }

  /** A non-empty accepted date has the documented shape. */
  lemma DateFormatShape(date: string)
    requires |date| > 0 && ValidateDateFormat(date).Pass?
    ensures var p := Split(date, '-');
            |p| == 3 && DateShaped(date, p[0], p[1], p[2])
  {
    var p := Split(date, '-');
    JoinSplit(date, '-');
    assert p[1..][1..] == [p[2]];
    assert Join(p[1..], '-') == p[1] + "-" + p[2];
  }

  /** `validate_date_format` does not look at digits: "abcd-ef-gh" passes. */
  lemma DateDigitsUnchecked()
    ensures ValidateDateFormat("abcd-ef-gh").Pass?
  {
    assert "abcd-ef-gh" == "abcd" + "-" + "ef" + "-" + "gh";
    assert Utf8.ByteLen("abcd") == 4 by {
      Utf8.AsciiEncode("abcd");
    }
    assert Utf8.ByteLen("ef") == 2 && Utf8.ByteLen("gh") == 2 by {
      Utf8.AsciiEncode("ef");
      Utf8.AsciiEncode("gh");
    }
    DateFormatOfPieces("abcd-ef-gh", "abcd", "ef", "gh");
  }

  /** A date with a one-digit month is rejected. */
  lemma DateShortMonthRejected()
    ensures ValidateDateFormat("2024-1-15").Fail?
  {
    assert "2024-1-15" == "2024" + "-" + "1" + "-" + "15";
    Utf8.AsciiEncode("1");
    DateFormatOfPieces("2024-1-15", "2024", "1", "15");
  }

  /** `sanitize_string`. */
  function SanitizeString(value: string): (r: string)
    ensures |r| <= |value|
    ensures |r| > 0 ==> !IsWhitespace(r[0]) && !IsWhitespace(r[|r| - 1])
    ensures |r| == 0 <==> !HasContent(value)
  {
    TrimEmptyIffBlank(value);
    Trim(value)
  }

  /** `sanitize_optional_string`. */
  function SanitizeOptionalString(value: Option<string>): (r: Option<string>)
    ensures r.None? <==> value.None?
    ensures r.Some? ==> r.value == SanitizeString(value.value)
  {
    match value
    case None => None
    case Some(s) => Some(SanitizeString(s))
  }

  /** Sanitizing twice is sanitizing once. */
  lemma SanitizeIdempotent(value: string)
    ensures SanitizeString(SanitizeString(value)) == SanitizeString(value)
    ensures SanitizeOptionalString(SanitizeOptionalString(Some(value))) == SanitizeOptionalString(Some(value))
  {
    TrimIdempotent(value);
  }

  /** The checks on a value and on its sanitized form agree: what passes
      validation is what gets stored. */
  lemma ValidationSeesSanitized(value: string, field: string, min: nat, max: nat)
    ensures ValidateStringLength(SanitizeString(value), field, min, max) == ValidateStringLength(value, field, min, max)
    ensures ValidateNotEmpty(SanitizeString(value), field) == ValidateNotEmpty(value, field)
  {
    TrimIdempotent(value);
    TrimEmptyIffBlank(value);
    TrimEmptyIffBlank(Trim(value));
  }
}

=== FILE: vault.dfy ===
/** `db/personal_vault.rs`: accounts whose passwords are stored obfuscated,
    and personal notes obfuscated on request. Nothing here decrypts: the
    getters hand back what is stored. */
module VaultStore {
  import opened Results
  import opened Text
  import Utf8
  import Validation
  import Ordering
  import Encryption
  import opened Schema

  datatype CreatePersonalAccountRequest = CreatePersonalAccountRequest(
    title: string, email: string, password: string, website: Option<string>,
    notes: Option<string>, category: string)

  datatype CreatePersonalInfoRequest = CreatePersonalInfoRequest(
    title: string, content: string, category: string, isSensitive: bool)

  /** The checks `create_personal_account` runs before touching the
      database; the category is not checked. */
  function CheckAccount(req: CreatePersonalAccountRequest): (r: Outcome)
    ensures r.Pass? <==>
      && HasContent(req.title) && Utf8.ByteLen(Trim(req.title)) <= 200
      && HasContent(req.email) && '@' in req.email && '.' in req.email
      && HasContent(req.password)
    ensures !HasContent(req.title) ==> r == Fail(Empty("Account title"))
    ensures HasContent(req.title) && Utf8.ByteLen(Trim(req.title)) <= 200 && Validation.ValidateEmail(req.email).Fail? ==>
      r == Validation.ValidateEmail(req.email)
  {
    TrimEmptyIffBlank(req.title);
    Validation.ValidateNotEmpty(req.title, "Account title")
      .Then(Validation.ValidateStringLength(req.title, "Account title", 1, 200))
      .Then(Validation.ValidateEmail(req.email))
      .Then(Validation.ValidateNotEmpty(req.password, "Password"))
  }

  /** `create_personal_account`: validate, trim the text fields, obfuscate
      the password exactly as typed (it is not trimmed), insert. */
  function CreatePersonalAccount(s: Store, req: CreatePersonalAccountRequest, now: Timestamp): (r: Result<(Store, PersonalAccount)>)
    ensures r.Ok? <==> CheckAccount(req).Pass?
    ensures r.Err? ==> r.error == CheckAccount(req).error
    ensures r.Ok? ==> var (t, row) := r.value;
      && row == PersonalAccount(s.accounts.NextId(), Trim(req.title), Trim(req.email),
                                Encryption.Encrypt(req.password).value,
                                Validation.SanitizeOptionalString(req.website),
                                Validation.SanitizeOptionalString(req.notes), Trim(req.category), now, now)
      && t == s.(accounts := s.accounts.Insert(row))
      && (Valid(s) ==> Valid(t))
  {
    var check := CheckAccount(req);
    if check.Fail? then Err(check.error)
    else
      // `EncryptedData::new` always succeeds, so its `?` never returns.
      var sealed := Encryption.New(req.password).value;
      Encryption.NewViews(req.password);
      var row := PersonalAccount(s.accounts.NextId(), Validation.SanitizeString(req.title),
                                 Validation.SanitizeString(req.email), sealed.AsBytes(),
                                 Validation.SanitizeOptionalString(req.website),
                                 Validation.SanitizeOptionalString(req.notes),
                                 Validation.SanitizeString(req.category), now, now);
      Ok((InsertAccount(s, row), row))
  }

  /** The stored password is the typed one, untrimmed, recoverable by
      decryption. */
  lemma StoredPasswordDecrypts(s: Store, req: CreatePersonalAccountRequest, now: Timestamp)
    requires CreatePersonalAccount(s, req, now).Ok?
    ensures var row := CreatePersonalAccount(s, req, now).value.1;
      Encryption.DecryptData(row.password) == Ok(req.password)
  {
    Encryption.DecryptEncrypt(req.password);
  }

  /** Two accounts store the same password text exactly when their
      passwords are equal: the obfuscation has no key or salt. */
  lemma SamePasswordSameCiphertext(s: Store, a: CreatePersonalAccountRequest, b: CreatePersonalAccountRequest, now: Timestamp)
    requires CreatePersonalAccount(s, a, now).Ok? && CreatePersonalAccount(s, b, now).Ok?
    ensures CreatePersonalAccount(s, a, now).value.1.password == CreatePersonalAccount(s, b, now).value.1.password
            <==> a.password == b.password
  {
    Encryption.EncryptInjective(a.password, b.password);
  }

  /** The order of `ORDER BY category, title`. */
  predicate CategoryThenTitle(a: string, at: string, b: string, bt: string) {
    Ordering.TextLe()(a, b) && (a == b ==> Ordering.TextLe()(at, bt))
  }

  function CategoryTitleOrder<T(!new)>(category: T -> string, title: T -> string): (le: (T, T) -> bool)
    ensures Ordering.TotalPreorder(le)
    ensures forall a, b :: le(a, b) ==> CategoryThenTitle(category(a), title(a), category(b), title(b))
  {
    var first := Ordering.TextAscending(category);
    var second := Ordering.TextAscending(title);
    Ordering.ThenByPreorder(first, second);
    Ordering.ThenBy(first, second)
  }

  /** `get_personal_accounts`: every account as stored, by category and
      then title. */
  function GetPersonalAccounts(s: Store): (r: seq<PersonalAccount>)
    ensures multiset(r) == multiset(s.accounts.Rows())
    ensures forall i, j :: 0 <= i < j < |r| ==> CategoryThenTitle(r[i].category, r[i].title, r[j].category, r[j].title)
  {
    var all := (x: PersonalAccount) => true;
    Ordering.FilterAll(s.accounts.Rows(), all);
    var le := CategoryTitleOrder((x: PersonalAccount) => x.category, (x: PersonalAccount) => x.title);
    var r := Ordering.Query(s.accounts.Rows(), all, le, -1);
    assert forall i, j :: 0 <= i < j < |r| ==> le(r[i], r[j]);
    r
  }

  /** `get_personal_accounts_by_category`: the category's accounts as
      stored, by title. */
  function GetPersonalAccountsByCategory(s: Store, category: string): (r: seq<PersonalAccount>)
    ensures forall x :: x in r <==> x in s.accounts.Rows() && x.category == category
    ensures forall x :: multiset(r)[x] == if x.category == category then multiset(s.accounts.Rows())[x] else 0
    ensures forall i, j :: 0 <= i < j < |r| ==> Ordering.TextLe()(r[i].title, r[j].title)
  {
    var le := Ordering.TextAscending((x: PersonalAccount) => x.title);
    var r := Ordering.Select(s.accounts.Rows(), (x: PersonalAccount) => x.category == category, le);
    assert forall i, j :: 0 <= i < j < |r| ==> Ordering.TextLe()(r[i].title, r[j].title) by {
      forall i, j | 0 <= i < j < |r| ensures Ordering.TextLe()(r[i].title, r[j].title) {
        assert le(r[i], r[j]);
      }
    }
    r
  }

  /** The checks `create_personal_info` runs before touching the database. */
  function CheckInfo(req: CreatePersonalInfoRequest): (r: Outcome)
    ensures r.Pass? <==>
      && HasContent(req.title) && Utf8.ByteLen(Trim(req.title)) <= 200
      && HasContent(req.content)
    ensures !HasContent(req.title) ==> r == Fail(Empty("Info title"))
    ensures HasContent(req.title) && Utf8.ByteLen(Trim(req.title)) <= 200 && !HasContent(req.content) ==>
      r == Fail(Empty("Content"))
  {
    TrimEmptyIffBlank(req.title);
    Validation.ValidateNotEmpty(req.title, "Info title")
      .Then(Validation.ValidateStringLength(req.title, "Info title", 1, 200))
      .Then(Validation.ValidateNotEmpty(req.content, "Content"))
  }

  /** `create_personal_info`: validate, obfuscate the content when it is
      marked sensitive and keep it verbatim otherwise, trim the title and
      category, insert. */
  function CreatePersonalInfo(s: Store, req: CreatePersonalInfoRequest, now: Timestamp): (r: Result<(Store, PersonalInfo)>)
    ensures r.Ok? <==> CheckInfo(req).Pass?
    ensures r.Err? ==> r.error == CheckInfo(req).error
    ensures r.Ok? ==> var (t, row) := r.value;
      && row.id == s.info.NextId() && row.createdAt == now && row.updatedAt == now
      && row.title == Trim(req.title) && row.category == Trim(req.category)
      && row.isSensitive == req.isSensitive
      && (req.isSensitive ==> row.content == Encryption.Encrypt(req.content).value)
      && (!req.isSensitive ==> row.content == req.content)
      && t == s.(info := s.info.Insert(row))
      && (Valid(s) ==> Valid(t))
  {
    var check := CheckInfo(req);
    if check.Fail? then Err(check.error)
    else
      Encryption.NewViews(req.content);
      var content := if req.isSensitive then Encryption.New(req.content).value.ToString() else req.content;
      var row := PersonalInfo(s.info.NextId(), Validation.SanitizeString(req.title), content,
                              Validation.SanitizeString(req.category), req.isSensitive, now, now);
      Ok((InsertInfo(s, row), row))
  }

  /** The stored content gives back what was entered: through decryption
      when it is sensitive, as it is otherwise. */
  lemma StoredInfoRecoverable(s: Store, req: CreatePersonalInfoRequest, now: Timestamp)
    requires CreatePersonalInfo(s, req, now).Ok?
    ensures var row := CreatePersonalInfo(s, req, now).value.1;
      && (row.isSensitive ==> Encryption.DecryptData(row.content) == Ok(req.content))
      && (!row.isSensitive ==> row.content == req.content)
  {
    Encryption.DecryptEncrypt(req.content);
  }

  /** `get_personal_info`: every entry as stored, by category and then
      title. */
  function GetPersonalInfo(s: Store): (r: seq<PersonalInfo>)
    ensures multiset(r) == multiset(s.info.Rows())
    ensures forall i, j :: 0 <= i < j < |r| ==> CategoryThenTitle(r[i].category, r[i].title, r[j].category, r[j].title)
  {
    var all := (x: PersonalInfo) => true;
    Ordering.FilterAll(s.info.Rows(), all);
    var le := CategoryTitleOrder((x: PersonalInfo) => x.category, (x: PersonalInfo) => x.title);
    var r := Ordering.Query(s.info.Rows(), all, le, -1);
    assert forall i, j :: 0 <= i < j < |r| ==> le(r[i], r[j]);
    r
  }

  /** `get_personal_info_by_category`: the category's entries as stored,
      by title. */
  function GetPersonalInfoByCategory(s: Store, category: string): (r: seq<PersonalInfo>)
    ensures forall x :: x in r <==> x in s.info.Rows() && x.category == category
    ensures forall x :: multiset(r)[x] == if x.category == category then multiset(s.info.Rows())[x] else 0
    ensures forall i, j :: 0 <= i < j < |r| ==> Ordering.TextLe()(r[i].title, r[j].title)
  {
    var le := Ordering.TextAscending((x: PersonalInfo) => x.title);
    var r := Ordering.Select(s.info.Rows(), (x: PersonalInfo) => x.category == category, le);
    assert forall i, j :: 0 <= i < j < |r| ==> Ordering.TextLe()(r[i].title, r[j].title) by {
      forall i, j | 0 <= i < j < |r| ensures Ordering.TextLe()(r[i].title, r[j].title) {
        assert le(r[i], r[j]);
      }
    }
    r
  }
}

=== FILE: vocabulary.dfy ===
/** `db/vocabulary.rs`: words, the flashcard each word gets, the queue of
    cards due for review and the SM-2 review itself. */
module VocabularyStore {
  import opened Results
  import opened Text
  import Utf8
  import Validation
  import Ordering
  import Sm2
  import opened Schema

  datatype CreateVocabularyRequest = CreateVocabularyRequest(
    languageId: int, word: string, translation: string,
    pronunciation: Option<string>, exampleSentence: Option<string>, difficultyLevel: int)

  datatype FlashcardReviewRequest = FlashcardReviewRequest(flashcardId: int, quality: int)

  /** The checks `create_vocabulary` runs before touching the database. */
  function Check(req: CreateVocabularyRequest): (r: Outcome)
    ensures r.Pass? <==>
      && HasContent(req.word) && Utf8.ByteLen(Trim(req.word)) <= 200
      && HasContent(req.translation) && Utf8.ByteLen(Trim(req.translation)) <= 500
      && 1 <= req.difficultyLevel <= 5
    ensures !HasContent(req.word) ==> r == Fail(Empty("Word"))
    ensures HasContent(req.word) && Utf8.ByteLen(Trim(req.word)) > 200 ==> r == Fail(TooLong("Word", 200))
    ensures r.Fail? && !r.error.Empty? && !r.error.TooLong? ==> r.error == DifficultyOutOfRange
  {
    TrimEmptyIffBlank(req.word);
    TrimEmptyIffBlank(req.translation);
    Validation.ValidateNotEmpty(req.word, "Word")
      .Then(Validation.ValidateStringLength(req.word, "Word", 1, 200))
      .Then(Validation.ValidateNotEmpty(req.translation, "Translation"))
      .Then(Validation.ValidateStringLength(req.translation, "Translation", 1, 500))
      .Then(Validation.ValidateDifficultyLevel(req.difficultyLevel))
  }

  /** The card `create_vocabulary` provisions for a new word: the scheduler's
      initial state, due at once. */
  function NewCard(id: int, vocabularyId: int, now: Timestamp): (c: Flashcard)
    ensures c.Card() == Sm2.Initial
    ensures c.nextReview == now && c.createdAt == now && c.lastReviewed.None?
    ensures c.id == id && c.vocabularyId == vocabularyId
  {
    Flashcard(id, vocabularyId, DefaultEase, DefaultInterval, DefaultRepetitions, now, None, now)
  }

  /** `create_vocabulary`: validate, trim, insert the word and then its
      flashcard. With foreign keys on, the language must exist. */
  function CreateVocabulary(s: Store, req: CreateVocabularyRequest, now: Timestamp): (r: Result<(Store, Vocabulary)>)
    ensures Check(req).Fail? ==> r == Err(Check(req).error)
    ensures r.Ok? <==> Check(req).Pass? && (s.foreignKeys ==> req.languageId in s.languages.rows)
    ensures r.Err? && Check(req).Pass? ==> r.error == ForeignKeyViolation
    ensures r.Ok? ==> var (t, row) := r.value;
      && row == Vocabulary(s.vocabulary.NextId(), req.languageId, Trim(req.word), Trim(req.translation),
                           Validation.SanitizeOptionalString(req.pronunciation),
                           Validation.SanitizeOptionalString(req.exampleSentence), req.difficultyLevel, now)
      && t == s.(vocabulary := s.vocabulary.Insert(row),
                 flashcards := s.flashcards.Insert(NewCard(s.flashcards.NextId(), row.id, now)))
      && (Valid(s) ==> Valid(t))
  {
    var check := Check(req);
    if check.Fail? then Err(check.error)
    else
      var v := Vocabulary(s.vocabulary.NextId(), req.languageId,
                          Validation.SanitizeString(req.word), Validation.SanitizeString(req.translation),
                          Validation.SanitizeOptionalString(req.pronunciation),
                          Validation.SanitizeOptionalString(req.exampleSentence), req.difficultyLevel, now);
      match InsertVocabulary(s, v)
      case Err(e) => Err(e)
      case Ok((s1, _)) =>
        match InsertFlashcard(s1, NewCard(s1.flashcards.NextId(), v.id, now))
        case Err(e) => Err(e)
        case Ok((s2, _)) => Ok((s2, v))
  }

  /** `get_vocabulary_by_language`: the language's words, newest first. */
  function GetVocabularyByLanguage(s: Store, languageId: int): (r: seq<Vocabulary>)
    ensures forall v :: v in r <==> v in s.vocabulary.Rows() && v.languageId == languageId
    ensures forall v :: multiset(r)[v] == if v.languageId == languageId then multiset(s.vocabulary.Rows())[v] else 0
    ensures forall i, j :: 0 <= i < j < |r| ==> r[i].createdAt >= r[j].createdAt
  {
    Ordering.Select(s.vocabulary.Rows(), (v: Vocabulary) => v.languageId == languageId,
                    Ordering.Descending((v: Vocabulary) => v.createdAt))
  }

  // ---------------------------------------------------------------------
  // The review queue

  /** A card is due when its review time has come and the JOIN finds its
      word. Times compare as numbers, which matches the source's RFC 3339
      text comparison only up to the end of year 9999. */
  predicate Due(s: Store, now: Timestamp, c: Flashcard) {
    c.nextReview <= now && c.vocabularyId in s.vocabulary.rows
  }

  function DueFilter(s: Store, now: Timestamp): (keep: Flashcard -> bool)
  {
    (c: Flashcard) => Due(s, now, c)
  }

  /** Every due card, in table order. */
  function DueCards(s: Store, now: Timestamp): (r: seq<Flashcard>)
    ensures forall c :: c in r <==> c in s.flashcards.Rows() && Due(s, now, c)
    ensures forall c :: multiset(r)[c] == if Due(s, now, c) then multiset(s.flashcards.Rows())[c] else 0
  {
    Ordering.FilterCount(s.flashcards.Rows(), DueFilter(s, now));
    Ordering.Filter(s.flashcards.Rows(), DueFilter(s, now))
  }

  /** Due cards come by ascending id: the model's pre-sort order. */
  lemma DueCardsInRowidOrder(s: Store, now: Timestamp)
    requires WellKeyed(s)
    ensures var r := DueCards(s, now); forall i, j :: 0 <= i < j < |r| ==> r[i].id < r[j].id
  {
    var id := (c: Flashcard) => c.id;
    assert s.flashcards.WellKeyed(id);
    ScanFilterAscending(s.flashcards, id, DueFilter(s, now));
    assert var r := Ordering.Filter(s.flashcards.Rows(), DueFilter(s, now));
      forall i, j :: 0 <= i < j < |r| ==> id(r[i]) < id(r[j]);
    var r := Ordering.Filter(s.flashcards.Rows(), DueFilter(s, now));
    forall i, j | 0 <= i < j < |r| ensures r[i].id < r[j].id {
      assert id(r[i]) < id(r[j]);
    }
  }

  /** The word the JOIN pairs with a card; its id is read from the card. */
  function Joined(s: Store, c: Flashcard): (v: Vocabulary)
    requires c.vocabularyId in s.vocabulary.rows
    ensures v.id == c.vocabularyId
    ensures WellKeyed(s) ==> v == s.vocabulary.rows[c.vocabularyId]
  {
    s.vocabulary.rows[c.vocabularyId].(id := c.vocabularyId)
  }

  function CardsOf(r: seq<(Flashcard, Vocabulary)>): (cs: seq<Flashcard>)
  {
    seq(|r|, i requires 0 <= i < |r| => r[i].0)
  }

  /** ORDER BY next_review ASC. */
  function EarliestFirst(): (le: (Flashcard, Flashcard) -> bool)
    ensures Ordering.TotalPreorder(le)
    ensures forall a, b :: le(a, b) == (a.nextReview <= b.nextReview)
  {
    Ordering.Ascending((c: Flashcard) => c.nextReview)
  }

  /** The cards `get_due_flashcards` selects: due, earliest review first,
      at most `limit` of them (a negative limit is none), and no card left
      out is due earlier than one taken. */
  function DueQueue(s: Store, now: Timestamp, limit: int): (r: seq<Flashcard>)
    ensures |r| == if 0 <= limit < |DueCards(s, now)| then limit else |DueCards(s, now)|
    ensures forall i :: 0 <= i < |r| ==> r[i] in s.flashcards.Rows() && Due(s, now, r[i])
    ensures forall i, j :: 0 <= i < j < |r| ==> r[i].nextReview <= r[j].nextReview
    ensures forall c :: c in DueCards(s, now) && c !in r ==> forall i :: 0 <= i < |r| ==> r[i].nextReview <= c.nextReview
    ensures !(0 <= limit < |DueCards(s, now)|) ==> forall c :: c in r <==> c in DueCards(s, now)
    ensures multiset(r) <= multiset(DueCards(s, now))
  {
    QueueSelects(s, now, limit);
    QueueOrders(s, now, limit);
    Ordering.Query(s.flashcards.Rows(), DueFilter(s, now), EarliestFirst(), limit)
  }

  lemma QueueSelects(s: Store, now: Timestamp, limit: int)
    ensures var r := Ordering.Query(s.flashcards.Rows(), DueFilter(s, now), EarliestFirst(), limit);
      && |r| == (if 0 <= limit < |DueCards(s, now)| then limit else |DueCards(s, now)|)
      && (forall i :: 0 <= i < |r| ==> r[i] in s.flashcards.Rows() && Due(s, now, r[i]))
      && (!(0 <= limit < |DueCards(s, now)|) ==> forall c :: c in r <==> c in DueCards(s, now))
      && multiset(r) <= multiset(DueCards(s, now))
  {
  }

  lemma QueueOrders(s: Store, now: Timestamp, limit: int)
    ensures var r := Ordering.Query(s.flashcards.Rows(), DueFilter(s, now), EarliestFirst(), limit);
      && (forall i, j :: 0 <= i < j < |r| ==> r[i].nextReview <= r[j].nextReview)
      && (forall c :: c in DueCards(s, now) && c !in r ==> forall i :: 0 <= i < |r| ==> r[i].nextReview <= c.nextReview)
  {
    var le := EarliestFirst();
    var r := Ordering.Query(s.flashcards.Rows(), DueFilter(s, now), le, limit);
    assert forall i, j :: 0 <= i < j < |r| ==> le(r[i], r[j]);
  }

  /** `get_due_flashcards`: the queued cards, each with the word the JOIN
      finds for it. */
  function GetDueFlashcards(s: Store, now: Timestamp, limit: int): (r: seq<(Flashcard, Vocabulary)>)
    ensures CardsOf(r) == DueQueue(s, now, limit)
    ensures forall i :: 0 <= i < |r| ==> r[i].0.vocabularyId in s.vocabulary.rows && r[i].1 == Joined(s, r[i].0)
  {
    WithWords(s, DueQueue(s, now, limit))
  }

  /** The JOIN: each card paired with its word. */
  function WithWords(s: Store, cards: seq<Flashcard>): (r: seq<(Flashcard, Vocabulary)>)
    requires forall i :: 0 <= i < |cards| ==> cards[i].vocabularyId in s.vocabulary.rows
    ensures CardsOf(r) == cards
    ensures forall i :: 0 <= i < |r| ==> r[i].0.vocabularyId in s.vocabulary.rows && r[i].1 == Joined(s, r[i].0)
  {
    var r := seq(|cards|, i requires 0 <= i < |cards| => (cards[i], Joined(s, cards[i])));
    assert CardsOf(r) == cards;
    r
  }

  /** A newly created word's card is due from the moment it was created:
      it is queued whenever the limit leaves room for every due card. */
  lemma NewWordIsDue(s: Store, req: CreateVocabularyRequest, now: Timestamp, later: Timestamp, limit: int)
    requires WellKeyed(s) && CreateVocabulary(s, req, now).Ok? && now <= later
    ensures var (t, row) := CreateVocabulary(s, req, now).value;
      var card := NewCard(s.flashcards.NextId(), row.id, now);
      && card in DueCards(t, later)
      && (!(0 <= limit < |DueCards(t, later)|) ==> (card, row) in GetDueFlashcards(t, later, limit))
  {
    var (t, row) := CreateVocabulary(s, req, now).value;
    ProvisionedCardIsDue(s, t, row, now, later, limit);
  }

  lemma ProvisionedCardIsDue(s: Store, t: Store, row: Vocabulary, now: Timestamp, later: Timestamp, limit: int)
    requires WellKeyed(s) && row.id == s.vocabulary.NextId() && now <= later
    requires t == s.(vocabulary := s.vocabulary.Insert(row),
                     flashcards := s.flashcards.Insert(NewCard(s.flashcards.NextId(), row.id, now)))
    ensures var card := NewCard(s.flashcards.NextId(), row.id, now);
      && card in DueCards(t, later)
      && (!(0 <= limit < |DueCards(t, later)|) ==> (card, row) in GetDueFlashcards(t, later, limit))
  {
    var card := NewCard(s.flashcards.NextId(), row.id, now);
    assert card in DueCards(t, later) by {
      RowsOfInsert(s.flashcards, (c: Flashcard) => c.id, card);
      assert card in t.flashcards.Rows() && Due(t, later, card);
    }
    if !(0 <= limit < |DueCards(t, later)|) {
      DueCardIsServed(t, later, limit, card);
      assert Joined(t, card) == row;
    }
  }

  /** When the limit leaves room, every due card is served with its word. */
  lemma DueCardIsServed(s: Store, now: Timestamp, limit: int, c: Flashcard)
    requires c in DueCards(s, now) && !(0 <= limit < |DueCards(s, now)|)
    ensures c.vocabularyId in s.vocabulary.rows && (c, Joined(s, c)) in GetDueFlashcards(s, now, limit)
  {
    var q := DueQueue(s, now, limit);
    assert c in q;
    var i :| 0 <= i < |q| && q[i] == c;
    QueuedCardIsServed(s, now, limit, i);
  }

  /** The i-th card of the queue comes back i-th, with its word. */
  lemma QueuedCardIsServed(s: Store, now: Timestamp, limit: int, i: int)
    requires 0 <= i < |DueQueue(s, now, limit)|
    ensures var c := DueQueue(s, now, limit)[i];
      c.vocabularyId in s.vocabulary.rows && GetDueFlashcards(s, now, limit)[i] == (c, Joined(s, c))
  {
    var r := GetDueFlashcards(s, now, limit);
    assert CardsOf(r) == DueQueue(s, now, limit);
    assert |r| == |CardsOf(r)| && r[i].0 == CardsOf(r)[i];
  }

  // ---------------------------------------------------------------------
  // Reviews

  /** A card after a review of quality `q`: the SM-2 step, the next review
      `interval` days from now, and the review time recorded. */
  function Reviewed(c: Flashcard, q: int, now: Timestamp): (d: Flashcard)
    requires 0 <= q <= 5
    ensures d.Card() == Sm2.Transition(c.Card(), q)
    ensures d.nextReview == now + d.intervalDays * SecondsPerDay
    ensures d.lastReviewed == Some(now)
    ensures d.id == c.id && d.vocabularyId == c.vocabularyId && d.createdAt == c.createdAt
  {
    var n := Sm2.Transition(c.Card(), q);
    c.(easeFactor := n.ease, intervalDays := n.interval, repetitions := n.repetitions,
       nextReview := now + n.interval * SecondsPerDay, lastReviewed := Some(now))
  }

  /** UPDATE flashcards SET ... WHERE id = ?: only that row changes. */
  function UpdateCard(s: Store, id: int, c: Flashcard): (t: Store)
    requires id in s.flashcards.rows
    ensures t.flashcards.rows.Keys == s.flashcards.rows.Keys && t.flashcards.rows[id] == c
    ensures forall k :: k in s.flashcards.rows && k != id ==> t.flashcards.rows[k] == s.flashcards.rows[k]
    ensures t == s.(flashcards := t.flashcards) && t.flashcards.lastId == s.flashcards.lastId
  {
    s.(flashcards := Table(s.flashcards.rows[id := c], s.flashcards.lastId))
  }

  /** `review_flashcard`: the quality must lie in 0..5 and the card must
      exist; then the card takes one SM-2 step. */
  function ReviewFlashcard(s: Store, req: FlashcardReviewRequest, now: Timestamp): (r: Result<Store>)
    ensures r.Ok? <==> 0 <= req.quality <= 5 && req.flashcardId in s.flashcards.rows
    ensures !(0 <= req.quality <= 5) ==> r == Err(QualityOutOfRange)
    ensures 0 <= req.quality <= 5 && req.flashcardId !in s.flashcards.rows ==> r == Err(QueryReturnedNoRows)
    ensures r.Ok? ==> r.value == UpdateCard(s, req.flashcardId, Reviewed(s.flashcards.rows[req.flashcardId], req.quality, now))
    ensures r.Ok? && Valid(s) ==> Valid(r.value)
  {
    var check := Validation.ValidateQualityRating(req.quality);
    if check.Fail? then Err(check.error)
    else if req.flashcardId !in s.flashcards.rows then Err(QueryReturnedNoRows)
    else
      var c := s.flashcards.rows[req.flashcardId];
      Ok(UpdateCard(s, req.flashcardId, Reviewed(c, Sm2.Clamp(req.quality), now)))
  }

  /** A reviewed card leaves the queue for at least a day, in the model's
      numeric time order. */
  lemma ReviewedNotDueForADay(s: Store, req: FlashcardReviewRequest, now: Timestamp, later: Timestamp)
    requires ReviewFlashcard(s, req, now).Ok?
    requires Sm2.Reachable(s.flashcards.rows[req.flashcardId].Card())
    requires later < now + SecondsPerDay
    ensures var t := ReviewFlashcard(s, req, now).value;
      !Due(t, later, t.flashcards.rows[req.flashcardId])
  {
    var c := s.flashcards.rows[req.flashcardId];
    Sm2.TransitionReachable(c.Card(), req.quality);
  }

  // ---------------------------------------------------------------------
  // Store invariants the operations keep

  /** Every word has a flashcard. */
  ghost predicate EveryWordHasCard(s: Store) {
    forall k :: k in s.vocabulary.rows ==>
      exists j :: j in s.flashcards.rows && s.flashcards.rows[j].vocabularyId == k
  }

  /** Every stored card is in a state the scheduler can reach. */
  predicate CardsReachable(s: Store) {
    forall k :: k in s.flashcards.rows ==> Sm2.Reachable(s.flashcards.rows[k].Card())
  }

  lemma CreateKeepsInvariants(s: Store, req: CreateVocabularyRequest, now: Timestamp)
    requires WellKeyed(s) && EveryWordHasCard(s) && CardsReachable(s)
    requires CreateVocabulary(s, req, now).Ok?
    ensures var t := CreateVocabulary(s, req, now).value.0;
      EveryWordHasCard(t) && CardsReachable(t)
  {
    var (t, row) := CreateVocabulary(s, req, now).value;
    ProvisionKeepsInvariants(s, t, row, now);
  }

  lemma ProvisionKeepsInvariants(s: Store, t: Store, row: Vocabulary, now: Timestamp)
    requires WellKeyed(s) && EveryWordHasCard(s) && CardsReachable(s)
    requires row.id == s.vocabulary.NextId()
    requires t == s.(vocabulary := s.vocabulary.Insert(row),
                     flashcards := s.flashcards.Insert(NewCard(s.flashcards.NextId(), row.id, now)))
    ensures EveryWordHasCard(t) && CardsReachable(t)
  {
    var j := s.flashcards.NextId();
    Sm2.InitialReachable();
    assert j in t.flashcards.rows && t.flashcards.rows[j].vocabularyId == row.id;
    forall k | k in t.vocabulary.rows
      ensures exists i :: i in t.flashcards.rows && t.flashcards.rows[i].vocabularyId == k
    {
      if k != s.vocabulary.NextId() {
        var i :| i in s.flashcards.rows && s.flashcards.rows[i].vocabularyId == k;
        assert i != j;
        assert t.flashcards.rows[i] == s.flashcards.rows[i];
      }
    }
  }

  lemma ReviewKeepsInvariants(s: Store, req: FlashcardReviewRequest, now: Timestamp)
    requires EveryWordHasCard(s) && CardsReachable(s)
    requires ReviewFlashcard(s, req, now).Ok?
    ensures var t := ReviewFlashcard(s, req, now).value;
      EveryWordHasCard(t) && CardsReachable(t)
  {
    var t := ReviewFlashcard(s, req, now).value;
    var id := req.flashcardId;
    Sm2.TransitionReachable(s.flashcards.rows[id].Card(), req.quality);
    forall k | k in t.vocabulary.rows
      ensures exists i :: i in t.flashcards.rows && t.flashcards.rows[i].vocabularyId == k
    {
      var i :| i in s.flashcards.rows && s.flashcards.rows[i].vocabularyId == k;
      assert t.flashcards.rows[i].vocabularyId == k;
    }
  }
}
